=== FILE: README.md ===
# signialib preprocessing core in Dafny

signialib reads IMU recordings of Signia hearing aids. Each recording is a
`Dataset`: a `Header` of metadata, a sample `counter`, and one `Datastream` per
enabled sensor (`acc`, `gyro`). A `Session` groups the datasets of a left and a
right device. It can align them to the left device's length, calibrate them,
and downsample them to a lower rate. `align_calib_resample` chains those three
steps.

This project models that core in Dafny:

- `common.dfy` (module `Common`): results carrying the Python exceptions the
  code raises, the warnings it emits as returned diagnostics, and the few
  Python string and tuple operations the code relies on.
- `header.dfy` (module `Headers`):
  - the declared header fields;
  - the `Header` constructor, and the parser of the recorder's metadata dictionary;
  - the derived `duration_s` and `has_position_info`;
  - the read-only `_ProxyHeader` a session uses to read all of its headers at once.
- `dataset.dfy` (module `Datasets`):
  - stream and dataset states as values, with a `Dataset` class whose fields the operations update;
  - construction with factory calibration, and the measured calibration;
  - `downsample`, and the argument handling of `data_as_df`;
  - `split_into_sensor_data`, which fills an n×3 `array2` per sensor.
- `session.dfy` (module `Sessions`): a `Session` class over `Dataset` objects,
  with:
  - lookups by id and by position;
  - `align_to_syncregion`, `resample` and `calibrate_imu`, each in place or on a deep copy;
  - the `align_calib_resample` pipeline.
- `dataset_properties.dfy` and `session_properties.dfy`: the properties these
  operations keep, stated and proved as lemmas over the specification functions.

Each state-changing method is proved against a specification function on
states: `CalibrateImuSpec`, `DownsampleSpec`, `AlignSpec`, `ResampleSpec`,
`CalibrateSpec` and `PipelineSpec`.

- With `inplace` the object's new `State()` is the specification's state.
- Without it, the original's `State()` is unchanged.
- When the source raises part way through a loop, the specification returns
  the partly updated state together with the error. So the in-place object
  is described exactly even on failure.

The signal filters are typed functions. `scipy.signal.resample`, modelled as
`RowsResampleFn` and `CounterResampleFn`, returns exactly the number of rows
asked for, and raises ValueError exactly when its input is empty or the
target is zero rows.
`scipy.signal.decimate`, modelled as `DecimateFn`, keeps every `factor`-th row,
so `ceil(rows / factor)` rows, and may refuse a signal with ValueError (its
filter rejects signals that are too short). The loaded calibration is a
length-preserving `CalibrateFn` with the two units it produces.

## Model

| member | source | states |
|---|---|---|
| Common.IndexOfChar | signialib/header.py:175 | the separator is found at its first occurrence |
| Common.Split | signialib/header.py:175 | `str.split` yields at least one piece, and no piece contains the separator |
| Common.SplitJoin | signialib/header.py:175 | splitting loses nothing: joining the pieces with the separator gives the string back |
| Common.Matching | signialib/header.py:178 | the comprehension keeps exactly the entries that contain the needle, and never more entries than it was given |
| Common.FirstIndex | signialib/session.py:119 | `tuple.index` finds the first position holding the value |
| Headers.AllHeaderFieldsShape | signialib/header.py:21-67 | `_header_fields` is the 11 distinct annotated names; `_all_header_fields` appends 6 derived names, 17 in all, with `sensor_id` exactly at positions 8 and 15 |
| Headers.Get | signialib/header.py:21-38 | reading a header attribute succeeds exactly when it was set, yields the stored value, and otherwise raises AttributeError naming it |
| Headers.Subtract | signialib/header.py:69-72 | Python subtraction succeeds exactly on two numbers, else TypeError; integer minus integer is an integer, and the value is the difference |
| Headers.DurationS | signialib/header.py:69-72 | `duration_s` is `utc_stop - utc_start`; a missing `utc_stop` (read first) or `utc_start` raises AttributeError |
| Headers.HasPositionInfo | signialib/header.py:84-87 | `has_position_info` is defined exactly when a position is set, and is true exactly when the position is not "undefined" |
| Headers.HeaderAttr | signialib/header.py:47-87 | `getattr(header, name)`: the class's methods, its own and those inherited from `object`, resolve to methods; `_SENSOR_FLAGS` yields the ordered flag table; a declared field yields its value when set and AttributeError otherwise; no other name resolves to a method |
| Headers.NewHeader | signialib/header.py:150-161 | the loop over the keyword arguments leaves the header with the fields `FieldsOf` assigns (a later duplicate overwriting an earlier one) and one warning per undeclared name, in argument order |
| Headers.FieldsOfDomain | signialib/header.py:156-158 | a name is set on the new header exactly when it is a declared field and some keyword argument carries it |
| Headers.FieldsOfValues | signialib/header.py:156-158 | with distinct argument names, each declared argument's field holds that argument's value |
| Headers.FieldsOf | signialib/header.py:156-158 | the constructor only ever sets declared field names |
| Headers.ParseEnabledSensors | signialib/header.py:174-182 | parsing `activeSensors` succeeds exactly when "gyroscope" and "accelerometer" each match one comma-separated entry, else AssertionError; the result is `gyro` then `acc`, each kept exactly when its entry contains "enabled" |
| Headers.EnabledFrom | signialib/header.py:177-181 | the loop over `_SENSOR_FLAGS` fails only with AssertionError and enables at most one sensor per flag |
| Headers.EnabledFromAccepts | signialib/header.py:177-181 | the loop succeeds exactly when every flag's long name is contained in exactly one entry, and every name it enables is a flag's short name |
| Headers.FillHeaderDict | signialib/header.py:182-203 | the ten insertions leave the dictionary holding exactly the parsed keys in order, each with the value the metadata gives it |
| Headers.ParsedNoWarnings | signialib/header.py:156-161 | the parsed keys are all declared fields, so constructing the header warns about none |
| Headers.ParseHeaderDict | signialib/header.py:169-205 | the dictionary has the ten keys in insertion order with rate `fs`, ranges 2.0 and 1000.0, position `"ha_" + deviceSide`, `utc_start = utc_stop - length`, `sensor_id` the serial number; for a well-typed metadata record it fails exactly when the sensor parse fails, with AssertionError |
| Headers.ParsedFieldsDeclared | signialib/header.py:21-38 | every key the parser writes is a declared field, and `n_samples` is never written |
| Headers.HeaderFromParsed | signialib/header.py:163-167 | the header built from the parsed arguments sets exactly the parsed fields, each to its value, and not `n_samples` |
| Headers.ParsedHeaderNames | signialib/header.py:163-167 | the header built from the parsed dictionary sets only the parsed names, all of them, and leaves `n_samples` unset |
| Headers.ParsedHeaderValues | signialib/header.py:169-205 | on that header `duration_s` is the recording length, `has_position_info` is true, and `enabled_sensors`, `sampling_rate_hz` and `sensor_id` are the parsed values |
| Headers.FromDict | signialib/header.py:163-205 | for a well-typed metadata record `from_dict` succeeds exactly when the sensor parse does; then it emits no warning, leaves `n_samples` unset, `duration_s` equals the recording length, `has_position_info` is true, and rate, id and sensors are the metadata's |
| Headers.Collect | signialib/header.py:232 | the tuple comprehension over the headers succeeds exactly when every lookup does, with one value per header in header order |
| Headers.ProxyGet | signialib/header.py:222-232 | the proxy's own names resolve on the proxy; with no header the lookup raises IndexError; a method name resolves on the proxy when it starts with `__` and otherwise raises the callable-method ValueError; any other success is one value per header, in order |
| Headers.ProxySet | signialib/header.py:234-237 | a write through the proxy succeeds exactly for `_headers`; every other name raises NotImplementedError |
| Datasets.ActiveSensors | signialib/dataset.py:79-82 | `active_sensors` is the header's `enabled_sensors` in order; a header without it raises AttributeError |
| Datasets.GetStream | signialib/dataset.py:84-88 | reading a stream attribute yields the stream when set; unset `acc`/`gyro` read as None; any other stream name that is not set raises AttributeError |
| Datasets.StreamPairs | signialib/dataset.py:84-88 | `datastreams` yields each active sensor with its stream, in order, and fails exactly when some name cannot be read |
| Datasets.Datastreams | signialib/dataset.py:84-88 | `datastreams` propagates the error of `active_sensors`; otherwise it pairs each active sensor, in order, with its stream or None |
| Datasets.Dataset.Size | signialib/dataset.py:74-77 | `size` is the length of the counter, which is every active stream's row count in a consistent dataset |
| Datasets.CheckCalibration | signialib/dataset.py:192-220 | a missing stream gives the missing-stream warning and no error; a present stream whose inspected flag (factory or measured) is set raises RepeatedCalibrationError; any other stream is ready |
| Datasets.Scale | signialib/dataset.py:261 | every sample is multiplied by the constant; shapes are kept |
| Datasets.FactoryCalibrateAcc | signialib/dataset.py:243-263 | a non-acc stream fails the assertion; an already factory-calibrated acc is refused; otherwise the samples are scaled by gravity and the flag is set |
| Datasets.FactoryCalibrateGyro | signialib/dataset.py:222-241 | a non-gyro stream fails the assertion; an already factory-calibrated gyro is refused; otherwise only the flag is set |
| Datasets.CalibrationWarnings | signialib/dataset.py:176-219 | the checks report a missing acc, and a missing gyro unless the acc check has already raised; at most two warnings |
| Datasets.CalibrateImuSpec | signialib/dataset.py:174-190 | calibration keeps the header, the counter and the set of streams; a call that reports a missing stream changes nothing; the warnings of a successful call are those the checks emit |
| Datasets.DownsampleStreams | signialib/dataset.py:289-290 | the loop over `datastreams` never adds or removes a stream, even when it stops part way |
| Datasets.DividedRate | signialib/dataset.py:292 | true division by the factor succeeds exactly on a number, giving a float that times the factor is the old rate; anything else raises TypeError |
| Datasets.Retimed | signialib/dataset.py:291-292 | the end of downsampling keeps the streams; on success the counter was non-empty and now has the requested (positive) length, and the header keeps its fields |
| Datasets.DownsampleTo | signialib/dataset.py:288-293 | downsampling never adds or removes a stream; on success the counter was non-empty, now has the requested (positive) length, and the header keeps its fields |
| Datasets.DownsampleSpec | signialib/dataset.py:288-293 | as written: on success the counter has `len(counter) // factor` values, and the set of streams is unchanged (when it succeeds is `DownsampleSucceeds`) |
| Datasets.DownsampleCorrected | signialib/dataset.py:265-293 | corrected: on success the counter has `ceil(len(counter) / factor)` values, as many as each decimated stream |
| Datasets.IndexKindOf | signialib/dataset.py:337-343 | the index is accepted exactly when it is None, "counter" or "time"; another non-empty name raises the ValueError naming the allowed keys; the empty string passes the guard and fails the lookup with KeyError; "time" gives the index name "t" |
| Datasets.KeepWanted | signialib/dataset.py:347-348 | the kept column names are exactly the active names that are wanted |
| Datasets.SelectColumns | signialib/dataset.py:348 | the comprehension fails exactly when some wanted sensor's stream is None, and then with AttributeError |
| Datasets.Height | signialib/dataset.py:350 | the joined table has as many rows as its longest column, and some column has that many |
| Datasets.DataAsDf | signialib/dataset.py:337-360 | a table has at least one column and an accepted index; a counter or seconds index has one counter value per row; a seconds index needs a non-empty counter and a numeric rate |
| Datasets.Dataset.Create | signialib/dataset.py:95-126 | construction succeeds exactly when there is no stream to create or the header has a sampling rate; the new dataset holds the header, the counter and one stream per key, with `acc`/`gyro` factory calibrated |
| Datasets.Dataset.Copy | signialib/dataset.py:174 | the copy is a fresh dataset with the same state |
| Datasets.Dataset.CalibrateImu | signialib/dataset.py:153-190 | the result is that of the calibration specification, and the warnings are those the checks emit, also when one raises; a refused calibration, or any call without `inplace`, leaves this dataset unchanged; `inplace` returns this dataset itself |
| Datasets.Dataset.Downsample | signialib/dataset.py:265-293 | the result and the in-place state are those of the downsampling specification, including the partly updated state on failure; without `inplace` this dataset is unchanged; a result's size is the old size divided by the factor |
| Datasets.Dataset.Retime | signialib/dataset.py:291-292 | the counter and the header take the state and the error of the end of downsampling, the new counter kept when the rate then fails |
| Datasets.Dataset.DownsampleInPlace | signialib/dataset.py:288-293 | the fields take the downsampling specification's state and the error is its error; on success the size is the old size divided by the factor |
| Datasets.FillSensor | signialib/dataset.py:549-552 | one zero-initialised n×3 array whose column `idx` holds the table column the mapping names at `idx`; a missing column raises KeyError and a fourth axis raises IndexError |
| Datasets.SplitSensors | signialib/dataset.py:547-553 | the loop over the enabled sensors fails exactly when the split specification names an error, with that error; otherwise it returns one fresh, filled array per sensor and no other key |
| Datasets.SplitIntoSensorData | signialib/dataset.py:524-556 | one filled n×3 array per enabled sensor, exactly those keys, and the counter `0, 1, …, n-1`; a missing mapping or column raises KeyError |
| DatasetProperties.ConstructionFactoryCalibrated | signialib/dataset.py:116-125 | after construction a present acc is factory calibrated and scaled by gravity; a present gyro is factory calibrated with its samples as given; no stream carries a measured calibration |
| DatasetProperties.CalibrateRefused | signialib/dataset.py:176-217 | measured calibration is refused exactly when a present acc or gyro is already calibrated, and the acc is checked first |
| DatasetProperties.CalibrateApplied | signialib/dataset.py:179-189 | with both streams present and uncalibrated, both get the measured flag and the calibration's units, keep their row counts, and nothing else changes |
| DatasetProperties.CalibrateSkipped | signialib/dataset.py:176-219 | with a stream missing the dataset is unchanged and each missing stream is reported, acc before gyro |
| DatasetProperties.CalibrateWarnsBeforeRefusal | signialib/dataset.py:176-219 | with acc missing and gyro already calibrated, the missing acc is reported and then RepeatedCalibrationError is raised for gyro |
| DatasetProperties.CalibrateTwice | signialib/dataset.py:176-217 | a second measured calibration raises RepeatedCalibrationError for acc |
| DatasetProperties.CalibrateFlagsMonotone | signialib/dataset.py:186-188 | calibration never clears a factory or measured flag and never adds or removes a stream |
| DatasetProperties.CalibrateKeepsConsistent | signialib/dataset.py:183-185 | calibration keeps every active stream as long as the counter |
| DatasetProperties.DownsampleDistinctStreams | signialib/dataset.py:289-290 | when the decimator accepts each of them, the loop over distinct present streams raises nothing and replaces exactly the named streams by their decimated copies |
| DatasetProperties.DownsampleStreamsRefused | signialib/dataset.py:289-290 | a stream the decimator refuses makes the loop raise a ValueError |
| DatasetProperties.DecimatedStreams | signialib/dataset.py:289-290 | a loop that raised nothing shortened each named stream to `ceil(rows / factor)` rows and left the other streams as they were |
| DatasetProperties.DownsampleSucceeds | signialib/dataset.py:288-293 | on a consistent dataset with a numeric rate, downsampling raises nothing exactly when the decimator accepts every active stream and the counter has at least `factor` values (else it is resampled to zero values); any error is a ValueError |
| DatasetProperties.DownsampleShape | signialib/dataset.py:288-293 | after a successful downsampling of a consistent dataset the active sensors are unchanged, every active stream has `ceil(len(counter) / factor)` rows, inactive streams are untouched, and the counter has the length it was resampled to |
| DatasetProperties.DownsampleKeepsConsistent | signialib/dataset.py:288-293 | when the factor divides the number of samples, downsampling keeps a dataset consistent: counter and active streams end with `len(counter) // factor` rows |
| DatasetProperties.DownsampleCounterMismatch | signialib/dataset.py:288-293 | as written: when the factor does not divide the number of samples, every active stream ends one row longer than the counter, and the dataset is no longer consistent |
| DatasetProperties.DownsampleCorrectedKeepsConsistent | signialib/dataset.py:265-293 | corrected: decimating the counter like the streams keeps every consistent dataset consistent, whatever the factor |
| DatasetProperties.DownsampleCounter | signialib/dataset.py:291 | the counter ends with `len(counter) // factor` values |
| DatasetProperties.DownsampleRate | signialib/dataset.py:292 | the sampling rate is divided by the factor (true division) and every other header field is unchanged |
| DatasetProperties.DataAsDfRejectsIndex | signialib/dataset.py:342-343 | the index ValueError is raised exactly for a non-empty name other than "counter" and "time", whatever the selection |
| DatasetProperties.AcceptedIndexNotRefused | signialib/dataset.py:342-343 | an index the guard accepts never produces the index ValueError |
| DatasetProperties.DataAsDfDefaultIndex | signialib/dataset.py:357-359 | without an index the rows are renumbered and the index is named "n_samples"; the counter plays no part, so the export is the same whatever counter the dataset holds |
| DatasetProperties.SelectedColumns | signialib/dataset.py:347-350 | the selected columns are the wanted active sensors in active-sensor order, each with its stream's rows |
| DatasetProperties.DataAsDfColumns | signialib/dataset.py:346-350 | a table's columns are the selected active sensors in active-sensor order; an empty selection means all active sensors |
| DatasetProperties.DataAsDfSucceeds | signialib/dataset.py:337-360 | on a consistent dataset the export succeeds exactly when the index is accepted, some wanted sensor is active, and for the seconds index the counter is non-empty and the rate a number |
| DatasetProperties.ConsistentColumns | signialib/dataset.py:346-350 | on a consistent dataset the comprehension cannot fail, the table is empty exactly when no wanted sensor is active, and otherwise has one row per counter value |
| DatasetProperties.UniformColumns | signialib/dataset.py:346-350 | when every active stream has the same row count, the comprehension cannot fail and a non-empty table has that many rows |
| DatasetProperties.DownsampledCounterIndexRefused | signialib/dataset.py:352-356 | after the as-written downsampling by a factor that does not divide the number of samples, exporting with the counter as index raises the length-mismatch ValueError |
| Sessions.Infos | signialib/session.py:54-60 | the session's header view has one header per dataset, in order |
| Sessions.FieldValues | signialib/session.py:54-60 | reading a field through the session yields one value per dataset, in order; an empty session raises IndexError |
| Sessions.FirstWith | signialib/session.py:119-136 | the lookup finds the first dataset whose field holds the key; when none does it raises the given ValueError |
| Sessions.IndexById | signialib/session.py:110-119 | the index found holds the first dataset whose `sensor_id` is the id; when every id is readable and none matches, `tuple.index`'s ValueError; an empty session raises IndexError |
| Sessions.IndexOfPosition | signialib/session.py:121-136 | the index found holds the first dataset at that position; when every position is readable and none matches, the "not definded" ValueError; an empty session raises IndexError |
| Sessions.StepError | signialib/session.py:182-185 | a step of the alignment loop raises AttributeError exactly for a missing stream, and the resampling's ValueError for an empty stream or a target of zero rows |
| Sessions.AlignEach | signialib/session.py:182-185 | the alignment loop resamples each dataset's stream to `n` rows up to the first dataset whose stream is missing (AttributeError) or empty, or when `n` is zero (ValueError), and raises that step's error |
| Sessions.ReferenceRows | signialib/session.py:180 | the reference length is the row count of the `acc` stream of the first `ha_left` dataset; an empty session raises IndexError |
| Sessions.AlignPasses | signialib/session.py:182-185 | the two loops keep one dataset per dataset, and their error is the AttributeError of a missing stream or the ValueError of the resampling |
| Sessions.AlignSpec | signialib/session.py:175-187 | an aligned session is refused unchanged with SynchronisationError; the number of datasets is kept; the session ends aligned exactly when it was or the alignment succeeds |
| Sessions.DownsampleFactor | signialib/session.py:205-209 | the factor is at least one whenever it is accepted |
| Sessions.DownsampleEach | signialib/session.py:210 | every dataset is downsampled by the factor in turn; the first failure stops the comprehension with that dataset's partial state and error |
| Sessions.DownsampleEachSucceeds | signialib/session.py:210 | a comprehension that raised nothing downsampled every dataset without error, in order |
| Sessions.ResampleSpec | signialib/session.py:204-210 | resampling keeps the number of datasets and the aligned flag; an empty session raises IndexError |
| Sessions.StepWarnings | signialib/session.py:157 | a step with no calibration emits nothing; a successful step's warnings are these |
| Sessions.CalibrateEach | signialib/session.py:156-157 | each dataset of a zipped pair is kept when its calibration is None and calibrated otherwise; the first refused calibration stops the comprehension with its error |
| Sessions.Calibrated | signialib/session.py:157 | one step keeps the dataset's header, counter and set of streams |
| Sessions.CalibrateSpec | signialib/session.py:156-158 | calibration keeps the aligned flag; on failure every dataset is kept, and on success the datasets are cut to the zipped length |
| Sessions.StagesSpec | signialib/session.py:243-254 | a session that is not a pair gets the alignment-skipped warning first; an aligned pair is refused with SynchronisationError; a pair that runs through ends aligned |
| Sessions.PipelineSpec | signialib/session.py:213-254 | without a calibration path and without skipping, the pipeline raises ValueError and changes nothing; a pair that runs through ends aligned |
| Sessions.Session.States | signialib/session.py:51 | the session's state lists each dataset's state, in order |
| Sessions.Session.constructor | signialib/session.py:62-74 | a new session holds the datasets in the given order and is not aligned |
| Sessions.Session.Copy | signialib/session.py:147-149 | the deep copy is a fresh session of fresh datasets with the same state |
| Sessions.Session.GetDatasetById | signialib/session.py:110-119 | the dataset with the first matching `sensor_id`, or the `tuple.index` ValueError |
| Sessions.Session.GetDatasetByPosition | signialib/session.py:121-136 | the first dataset at that position, or the "not definded" ValueError when no dataset has it |
| Sessions.Session.ResampleAt | signialib/session.py:182-185 | one dataset's stream is replaced by its resampling to `n` rows and every other dataset is unchanged |
| Sessions.Session.ResampleStreams | signialib/session.py:182-185 | the loop rewrites the datasets exactly as the alignment pass specifies, leaving the rest unchanged |
| Sessions.Session.ResamplePasses | signialib/session.py:182-185 | the acc loop then the gyro loop rewrite the datasets as the two alignment passes specify, with the first pass's error stopping the second |
| Sessions.Session.AlignInPlace | signialib/session.py:175-187 | the new state is the alignment specification's state and the error is its error |
| Sessions.Session.AlignToSyncregion | signialib/session.py:160-187 | the result and in-place state follow the alignment specification; without `inplace` this session is unchanged |
| Sessions.Session.DownsampleAt | signialib/session.py:210 | one dataset is downsampled as its specification says and every other dataset is unchanged |
| Sessions.Session.DownsampleAll | signialib/session.py:210 | the loop downsamples the datasets exactly as the comprehension specifies |
| Sessions.Session.ResampleInPlace | signialib/session.py:204-210 | the new state is the resampling specification's state and the error is its error |
| Sessions.Session.Resample | signialib/session.py:189-211 | the result and in-place state follow the resampling specification; without `inplace` this session is unchanged |
| Sessions.Session.CalibrateAt | signialib/session.py:157 | one dataset is calibrated, or kept when its calibration is None, and every other dataset is unchanged; the step's warnings are returned also when it raises |
| Sessions.Session.CalibrateLoop | signialib/session.py:157 | the loop calibrates the zipped prefix, returning each dataset's warnings; a refusal stops it at that dataset with its error and the warnings that dataset emitted first |
| Sessions.FlattenWarnings | signialib/session.py:157 | the warnings of the successful steps, concatenated in order, are those the comprehension emits before the step that stops it |
| Sessions.Session.CalibrateAll | signialib/session.py:157 | the loop's states, warnings (including those of a refused dataset) and error are the comprehension's |
| Sessions.Session.CalibrateInPlace | signialib/session.py:156-158 | the new state is the calibration specification's state, and `datasets` is cut to the zipped length |
| Sessions.Session.CalibrateImu | signialib/session.py:138-158 | the result, warnings and in-place state follow the calibration specification; without `inplace` this session is unchanged |
| Sessions.Session.CopyingStages | signialib/session.py:241-254 | the three stages, each called on a new copy, return the pipeline's state, warnings and error |
| Sessions.Session.AlignCalibResample | signialib/session.py:213-254 | as written: the result follows the pipeline specification, and this session is never changed, whatever `inplace` says |
| Sessions.Session.StagesInPlace | signialib/session.py:241-254 | the stages applied to this session give the pipeline's state, warnings and error |
| Sessions.Session.AlignCalibResampleInPlace | signialib/session.py:213-254 | corrected: with `inplace` this session takes the pipeline's state and is returned; without it this session is unchanged |
| SessionProperties.FieldValuesWhenSet | signialib/session.py:54-60 | when every dataset has the field, the session's view is the tuple of those values in dataset order |
| SessionProperties.FieldValuesWhenUnset | signialib/header.py:225 | a field missing on the first header raises AttributeError |
| SessionProperties.AlignedDataset | signialib/session.py:182-185 | after both passes a dataset's acc and gyro have `n` rows; counter, header and other streams are kept |
| Sessions.AlignedCorrected | signialib/session.py:160-187 | corrected: a dataset aligned as documented has acc, gyro and counter all resampled to `n`, failing exactly on an empty counter |
| SessionProperties.CorrectedAlignKeepsConsistent | signialib/session.py:160-187 | corrected: with the counter resampled too, a consistent dataset whose active sensors are acc and gyro stays consistent, every stream and the counter having `n` rows |
| SessionProperties.AlignedKeepsConsistent | signialib/session.py:182-185 | an aligned dataset stays consistent exactly when its counter already had `n` values or neither acc nor gyro is active, because alignment leaves the counter as it was |
| SessionProperties.AlignPassComplete | signialib/session.py:182-185 | a pass that reaches the end rewrites every dataset |
| SessionProperties.AlignPassesSucceed | signialib/session.py:182-185 | both alignment loops run to the end exactly when every dataset has a non-empty `acc` and a non-empty `gyro` stream and `n` is positive |
| SessionProperties.AlignLengths | signialib/session.py:175-187 | a successful alignment started unaligned, found a `ha_left` dataset with a non-empty acc, marks the session aligned and resamples acc then gyro of every dataset to that acc's row count |
| SessionProperties.AlignStreamLengths | signialib/session.py:180-185 | after alignment each dataset's acc and gyro have the `ha_left` acc's row count; counters, headers and other streams are kept |
| SessionProperties.AlignTwiceRefused | signialib/session.py:177-178 | a second alignment raises SynchronisationError and changes nothing |
| SessionProperties.AlignRefusalsKeepState | signialib/session.py:177-180 | an aligned session, a missing `ha_left` dataset or a missing left acc is refused before any stream is written |
| SessionProperties.AlignToEmptyLeftRefused | signialib/session.py:180-183 | an empty `ha_left` acc makes the first dataset's step raise (ValueError when it has an acc) and the session is unchanged |
| SessionProperties.AlignNeedsLeftDevice | signialib/session.py:130-134 | without a `ha_left` dataset alignment raises the "not definded" ValueError and changes nothing |
| SessionProperties.IntegerFactor | signialib/session.py:205-209 | an integer rate is accepted exactly when it is at least the target and a multiple of it; the two refusals give their messages; the factor times the target is the rate |
| SessionProperties.RealFactor | signialib/session.py:205-209 | a float rate is accepted exactly when it is at least the target and the quotient is whole; the factor times the target is the rate |
| SessionProperties.ZeroTargetRefused | signialib/session.py:205-209 | a target of zero is always refused |
| SessionProperties.IntegerRateOverFactor | signialib/session.py:209-210 | an integer rate divided by its factor is the target |
| SessionProperties.RealRateOverFactor | signialib/session.py:209-210 | a float rate divided by its factor is the target |
| SessionProperties.ResampleRefusalsKeepState | signialib/session.py:205-208 | a refused rate raises its error before any dataset is changed |
| SessionProperties.ResampleOnFirstRate | signialib/session.py:205-210 | the decision reads only the first dataset's rate, and then every dataset is downsampled in turn by one factor |
| SessionProperties.ResampleEveryDataset | signialib/session.py:209-210 | a successful resample downsamples every dataset by the first rate's factor and keeps the aligned flag |
| SessionProperties.ResampleCounter | signialib/session.py:209-210 | every counter is shortened by that factor |
| SessionProperties.ResampleReachesTarget | signialib/session.py:209-210 | after a successful resample the first dataset runs at the target rate |
| SessionProperties.CalibrateEachNothing | signialib/session.py:157 | with no calibration for any dataset the comprehension keeps every dataset and emits nothing |
| SessionProperties.CalibrateNothing | signialib/session.py:156-157 | a session paired only with None is unchanged |
| SessionProperties.CalibrateKeepsPairs | signialib/session.py:157 | a successful calibration keeps one dataset per zipped pair, those paired with None unchanged and the others calibrated |
| SessionProperties.CalibrateFirstRefused | signialib/session.py:156-157 | a refused first dataset leaves the session unchanged and returns that dataset's warnings with the error |
| SessionProperties.CalibrateSessionTwice | signialib/session.py:156-157 | calibrating the first dataset again raises RepeatedCalibrationError |
| SessionProperties.PipelineNeedsCalibrationPath | signialib/session.py:238-239 | without a path and without skipping, the pipeline raises ValueError before any stage |
| SessionProperties.PipelineSkipsAll | signialib/session.py:243-254 | a session that is not a pair is not aligned and gets a warning; with calibration skipped and no rate nothing else happens |
| SessionProperties.PipelineAlignsPair | signialib/session.py:243-254 | stages run align, calibrate, resample, each on the previous result; a pair that succeeds ends aligned, so the result differs from the start |
| SessionProperties.AsWrittenIgnoresInPlace | signialib/session.py:241-254 | as written, a successful in-place run on an unaligned pair returns an aligned session while this one stays unaligned |
| SessionProperties.CorrectedAlignsInPlace | signialib/session.py:241-254 | corrected, the same run returns this session itself, now aligned |

## Left out

- File loading and other I/O are not modelled: `from_mat_file`, `parse_mat`, `Session.from_file_paths` and `from_folder_path`. The suffix check in `from_mat_file` builds an error without raising it, so it is not a check.
- The signal filters `scipy.signal.resample` and nilspodlib's `Datastream.downsample` are floating-point numerics. They are parameters that fix the number of rows they return and when they raise ValueError (resample: an empty input or a target of zero rows); for the decimator the model does not say for which lengths it raises.
- Gravity is a parameter of the construction. `SENSOR_MAPPINGS` (consts.py) is not part of this model, so the column mappings are a parameter of `SplitIntoSensorData`.
- Loading a calibration and `find_closest_calibration` touch the filesystem. The calibration is a length-preserving function with its two units. For the pipeline, the calibration found for each dataset is the `closest` parameter.
- Datetime handling is left out: `utc_datetime_start`, `utc_datetime_stop`, `strict_version_firmware` and the local-time conversion in `parse_header_dict`. The stop time is an integer input. `time_counter` is float division and is left out too.
- `data_as_df` builds a pandas frame. Unit labels and the index values themselves are left out. The model keeps index validation, column selection and order, the row count of `pd.concat`, the errors of assigning the index (an empty counter, a missing or non-numeric rate, a length mismatch), and the index kind and name.
- Datasets.GetStream: a sensor name that is also another attribute of `Dataset` (`size`, `info`, `counter`, a method name) resolves to that attribute in Python; the model treats any such name as an unset stream and raises AttributeError.
- Datasets.DataAsDf: when the active sensors include both an unset sensor name and a wanted stream that is None, the model raises the AttributeError of the unset name, while Python raises at whichever comes first; the error kind is the same.
- Datasets.DataAsDf: the length-mismatch ValueError carries only the start of pandas' message, "Length mismatch", without the two lengths pandas appends.
- Python floats, numpy float64 and the counter's values are exact reals: rounding, NaN and infinities are not modelled. The float modulo of `resample` is the one place where NaN is handled, explicitly.
- Boolean header values are not numbers in the model: `NumericRate`, `DividedRate` and `Subtract` refuse them, where Python would treat `True` as 1.
- `imu_data_as_df`, `__str__`, `__dir__` and `_ipython_display_` are display code and are left out.
- Warnings are returned as diagnostics, not emitted.
- Error messages are modelled in full except where they embed runtime objects. The position error keeps only its leading sentence, not the position and the tuple appended after it.
- Datastream is a value. Streams shared between objects and aliasing between datasets are not modelled.
- Sessions.Session.constructor: requires distinct dataset objects, and `Session.Valid` keeps that. `Session.__init__` stores the tuple it is given as is, so it accepts the same Dataset twice; only the deep copy and `from_file_paths` guarantee distinct objects. A session holding one dataset twice, where an in-place update through one position shows at the other, is not modelled.
- Datasets.Dataset.Downsample: requires a positive factor. Factor 0 divides by zero in the source; for a non-negative target the session only ever passes a factor of at least one.
- Sessions.DownsampleFactor: a boolean rate is refused with TypeError. Python would treat it as an integer.
- Sessions.DownsampleFactor: the target rate is a `nat`, so negative targets are not modelled (and neither are they in `ResampleSpec` and `PipelineSpec`). In Python a rate of 100.0 and a target of -50 pass both checks (`np.mod` gives -0.0) and give factor -2, and a rate of 0.0 gives factor 0.
- Headers.HeaderAttr: the data attributes every Python object has (`__doc__`, `__dict__`, `__module__`, `__weakref__`, `__annotations__`) are not modelled; for them it raises AttributeError. The methods inherited from `object` are modelled as methods.
- Headers.ParseEnabledSensors: reads "enabled" in the entry rather than in its `repr`, as the Headers.EnabledFrom line below explains.
- Headers.EnabledFrom: keeps a flag when its one matching entry contains "enabled". Python tests the `repr` of the one-element list holding that entry, where an escaped non-printable character can supply the leading letter: `"gyroscope\x0enabled"` reads as enabled in Python and not in the model. Python's `repr` escaping is not modelled; the same holds for Headers.ParseEnabledSensors.
- Headers.ParseHeaderDict: the metadata record is typed, so the errors Python raises on a malformed record are not modelled: KeyError for a missing key, TypeError for a non-string `deviceSide`, ValueError for an `fs` or `length` that is not a number. The same holds for Headers.FromDict.
- Setting a reserved name through `Header.__init__`, such as a method's name, is not modelled. Such names are not declared fields, so they only produce a warning.
- `resample` reads the first rate from `self` but downsamples the possibly copied `s`. The model reads the rate from the session it downsamples, which holds the same values when the checks run.

## Findings

| source | as written | input that shows it | evidently intended | confidence | as-written member | corrected member |
|---|---|---|---|---|---|---|
| signialib/session.py:241-254 | after `s = inplace_or_copy(self, inplace)` each stage is called with its default `inplace=False`, so every stage returns a new session and `self` is never changed | a session of two unaligned datasets with `ha_left` acc and gyro, `inplace=True`, `skip_calibration=True`, no rate: the returned session is aligned but `self._synced` stays false | with `inplace=True` the stages work on `self`, which ends aligned and is returned | not executed | Sessions.Session.AlignCalibResample, SessionProperties.AsWrittenIgnoresInPlace | Sessions.Session.AlignCalibResampleInPlace, SessionProperties.CorrectedAlignsInPlace |
| signialib/session.py:182-186 | `align_to_syncregion` resamples acc and gyro to the `ha_left` acc's row count but leaves every counter as it was, against its documentation ("all datasets are cut to the same length", session.py:163) and the equal-length assertions of tests/test_preprocessing.py:14-17 | two consistent 200 Hz datasets with acc and gyro, the `ha_left` one of 1000 samples and the other of 1010: after alignment the second has 1000 acc rows and 1010 counter values, so `len(session.acc[1]) != len(session.counter[1])` and it is no longer consistent | the counter is resampled to the same length as the streams | not executed | SessionProperties.AlignedKeepsConsistent, SessionProperties.AlignStreamLengths | Sessions.AlignedCorrected, SessionProperties.CorrectedAlignKeepsConsistent |
| signialib/dataset.py:291 | the streams are decimated to `ceil(n / factor)` rows, but the counter is resampled to `n // factor` values | a dataset of 5 samples with an active acc stream, downsampled by 2: acc keeps 3 rows, the counter gets 2 values, and `data_as_df(index="counter")` then raises the length-mismatch ValueError | the counter is decimated like the streams, as the method's documentation says (dataset.py:268), and keeps one value per row | not executed | Datasets.DownsampleSpec, DatasetProperties.DownsampleCounterMismatch, DatasetProperties.DownsampledCounterIndexRefused | Datasets.DownsampleCorrected, DatasetProperties.DownsampleCorrectedKeepsConsistent |

=== FILE: common.dfy ===
/** Shared vocabulary of the model: optional values, results with the
    exceptions the library raises, the warnings it emits, and the few string
    operations the header parser relies on. */
module Common {

  datatype Option<+T> = None | Some(value: T)

  /** The exceptions raised by the modelled code (and by the Python runtime
      where the code relies on it to fail). */
  datatype Error =
    | RepeatedCalibration(sensor: string, factory: bool)
    | Synchronisation
    | ValueError(reason: string)
    | KeyError(key: string)
    | AttributeError(name: string)
    | IndexError
    | ZeroDivision
    | TypeError
    | AssertionError
    | NotImplemented

  datatype Result<+T> = Success(value: T) | Failure(error: Error) {
    predicate IsFailure() { Failure? }

    function PropagateFailure<U>(): Result<U>
      requires Failure?
    {
      Failure(error)
    }

    function Extract(): T
      requires Success?
    {
      value
    }
  }

  /** Warnings the library emits instead of failing. */
  datatype Diagnostic =
    | StreamMissing(sensor: string, operation: string)
    | UnexpectedHeaderArgument(name: string)
    | AlignmentSkipped

  /** Python's `sub in s` for strings. */
  predicate Contains(s: string, sub: string)
    decreases |s|
  {
    sub <= s || (|s| > 0 && Contains(s[1..], sub))
  }

  function IndexOfChar(s: string, c: char): (i: nat)
    requires c in s
    ensures i < |s| && s[i] == c && c !in s[..i]
  {
    if s[0] == c then 0 else 1 + IndexOfChar(s[1..], c)
  }

  /** Python's `s.split(sep)` for a one-character separator: the pieces
      between separators, an empty piece where two separators touch. */
  function Split(s: string, sep: char): (pieces: seq<string>)
    ensures |pieces| >= 1
    ensures forall p :: p in pieces ==> sep !in p
    decreases |s|
  {
    if sep !in s then [s]
    else
      var i := IndexOfChar(s, sep);
      [s[..i]] + Split(s[i + 1..], sep)
  }

  /** Python's `sep.join(pieces)` for a one-character separator. */
  function Join(pieces: seq<string>, sep: char): string
    requires |pieces| >= 1
  {
    if |pieces| == 1 then pieces[0] else pieces[0] + [sep] + Join(pieces[1..], sep)
  }

  /** Splitting loses nothing: joining the pieces with the separator gives
      the string back. */
  lemma {:induction false} SplitJoin(s: string, sep: char)
    ensures Join(Split(s, sep), sep) == s
    decreases |s|
  {
    if sep in s {
      var i := IndexOfChar(s, sep);
      SplitJoin(s[i + 1..], sep);
      assert s == s[..i] + [sep] + s[i + 1..];
    }
  }

  /** The elements of `xs` that contain `needle`, in order (the list
      comprehension `[x for x in xs if needle in x]`). */
  function Matching(xs: seq<string>, needle: string): (r: seq<string>)
    ensures forall x :: x in r ==> x in xs && Contains(x, needle)
    ensures forall x :: x in xs && Contains(x, needle) ==> x in r
    ensures |r| <= |xs|
  {
    if xs == [] then []
    else if Contains(xs[0], needle) then [xs[0]] + Matching(xs[1..], needle)
    else Matching(xs[1..], needle)
  }

  predicate Distinct<T(==)>(xs: seq<T>) {
    forall i, j :: 0 <= i < j < |xs| ==> xs[i] != xs[j]
  }

  /** The position of the first occurrence of `x`, as Python's `tuple.index`. */
  function FirstIndex<T(==)>(xs: seq<T>, x: T): (i: nat)
    requires x in xs
    ensures i < |xs| && xs[i] == x
    ensures forall j :: 0 <= j < i ==> xs[j] != x
  {
    if xs[0] == x then 0 else 1 + FirstIndex(xs[1..], x)
  }
}

=== FILE: dataset.dfy ===
/** One recording of a single hearing aid (signialib/dataset.py): a header,
    a counter and named sensor streams, with the factory and measured
    calibration steps, downsampling, the table export's argument handling and
    the splitting of a raw sample table into per-sensor arrays. */
module Datasets {
  import opened Common
  import opened Headers

  type Row = seq<real>
  type Rows = seq<Row>

  /** The unit label of a stream that has not been calibrated. The stream
      class itself (nilspodlib's Datastream) is not part of this model. */
  const RAW_UNIT: string := "a.u."

  /** One sensor's samples and its calibration state. */
  datatype Datastream = Datastream(
    data: Rows,
    sensorType: string,
    unit: string,
    isFactoryCalibrated: bool,
    isCalibrated: bool,
    calibratedUnit: Option<string>)

  /** A stream as the Datastream constructor creates it: nothing calibrated. */
  function NewStream(data: Rows, sensorType: string): Datastream {
    Datastream(data, sensorType, RAW_UNIT, false, false, None)
  }

  /** The signal filters are foreign numerics; the model keeps only the
      length of what they return and the errors they raise. A stream's
      `downsample` applies `scipy.signal.decimate`, which filters and keeps
      every `q`-th row, so `(|x| + q - 1) / q` rows; its filter refuses a
      signal that is too short with ValueError. */
  type DecimateFn = f: (Rows, nat) -> Result<Rows>
    | forall x: Rows, q: nat :: q > 0 ==>
        && (f(x, q).Success? ==> |f(x, q).value| == (|x| + q - 1) / q)
        && (f(x, q).Failure? ==> f(x, q).error.ValueError?)
    witness (x: Rows, q: nat) => Result<Rows>.Failure(ValueError("decimate"))

  /** `scipy.signal.resample` of the counter to exactly `n` values. Its
      forward and inverse FFTs refuse zero data points with ValueError, so
      it fails exactly on an empty input or a target of zero. */
  type CounterResampleFn = f: (seq<real>, nat) -> Result<seq<real>>
    | forall x: seq<real>, n: nat ::
        && (f(x, n).Success? <==> |x| > 0 && n > 0)
        && (f(x, n).Success? ==> |f(x, n).value| == n)
        && (f(x, n).Failure? ==> f(x, n).error.ValueError?)
    witness (x: seq<real>, n: nat) =>
      if |x| > 0 && n > 0 then Result<seq<real>>.Success(seq(n, i => 0.0))
      else Result<seq<real>>.Failure(ValueError("resample"))

  /** `scipy.signal.resample` of a stream to exactly `n` rows, failing as
      the counter's does. */
  type RowsResampleFn = f: (Rows, nat) -> Result<Rows>
    | forall x: Rows, n: nat ::
        && (f(x, n).Success? <==> |x| > 0 && n > 0)
        && (f(x, n).Success? ==> |f(x, n).value| == n)
        && (f(x, n).Failure? ==> f(x, n).error.ValueError?)
    witness (x: Rows, n: nat) =>
      if |x| > 0 && n > 0 then Result<Rows>.Success(seq(n, i => []))
      else Result<Rows>.Failure(ValueError("resample"))

  /** The measured calibration applied to raw acc and gyro rows; it keeps
      the number of rows of each. */
  type CalibrateFn = f: (Rows, Rows, string, string) -> (Rows, Rows)
    | forall a: Rows, g: Rows, au: string, gu: string ::
        |f(a, g, au, gu).0| == |a| && |f(a, g, au, gu).1| == |g|
    witness (a: Rows, g: Rows, au: string, gu: string) => (a, g)

  /** A loaded calibration: its operation and the units it produces. */
  datatype Calibration = Calibration(calibrate: CalibrateFn, accUnit: string, gyrUnit: string)

  /** The observable state of a dataset: its header, its counter and the
      streams set on it by name. */
  datatype DatasetState = DatasetState(info: Header, counter: seq<real>, streams: map<string, Datastream>)

  // ---------------------------------------------------------------------
  // Reads

  /** Python's `tuple(v)` for the value of `enabled_sensors`: a list of
      names as it is, a string as its characters. */
  function SensorNames(v: Value): Result<seq<string>> {
    match v
    case Names(ns) => Success(ns)
    case Text(s) => Success(seq(|s|, i requires 0 <= i < |s| => [s[i]]))
    case _ => Failure(TypeError)
  }

  /** `active_sensors`: the header's enabled sensors, in order. */
  function ActiveSensors(info: Header): (r: Result<seq<string>>)
    ensures "enabled_sensors" !in info.fields ==> r == Failure(AttributeError("enabled_sensors"))
    ensures forall ns :: Get(info, "enabled_sensors") == Success(Names(ns)) ==> r == Success(ns)
    ensures r.Failure? ==> r.error == AttributeError("enabled_sensors") || r.error == TypeError
  {
    var v :- Get(info, "enabled_sensors");
    SensorNames(v)
  }

  function Lookup(streams: map<string, Datastream>, name: string): Option<Datastream> {
    if name in streams then Some(streams[name]) else None
  }

  /** `getattr(dataset, name)` for a stream name: `acc` and `gyro` default
      to None on the class, any other stream name that is not set is an
      attribute error. */
  function GetStream(streams: map<string, Datastream>, name: string): (r: Result<Option<Datastream>>)
    ensures r.Success? <==> name in streams || name == "acc" || name == "gyro"
    ensures r.Success? ==> r.value == Lookup(streams, name)
    ensures r.Failure? ==> r.error == AttributeError(name)
  {
    if name in streams then Success(Some(streams[name]))
    else if name == "acc" || name == "gyro" then Success(None)
    else Failure(AttributeError(name))
  }

  /** The pairs `datastreams` yields, read all the way through. */
  function StreamPairs(streams: map<string, Datastream>, names: seq<string>): (r: Result<seq<(string, Option<Datastream>)>>)
    ensures r.Success? <==> forall i :: 0 <= i < |names| ==> GetStream(streams, names[i]).Success?
    ensures r.Success? ==> |r.value| == |names|
    ensures r.Success? ==> forall i :: 0 <= i < |names| ==> r.value[i] == (names[i], Lookup(streams, names[i]))
    ensures r.Failure? ==> r.error.AttributeError?
  {
    if names == [] then Success([])
    else
      var first :- GetStream(streams, names[0]);
      var rest :- StreamPairs(streams, names[1..]);
      Success([(names[0], first)] + rest)
  }

  /** `datastreams`: each active sensor with its stream. */
  function Datastreams(st: DatasetState): (r: Result<seq<(string, Option<Datastream>)>>)
    ensures ActiveSensors(st.info).Failure? ==> r == Failure(ActiveSensors(st.info).error)
    ensures r.Success? ==> ActiveSensors(st.info).Success? && |r.value| == |ActiveSensors(st.info).value|
    ensures r.Success? ==> forall i :: 0 <= i < |r.value| ==>
      r.value[i] == (ActiveSensors(st.info).value[i], Lookup(st.streams, ActiveSensors(st.info).value[i]))
  {
    var names :- ActiveSensors(st.info);
    StreamPairs(st.streams, names)
  }

  /** The active sensors are distinct, and each has a stream with one row
      per counter value. */
  predicate Consistent(st: DatasetState) {
    && ActiveSensors(st.info).Success?
    && Distinct(ActiveSensors(st.info).value)
    && forall k :: k in ActiveSensors(st.info).value ==>
         k in st.streams && |st.streams[k].data| == |st.counter|
  }

  // ---------------------------------------------------------------------
  // Calibration

  /** What `_check_calibration` reports when it does not raise: the stream
      can be calibrated, or it is missing (with the warning it emits). */
  datatype CheckOutcome = Ready | Missing(warning: Diagnostic)

  /** The flag `_check_calibration` inspects. */
  predicate CalibratedFlag(ds: Datastream, factory: bool) {
    if factory then ds.isFactoryCalibrated else ds.isCalibrated
  }

  /** `_check_calibration`: a missing stream is reported, a stream already
      carrying the inspected flag is refused, any other stream is ready. */
  function CheckCalibration(ds: Option<Datastream>, name: string, factory: bool): (r: Result<CheckOutcome>)
    ensures r.Failure? <==> ds.Some? && CalibratedFlag(ds.value, factory)
    ensures r.Failure? ==> r.error == RepeatedCalibration(name, factory)
    ensures r == Success(Ready) <==> ds.Some? && !CalibratedFlag(ds.value, factory)
    ensures r.Success? && r.value.Missing? <==> ds.None?
    ensures r.Success? && r.value.Missing? ==> r.value.warning == StreamMissing(name, "calibration")
  {
    if ds.Some? then
      if CalibratedFlag(ds.value, factory) then Failure(RepeatedCalibration(name, factory))
      else Success(Ready)
    else Success(Missing(StreamMissing(name, "calibration")))
  }

  /** Every sample multiplied by `c`. */
  function Scale(rows: Rows, c: real): (r: Rows)
    ensures |r| == |rows|
    ensures forall i :: 0 <= i < |rows| ==> |r[i]| == |rows[i]|
    ensures forall i, j :: 0 <= i < |rows| && 0 <= j < |rows[i]| ==> r[i][j] == rows[i][j] * c
  {
    seq(|rows|, i requires 0 <= i < |rows| => seq(|rows[i]|, j requires 0 <= j < |rows[i]| => rows[i][j] * c))
  }

  /** `_factory_calibrate_acc`: the stream must be an acc stream not yet
      factory calibrated; its samples are scaled by the gravity constant. */
  function FactoryCalibrateAcc(acc: Datastream, grav: real): (r: Result<Datastream>)
    ensures r.Success? <==> acc.sensorType == "acc" && !acc.isFactoryCalibrated
    ensures acc.sensorType != "acc" ==> r == Failure(AssertionError)
    ensures acc.sensorType == "acc" && acc.isFactoryCalibrated ==> r == Failure(RepeatedCalibration("acc", true))
    ensures r.Success? ==> r.value == acc.(data := Scale(acc.data, grav), isFactoryCalibrated := true)
  {
    if acc.sensorType != "acc" then Failure(AssertionError)
    else
      var outcome :- CheckCalibration(Some(acc), "acc", true);
      if outcome.Ready? then Success(acc.(data := Scale(acc.data, grav), isFactoryCalibrated := true))
      else Success(acc)
  }

  /** `_factory_calibrate_gyro`: the stream must be a gyro stream not yet
      factory calibrated; only its flag changes. */
  function FactoryCalibrateGyro(gyro: Datastream): (r: Result<Datastream>)
    ensures r.Success? <==> gyro.sensorType == "gyro" && !gyro.isFactoryCalibrated
    ensures gyro.sensorType != "gyro" ==> r == Failure(AssertionError)
    ensures gyro.sensorType == "gyro" && gyro.isFactoryCalibrated ==> r == Failure(RepeatedCalibration("gyro", true))
    ensures r.Success? ==> r.value == gyro.(isFactoryCalibrated := true)
  {
    if gyro.sensorType != "gyro" then Failure(AssertionError)
    else
      var outcome :- CheckCalibration(Some(gyro), "gyro", true);
      if outcome.Ready? then Success(gyro.(isFactoryCalibrated := true))
      else Success(gyro)
  }

  /** The stream the constructor stores under `name`: a new stream, factory
      calibrated when it is `acc` or `gyro`. */
  function Initial(name: string, data: Rows, grav: real): Datastream {
    var ds := NewStream(data, name);
    if name == "acc" then FactoryCalibrateAcc(ds, grav).value
    else if name == "gyro" then FactoryCalibrateGyro(ds).value
    else ds
  }

  function InitialStreams(sensorData: map<string, Rows>, grav: real): map<string, Datastream> {
    map k | k in sensorData :: Initial(k, sensorData[k], grav)
  }

  function Warnings(outcome: CheckOutcome): seq<Diagnostic> {
    if outcome.Missing? then [outcome.warning] else []
  }

  /** The warnings the two checks of `calibrate_imu` emit, acc first, up
      to the first check that raises: a missing acc is reported even when
      the gyro check then refuses. */
  function CalibrationWarnings(st: DatasetState): (w: seq<Diagnostic>)
    ensures |w| <= 2
    ensures StreamMissing("acc", "calibration") in w <==> "acc" !in st.streams
    ensures StreamMissing("gyro", "calibration") in w
      <==> "gyro" !in st.streams && !("acc" in st.streams && st.streams["acc"].isCalibrated)
  {
    var accCheck := CheckCalibration(Lookup(st.streams, "acc"), "acc", false);
    if accCheck.Failure? then []
    else
      var gyroCheck := CheckCalibration(Lookup(st.streams, "gyro"), "gyro", false);
      Warnings(accCheck.value) + if gyroCheck.Failure? then [] else Warnings(gyroCheck.value)
  }

  /** `calibrate_imu` on the state of the (possibly copied) dataset: both
      streams are checked, acc first; only when both are ready is the
      calibration applied, to both at once. The warnings emitted on the
      way are `CalibrationWarnings(st)`, whether or not a check raises. */
  function CalibrateImuSpec(st: DatasetState, cal: Calibration): (r: Result<(DatasetState, seq<Diagnostic>)>)
    ensures r.Success? ==> r.value.0.info == st.info && r.value.0.counter == st.counter
    ensures r.Success? ==> r.value.0.streams.Keys == st.streams.Keys
    ensures r.Success? && r.value.1 != [] ==> r.value.0 == st
    ensures r.Success? ==> r.value.1 == CalibrationWarnings(st)
  {
    var accCheck :- CheckCalibration(Lookup(st.streams, "acc"), "acc", false);
    var gyroCheck :- CheckCalibration(Lookup(st.streams, "gyro"), "gyro", false);
    if accCheck.Ready? && gyroCheck.Ready? then
      var acc := st.streams["acc"];
      var gyro := st.streams["gyro"];
      var calibrated := cal.calibrate(acc.data, gyro.data, acc.unit, gyro.unit);
      var acc' := acc.(data := calibrated.0, isCalibrated := true, calibratedUnit := Some(cal.accUnit));
      var gyro' := gyro.(data := calibrated.1, isCalibrated := true, calibratedUnit := Some(cal.gyrUnit));
      Success((st.(streams := st.streams["acc" := acc']["gyro" := gyro']), []))
    else
      Success((st, Warnings(accCheck) + Warnings(gyroCheck)))
  }

  // ---------------------------------------------------------------------
  // Downsampling

  /** The loop of `downsample` over `datastreams`: each named stream is
      replaced by its decimated copy. The generator looks each name up
      after the previous replacement, so a repeated name is decimated
      again. A missing `acc`/`gyro` is None, which has no `downsample`.
      A stream the decimator refuses raises its error. On failure the
      streams replaced so far are returned with the error. */
  function DownsampleStreams(streams: map<string, Datastream>, names: seq<string>, q: nat, decimate: DecimateFn)
    : (r: (map<string, Datastream>, Option<Error>))
    ensures r.0.Keys == streams.Keys
    decreases |names|
  {
    if names == [] then (streams, None)
    else
      var found := GetStream(streams, names[0]);
      if found.Failure? then (streams, Some(found.error))
      else if found.value.None? then (streams, Some(AttributeError("downsample")))
      else
        var ds := found.value.value;
        var decimated := decimate(ds.data, q);
        if decimated.Failure? then (streams, Some(decimated.error))
        else DownsampleStreams(streams[names[0] := ds.(data := decimated.value)], names[1..], q, decimate)
  }

  /** `sampling_rate_hz /= factor` (true division). */
  function DividedRate(rate: Value, q: nat): (r: Result<Value>)
    requires q > 0
    ensures r.Success? <==> rate.Int? || rate.Real?
    ensures r.Failure? ==> r.error == TypeError
    ensures r.Success? ==> r.value.Real? && r.value.r * q as real == Numeric(rate)
  {
    match rate
    case Int(x) => Success(Real(x as real / q as real))
    case Real(x) => Success(Real(x / q as real))
    case _ => Failure(TypeError)
  }

  /** The end of `downsample`, once the streams are decimated: the counter
      is resampled to `counterRows` values, then the header's rate is
      divided by `q`. A failing rate keeps the new counter. */
  function Retimed(st: DatasetState, q: nat, resample: CounterResampleFn, counterRows: nat)
    : (r: (DatasetState, Option<Error>))
    requires q > 0
    ensures r.0.streams == st.streams
    ensures r.1.None? ==> |r.0.counter| == counterRows && r.0.info.fields.Keys == st.info.fields.Keys
    ensures r.1.None? ==> |st.counter| > 0 && counterRows > 0
  {
    var counter := resample(st.counter, counterRows);
    if counter.Failure? then (st, Some(counter.error))
    else
      var moved := st.(counter := counter.value);
      var rate := Get(st.info, "sampling_rate_hz");
      if rate.Failure? then (moved, Some(rate.error))
      else
        var divided := DividedRate(rate.value, q);
        if divided.Failure? then (moved, Some(divided.error))
        else (moved.(info := Header(st.info.fields["sampling_rate_hz" := divided.value])), None)
  }

  /** `downsample` on the state of the (possibly copied) dataset, with the
      counter resampled to `counterRows` values: the new state, which is
      partly updated when an error is raised part way, and the error if any. */
  function DownsampleTo(st: DatasetState, q: nat, decimate: DecimateFn, resample: CounterResampleFn, counterRows: nat)
    : (r: (DatasetState, Option<Error>))
    requires q > 0
    ensures r.0.streams.Keys == st.streams.Keys
    ensures r.1.None? ==> |r.0.counter| == counterRows && r.0.info.fields.Keys == st.info.fields.Keys
    ensures r.1.None? ==> |st.counter| > 0 && counterRows > 0
  {
    var names := ActiveSensors(st.info);
    if names.Failure? then (st, Some(names.error))
    else
      var (streams, err) := DownsampleStreams(st.streams, names.value, q, decimate);
      if err.Some? then (st.(streams := streams), err)
      else Retimed(st.(streams := streams), q, resample, counterRows)
  }

  /** `downsample` as written: the counter is resampled to
      `len(counter) // factor` values. */
  function DownsampleSpec(st: DatasetState, q: nat, decimate: DecimateFn, resample: CounterResampleFn)
    : (r: (DatasetState, Option<Error>))
    requires q > 0
    ensures r.0.streams.Keys == st.streams.Keys
    ensures r.1.None? ==> |r.0.counter| == |st.counter| / q
  {
    DownsampleTo(st, q, decimate, resample, |st.counter| / q)
  }

  /** `downsample` as its documentation describes it: the counter is
      decimated like the streams, so it keeps `(len(counter) + factor - 1) //
      factor` values, one per decimated row. */
  function DownsampleCorrected(st: DatasetState, q: nat, decimate: DecimateFn, resample: CounterResampleFn)
    : (r: (DatasetState, Option<Error>))
    requires q > 0
    ensures r.0.streams.Keys == st.streams.Keys
    ensures r.1.None? ==> |r.0.counter| == (|st.counter| + q - 1) / q
  {
    DownsampleTo(st, q, decimate, resample, (|st.counter| + q - 1) / q)
  }

  // ---------------------------------------------------------------------
  // Table export

  /** The row index of an exported table. */
  datatype IndexKind = RowNumbers | CounterValues | SecondsSinceStart

  /** The exported table: the included streams' rows under their sensor
      names, in order, and the row index with its name. */
  datatype Table = Table(columns: seq<(string, Rows)>, index: IndexKind, indexName: string)

  /** The message of the error for an index that is not allowed. */
  function IndexNotAllowed(name: string): string {
    "Supplied value for index (" + name + ") is not allowed. Allowed values: dict_keys([None, 'counter', 'time'])"
  }

  /** The index lookup of `data_as_df`: None, "counter" and "time" are the
      keys of its name table; the empty string passes the guard (it is
      falsy) and then fails the lookup. */
  function IndexKindOf(index: Option<string>): (r: Result<(IndexKind, string)>)
    ensures r.Success? <==> index.None? || index == Some("counter") || index == Some("time")
    ensures r.Failure? && index == Some("") ==> r.error == KeyError("")
    ensures r.Failure? && index != Some("") ==> r.error == ValueError(IndexNotAllowed(index.value))
    ensures r.Success? ==> r.value.1 == (if index == Some("time") then "t" else "n_samples")
    ensures r.Success? ==> (r.value.0 == RowNumbers <==> index.None?)
  {
    match index
    case None => Success((RowNumbers, "n_samples"))
    case Some(name) =>
      if name == "" then Failure(KeyError(""))
      else if name == "counter" then Success((CounterValues, "n_samples"))
      else if name == "time" then Success((SecondsSinceStart, "t"))
      else Failure(ValueError(IndexNotAllowed(name)))
  }

  /** The reference order of the columns: the names of `names` that are in
      `wanted`, in the order of `names`. */
  function KeepWanted(names: seq<string>, wanted: seq<string>): (r: seq<string>)
    ensures forall k :: k in r <==> k in names && k in wanted
  {
    if names == [] then []
    else (if names[0] in wanted then [names[0]] else []) + KeepWanted(names[1..], wanted)
  }

  /** Some wanted sensor has no stream. */
  predicate WantedButMissing(pairs: seq<(string, Option<Datastream>)>, wanted: seq<string>) {
    exists i :: 0 <= i < |pairs| && pairs[i].0 in wanted && pairs[i].1.None?
  }

  /** The list comprehension over `datastreams`: a wanted sensor whose
      stream is None fails when its table is requested. */
  function SelectColumns(pairs: seq<(string, Option<Datastream>)>, wanted: seq<string>)
    : (r: Result<seq<(string, Rows)>>)
    ensures r.Failure? <==> WantedButMissing(pairs, wanted)
    ensures r.Failure? ==> r.error == AttributeError("data_as_df")
  {
    if pairs == [] then Success([])
    else
      var (k, ds) := pairs[0];
      if k !in wanted then SelectColumns(pairs[1..], wanted)
      else if ds.None? then Failure(AttributeError("data_as_df"))
      else
        var rest :- SelectColumns(pairs[1..], wanted);
        Success([(k, ds.value.data)] + rest)
  }

  /** The number of rows of `pd.concat(dfs, axis=1)`: the tables are joined
      on their row numbers, so the longest column decides. */
  function Height(columns: seq<(string, Rows)>): (h: nat)
    ensures forall i :: 0 <= i < |columns| ==> |columns[i].1| <= h
    ensures columns != [] ==> exists i :: 0 <= i < |columns| && |columns[i].1| == h
    ensures columns == [] ==> h == 0
  {
    if columns == [] then 0
    else
      var rest := Height(columns[1..]);
      if |columns[0].1| >= rest then |columns[0].1| else rest
  }

  /** The start of the message pandas raises when an index of the wrong
      length is assigned to a table. */
  const LENGTH_MISMATCH: string := "Length mismatch"

  /** Whether `counter / sampling_rate_hz` can be computed: the header has
      the rate and it is a number. */
  predicate NumericRate(info: Header) {
    "sampling_rate_hz" in info.fields && (info.fields["sampling_rate_hz"].Int? || info.fields["sampling_rate_hz"].Real?)
  }

  /** `data_as_df` without units: the index is validated first, an empty
      or absent selection means all active sensors, and concatenating no
      streams fails. A counter or seconds index is then assigned to the
      table, which pandas refuses unless it has one value per row. The
      seconds index `time_counter` first reads the counter's first value,
      which an empty counter lacks (IndexError); a missing rate makes
      `getattr(self, "time_counter", None)` yield None, and a non-numeric
      one fails the division, both raising TypeError. The model reads
      every pair before selecting; the comprehension interleaves the reads
      with the selection, so when both an unset sensor name and a wanted
      stream that is None occur, Python raises at whichever comes first.
      Either way the error is an AttributeError. */
  function DataAsDf(st: DatasetState, selection: Option<seq<string>>, index: Option<string>): (r: Result<Table>)
    ensures r.Success? ==> r.value.columns != [] && IndexKindOf(index).Success?
    ensures r.Success? && r.value.index != RowNumbers ==> |st.counter| == Height(r.value.columns)
    ensures r.Success? && r.value.index == SecondsSinceStart ==> |st.counter| > 0 && NumericRate(st.info)
  {
    var (kind, name) :- IndexKindOf(index);
    var wanted :- if selection.None? || selection.value == [] then ActiveSensors(st.info) else Success(selection.value);
    var pairs :- Datastreams(st);
    var columns :- SelectColumns(pairs, wanted);
    if columns == [] then Failure(ValueError("No objects to concatenate"))
    else if kind == RowNumbers then Success(Table(columns, kind, name))
    else if kind == SecondsSinceStart && st.counter == [] then Failure(IndexError)
    else if kind == SecondsSinceStart && !NumericRate(st.info) then Failure(TypeError)
    else if |st.counter| != Height(columns) then Failure(ValueError(LENGTH_MISMATCH))
    else Success(Table(columns, kind, name))
  }

  // ---------------------------------------------------------------------
  // The dataset object

  class Dataset {
    var info: Header
    var counter: seq<real>
    var streams: map<string, Datastream>

    function State(): DatasetState
      reads this
    {
      DatasetState(info, counter, streams)
    }

    /** `size`: the number of samples, which every active stream of a
        consistent dataset has as rows. */
    function Size(): (n: nat)
      reads this
      ensures Consistent(State()) ==> forall k :: k in ActiveSensors(info).value ==> |streams[k].data| == n
    {
      |counter|
    }

    constructor OfState(st: DatasetState)
      ensures State() == st
    {
      info := st.info;
      counter := st.counter;
      streams := st.streams;
    }

    /** The deep copy `inplace_or_copy` makes. */
    method Copy() returns (c: Dataset)
      ensures fresh(c) && c.State() == State()
    {
      c := new Dataset.OfState(State());
    }

    /** `Dataset.__init__`: every given array becomes a stream named by its
        key; `acc` and `gyro` are factory calibrated. Creating a stream reads
        the header's sampling rate, so a header without one fails as soon as
        there is a stream to create. */
    static method Create(sensorData: map<string, Rows>, counter: seq<real>, info: Header, grav: real)
      returns (r: Result<Dataset>)
      ensures r.Success? <==> sensorData == map[] || "sampling_rate_hz" in info.fields
      ensures r.Failure? ==> r.error == AttributeError("sampling_rate_hz")
      ensures r.Success? ==> fresh(r.value) && r.value.State() == DatasetState(info, counter, InitialStreams(sensorData, grav))
    {
      var d := new Dataset.OfState(DatasetState(info, counter, map[]));
      var remaining := sensorData.Keys;
      while remaining != {}
        invariant remaining <= sensorData.Keys
        invariant fresh(d) && d.info == info && d.counter == counter
        invariant d.streams.Keys == sensorData.Keys - remaining
        invariant remaining == sensorData.Keys || "sampling_rate_hz" in info.fields
        invariant forall k :: k in d.streams ==> d.streams[k] == Initial(k, sensorData[k], grav)
        decreases remaining
      {
        var k :| k in remaining;
        var rate := Get(info, "sampling_rate_hz");
        if rate.Failure? {
          return Failure(rate.error);
        }
        var ds := NewStream(sensorData[k], k);
        if k == "acc" {
          var calibrated := FactoryCalibrateAcc(ds, grav);
          ds := calibrated.value;
        } else if k == "gyro" {
          var calibrated := FactoryCalibrateGyro(ds);
          ds := calibrated.value;
        }
        d.streams := d.streams[k := ds];
        remaining := remaining - {k};
      }
      assert d.streams == InitialStreams(sensorData, grav);
      assert sensorData.Keys == {} ==> sensorData == map[];
      return Success(d);
    }

    /** `calibrate_imu`: both checks run before anything is written, so a
        refused calibration leaves even an in-place dataset untouched; the
        warnings emitted before a refusal are returned with it. */
    method CalibrateImu(cal: Calibration, inplace: bool) returns (r: Result<Dataset>, warnings: seq<Diagnostic>)
      modifies if inplace then {this} else {}
      ensures var spec := CalibrateImuSpec(old(State()), cal);
        && (r.Success? <==> spec.Success?)
        && (r.Failure? ==> r.error == spec.error)
        && (r.Success? ==> r.value.State() == spec.value.0)
      ensures warnings == CalibrationWarnings(old(State()))
      ensures r.Success? && inplace ==> r.value == this
      ensures r.Success? && !inplace ==> fresh(r.value)
      ensures r.Failure? || !inplace ==> State() == old(State())
    {
      var s := this;
      if !inplace {
        s := Copy();
      }
      warnings := [];
      var accCheck := CheckCalibration(Lookup(s.streams, "acc"), "acc", false);
      if accCheck.Failure? {
        return Failure(accCheck.error), warnings;
      }
      var gyroCheck := CheckCalibration(Lookup(s.streams, "gyro"), "gyro", false);
      if gyroCheck.Failure? {
        return Failure(gyroCheck.error), Warnings(accCheck.value);
      }
      if accCheck.value.Ready? && gyroCheck.value.Ready? {
        var acc := s.streams["acc"];
        var gyro := s.streams["gyro"];
        var calibrated := cal.calibrate(acc.data, gyro.data, acc.unit, gyro.unit);
        s.streams := s.streams["acc" := acc.(data := calibrated.0, isCalibrated := true, calibratedUnit := Some(cal.accUnit))];
        s.streams := s.streams["gyro" := gyro.(data := calibrated.1, isCalibrated := true, calibratedUnit := Some(cal.gyrUnit))];
      } else {
        warnings := Warnings(accCheck.value) + Warnings(gyroCheck.value);
      }
      r := Success(s);
    }

    /** `downsample`: every active stream is decimated, then the counter is
        resampled to `|counter| / factor` values, then the sampling rate is
        divided. An in-place dataset keeps whatever was replaced before an
        error. */
    method Downsample(factor: nat, inplace: bool, decimate: DecimateFn, resample: CounterResampleFn)
      returns (r: Result<Dataset>)
      requires factor > 0
      modifies if inplace then {this} else {}
      ensures var spec := DownsampleSpec(old(State()), factor, decimate, resample);
        && (r.Success? <==> spec.1.None?)
        && (r.Failure? ==> r.error == spec.1.value)
        && (r.Success? ==> r.value.State() == spec.0)
        && (inplace ==> State() == spec.0)
      ensures r.Success? ==> r.value.Size() == old(Size()) / factor
      ensures r.Success? && inplace ==> r.value == this
      ensures r.Success? && !inplace ==> fresh(r.value)
      ensures !inplace ==> State() == old(State())
    {
      var s := this;
      if !inplace {
        s := Copy();
      }
      var err := s.DownsampleInPlace(factor, decimate, resample);
      if err.Some? {
        return Failure(err.value);
      }
      r := Success(s);
    }

    /** The counter resampled to `counterRows` values, then the rate
        divided by `factor`. */
    method Retime(factor: nat, resample: CounterResampleFn, counterRows: nat) returns (err: Option<Error>)
      requires factor > 0
      modifies this
      ensures var spec := Retimed(old(State()), factor, resample, counterRows);
        err == spec.1 && State() == spec.0
    {
      var resampled := resample(counter, counterRows);
      if resampled.Failure? {
        return Some(resampled.error);
      }
      counter := resampled.value;
      var rate := Get(info, "sampling_rate_hz");
      if rate.Failure? {
        return Some(rate.error);
      }
      var divided := DividedRate(rate.value, factor);
      if divided.Failure? {
        return Some(divided.error);
      }
      info := Header(info.fields["sampling_rate_hz" := divided.value]);
      err := None;
    }

    /** The body of `downsample` on the dataset it works on: the streams of
        the enabled sensors are decimated one by one, then the counter, then
        the header's rate. */
    method DownsampleInPlace(factor: nat, decimate: DecimateFn, resample: CounterResampleFn) returns (err: Option<Error>)
      requires factor > 0
      modifies this
      ensures var spec := DownsampleSpec(old(State()), factor, decimate, resample);
        err == spec.1 && State() == spec.0
      ensures err.None? ==> Size() == old(Size()) / factor
    {
      ghost var st := State();
      var names := ActiveSensors(info);
      if names.Failure? {
        return Some(names.error);
      }
      var keys := names.value;
      var i := 0;
      while i < |keys|
        invariant 0 <= i <= |keys|
        invariant info == st.info && counter == st.counter
        invariant DownsampleStreams(streams, keys[i..], factor, decimate)
          == DownsampleStreams(st.streams, keys, factor, decimate)
      {
        var found := GetStream(streams, keys[i]);
        if found.Failure? {
          return Some(found.error);
        }
        if found.value.None? {
          return Some(AttributeError("downsample"));
        }
        var ds := found.value.value;
        var decimated := decimate(ds.data, factor);
        if decimated.Failure? {
          return Some(decimated.error);
        }
        assert keys[i..][1..] == keys[i + 1..];
        streams := streams[keys[i] := ds.(data := decimated.value)];
        i := i + 1;
      }
      err := Retime(factor, resample, |counter| / factor);
    }
  }

  // ---------------------------------------------------------------------
  // split_into_sensor_data

  /** What stops the split: a sensor without a mapping, a mapped column the
      table lacks (looked up before the assignment), or a fourth axis for a
      three-column array. */
  function SplitError(enabled: seq<string>, mappings: map<string, seq<string>>, table: map<string, seq<real>>)
    : Option<Error>
  {
    if enabled == [] then None
    else if enabled[0] !in mappings then Some(KeyError(enabled[0]))
    else match AxisError(mappings[enabled[0]], 0, table)
      case Some(e) => Some(e)
      case None => SplitError(enabled[1..], mappings, table)
  }

  function AxisError(axes: seq<string>, idx: nat, table: map<string, seq<real>>): Option<Error>
    decreases |axes|
  {
    if axes == [] then None
    else if axes[0] !in table then Some(KeyError(axes[0]))
    else if idx >= 3 then Some(IndexError)
    else AxisError(axes[1..], idx + 1, table)
  }

  /** The n×3 array of one sensor: column `idx` holds the table column the
      mapping names at `idx`; columns without a mapping stay zero. */
  predicate Filled(a: array2<real>, axes: seq<string>, table: map<string, seq<real>>, n: nat)
    reads a
  {
    && a.Length0 == n && a.Length1 == 3 && |axes| <= 3
    && (forall axis :: axis in axes ==> axis in table)
    && (forall j, idx :: 0 <= j < n && 0 <= idx < |axes| ==> |table[axes[idx]]| == n && a[j, idx] == table[axes[idx]][j])
    && (forall j, idx :: 0 <= j < n && |axes| <= idx < 3 ==> a[j, idx] == 0.0)
  }

  /** The inner loop of the split for one sensor: a zero n×3 array whose
      columns are filled from the mapped table columns in turn. */
  method FillSensor(axes: seq<string>, table: map<string, seq<real>>, n: nat) returns (r: Result<array2<real>>)
    requires forall c :: c in table ==> |table[c]| == n
    ensures r.Failure? <==> AxisError(axes, 0, table).Some?
    ensures r.Failure? ==> r.error == AxisError(axes, 0, table).value
    ensures r.Success? ==> fresh(r.value) && Filled(r.value, axes, table, n)
  {
    var a := new real[n, 3]((j, idx) => 0.0);
    var idx := 0;
    while idx < |axes|
      invariant 0 <= idx <= |axes|
      invariant idx <= 3
      invariant AxisError(axes, 0, table) == AxisError(axes[idx..], idx, table)
      invariant forall axis :: axis in axes[..idx] ==> axis in table
      invariant forall j, c :: 0 <= j < n && 0 <= c < idx ==> a[j, c] == table[axes[c]][j]
      invariant forall j, c :: 0 <= j < n && idx <= c < 3 ==> a[j, c] == 0.0
    {
      assert axes[idx..][1..] == axes[idx + 1..];
      if axes[idx] !in table {
        return Failure(KeyError(axes[idx]));
      }
      if idx >= 3 {
        return Failure(IndexError);
      }
      var column := table[axes[idx]];
      var j := 0;
      while j < n
        invariant 0 <= j <= n
        invariant forall j', c :: 0 <= j' < n && 0 <= c < idx ==> a[j', c] == table[axes[c]][j']
        invariant forall j', c :: 0 <= j' < n && idx < c < 3 ==> a[j', c] == 0.0
        invariant forall j' :: 0 <= j' < j ==> a[j', idx] == column[j']
        invariant forall j' :: j <= j' < n ==> a[j', idx] == 0.0
      {
        a[j, idx] := column[j];
        j := j + 1;
      }
      assert axes[..idx + 1] == axes[..idx] + [axes[idx]];
      idx := idx + 1;
    }
    assert axes[..idx] == axes;
    r := Success(a);
  }

  /** The loop of `split_into_sensor_data` over the enabled sensors: one
      filled n×3 array per sensor, or the first missing mapping or column. */
  method SplitSensors(sensors: seq<string>, table: map<string, seq<real>>, n: nat, mappings: map<string, seq<string>>)
    returns (r: Result<map<string, array2<real>>>)
    requires forall c :: c in table ==> |table[c]| == n
    ensures r.Failure? <==> SplitError(sensors, mappings, table).Some?
    ensures r.Failure? ==> r.error == SplitError(sensors, mappings, table).value
    ensures r.Success? ==> forall k :: k in r.value <==> k in sensors
    ensures r.Success? ==> forall k :: k in r.value ==>
      && fresh(r.value[k])
      && k in mappings
      && Filled(r.value[k], mappings[k], table, n)
  {
    var sensorData: map<string, array2<real>> := map[];
    var i := 0;
    while i < |sensors|
      invariant 0 <= i <= |sensors|
      invariant SplitError(sensors, mappings, table) == SplitError(sensors[i..], mappings, table)
      invariant forall k :: k in sensorData <==> k in sensors[..i]
      invariant forall k :: k in sensorData ==>
        && fresh(sensorData[k])
        && k in mappings
        && Filled(sensorData[k], mappings[k], table, n)
    {
      var sensor := sensors[i];
      assert sensors[i..][1..] == sensors[i + 1..];
      if sensor !in mappings {
        return Failure(KeyError(sensor));
      }
      var filled := FillSensor(mappings[sensor], table, n);
      if filled.Failure? {
        return Failure(filled.error);
      }
      sensorData := sensorData[sensor := filled.value];
      assert sensors[..i + 1] == sensors[..i] + [sensor];
      i := i + 1;
    }
    assert sensors[..i] == sensors;
    r := Success(sensorData);
  }

  /** `split_into_sensor_data`: one n×3 array per enabled sensor, filled
      through the sensor's axis mapping, and the counter `0, 1, …, n-1`.
      The table's columns all have the table's `n` rows. */
  method SplitIntoSensorData(table: map<string, seq<real>>, n: nat, header: Header, mappings: map<string, seq<string>>)
    returns (r: Result<(seq<real>, map<string, array2<real>>)>)
    requires forall c :: c in table ==> |table[c]| == n
    ensures var enabled := ActiveSensors(header);
      && (r.Failure? <==> enabled.Failure? || SplitError(enabled.value, mappings, table).Some?)
      && (r.Failure? ==> r.error == if enabled.Failure? then enabled.error else SplitError(enabled.value, mappings, table).value)
      && (r.Success? ==> forall k :: k in r.value.1 <==> k in enabled.value)
    ensures r.Success? ==> |r.value.0| == n && forall i :: 0 <= i < n ==> r.value.0[i] == i as real
    ensures r.Success? ==> forall k :: k in r.value.1 ==>
      && fresh(r.value.1[k])
      && k in mappings
      && Filled(r.value.1[k], mappings[k], table, n)
  {
    var enabled := ActiveSensors(header);
    if enabled.Failure? {
      return Failure(enabled.error);
    }
    var sensorData := SplitSensors(enabled.value, table, n, mappings);
    if sensorData.Failure? {
      return Failure(sensorData.error);
    }
    var counter := seq(n, k requires 0 <= k < n => k as real);
    r := Success((counter, sensorData.value));
  }
}

=== FILE: dataset_properties.dfy ===
/** What the dataset operations guarantee: the calibration flags are set
    once and never twice, downsampling keeps streams and counter the same
    length, and the table export validates its index before anything else. */
module DatasetProperties {
  import opened Common
  import opened Headers
  import opened Datasets

  // ---------------------------------------------------------------------
  // Construction

  /** After construction a present acc stream is factory calibrated with
      its samples scaled by gravity, a present gyro stream is factory
      calibrated with its samples as given, and no stream carries a
      measured calibration. */
  lemma ConstructionFactoryCalibrated(sensorData: map<string, Rows>, grav: real)
    ensures var streams := InitialStreams(sensorData, grav);
      && streams.Keys == sensorData.Keys
      && ("acc" in streams ==> streams["acc"].isFactoryCalibrated && streams["acc"].data == Scale(sensorData["acc"], grav))
      && ("gyro" in streams ==> streams["gyro"].isFactoryCalibrated && streams["gyro"].data == sensorData["gyro"])
      && (forall k :: k in streams ==> !streams[k].isCalibrated && streams[k].sensorType == k)
      && (forall k :: k in streams && k != "acc" ==> streams[k].data == sensorData[k])
  {
  }

  // ---------------------------------------------------------------------
  // Measured calibration

  /** The calibration is refused exactly when a present stream is already
      calibrated; acc is checked first. */
  lemma CalibrateRefused(st: DatasetState, cal: Calibration)
    ensures var accDone := "acc" in st.streams && st.streams["acc"].isCalibrated;
      var gyroDone := "gyro" in st.streams && st.streams["gyro"].isCalibrated;
      && (CalibrateImuSpec(st, cal).Failure? <==> accDone || gyroDone)
      && (accDone ==> CalibrateImuSpec(st, cal) == Failure(RepeatedCalibration("acc", false)))
      && (!accDone && gyroDone ==> CalibrateImuSpec(st, cal) == Failure(RepeatedCalibration("gyro", false)))
  {
  }

  /** With both streams present and uncalibrated, both are calibrated at
      once: flags set, units taken from the calibration, row counts kept;
      nothing else changes. */
  lemma CalibrateApplied(st: DatasetState, cal: Calibration)
    requires "acc" in st.streams && !st.streams["acc"].isCalibrated
    requires "gyro" in st.streams && !st.streams["gyro"].isCalibrated
    ensures CalibrateImuSpec(st, cal).Success?
    ensures var (st', warnings) := CalibrateImuSpec(st, cal).value;
      var acc, acc' := st.streams["acc"], st'.streams["acc"];
      var gyro, gyro' := st.streams["gyro"], st'.streams["gyro"];
      && warnings == []
      && st'.info == st.info && st'.counter == st.counter
      && st'.streams.Keys == st.streams.Keys
      && acc'.isCalibrated && acc'.calibratedUnit == Some(cal.accUnit)
      && gyro'.isCalibrated && gyro'.calibratedUnit == Some(cal.gyrUnit)
      && |acc'.data| == |acc.data| && |gyro'.data| == |gyro.data|
      && acc'.isFactoryCalibrated == acc.isFactoryCalibrated && acc'.sensorType == acc.sensorType
      && gyro'.isFactoryCalibrated == gyro.isFactoryCalibrated && gyro'.sensorType == gyro.sensorType
      && (forall k :: k in st.streams && k != "acc" && k != "gyro" ==> st'.streams[k] == st.streams[k])
  {
  }

  /** With a stream missing nothing changes; each missing stream is
      reported, acc before gyro. */
  lemma CalibrateSkipped(st: DatasetState, cal: Calibration)
    requires "acc" !in st.streams || "gyro" !in st.streams
    requires CalibrateImuSpec(st, cal).Success?
    ensures CalibrateImuSpec(st, cal).value.0 == st
    ensures CalibrateImuSpec(st, cal).value.1 ==
      (if "acc" in st.streams then [] else [StreamMissing("acc", "calibration")])
      + (if "gyro" in st.streams then [] else [StreamMissing("gyro", "calibration")])
  {
  }

  /** A missing acc is reported before the gyro check refuses an already
      calibrated gyro. */
  lemma CalibrateWarnsBeforeRefusal(st: DatasetState, cal: Calibration)
    requires "acc" !in st.streams
    requires "gyro" in st.streams && st.streams["gyro"].isCalibrated
    ensures CalibrateImuSpec(st, cal) == Failure(RepeatedCalibration("gyro", false))
    ensures CalibrationWarnings(st) == [StreamMissing("acc", "calibration")]
  {
  }

  /** A second measured calibration is refused with the acc error. */
  lemma CalibrateTwice(st: DatasetState, first: Calibration, second: Calibration)
    requires "acc" in st.streams && "gyro" in st.streams
    requires CalibrateImuSpec(st, first).Success?
    ensures CalibrateImuSpec(CalibrateImuSpec(st, first).value.0, second) == Failure(RepeatedCalibration("acc", false))
  {
  }

  /** Calibration never clears a flag. */
  lemma CalibrateFlagsMonotone(st: DatasetState, cal: Calibration)
    requires CalibrateImuSpec(st, cal).Success?
    ensures var st' := CalibrateImuSpec(st, cal).value.0;
      && st'.streams.Keys == st.streams.Keys
      && forall k :: k in st.streams ==>
           && (st.streams[k].isCalibrated ==> st'.streams[k].isCalibrated)
           && (st.streams[k].isFactoryCalibrated ==> st'.streams[k].isFactoryCalibrated)
  {
  }

  /** Calibration keeps every active stream as long as the counter. */
  lemma CalibrateKeepsConsistent(st: DatasetState, cal: Calibration)
    requires Consistent(st)
    requires CalibrateImuSpec(st, cal).Success?
    ensures Consistent(CalibrateImuSpec(st, cal).value.0)
  {
  }

  // ---------------------------------------------------------------------
  // Downsampling

  /** Decimating distinct present streams that the decimator accepts never
      fails and replaces exactly the named streams by their decimated
      copies. */
  lemma {:induction false} DownsampleDistinctStreams(streams: map<string, Datastream>, names: seq<string>, q: nat, decimate: DecimateFn)
    requires Distinct(names)
    requires forall k :: k in names ==> k in streams && decimate(streams[k].data, q).Success?
    ensures DownsampleStreams(streams, names, q, decimate).1.None?
    ensures forall k :: k in streams ==>
      DownsampleStreams(streams, names, q, decimate).0[k]
        == if k in names then streams[k].(data := decimate(streams[k].data, q).value) else streams[k]
    decreases |names|
  {
    if names != [] {
      var k0 := names[0];
      var next := streams[k0 := streams[k0].(data := decimate(streams[k0].data, q).value)];
      var rest := names[1..];
      DistinctTail(names);
      DownsampleDistinctStreams(next, rest, q, decimate);
      forall k | k in streams
        ensures DownsampleStreams(streams, names, q, decimate).0[k]
          == if k in names then streams[k].(data := decimate(streams[k].data, q).value) else streams[k]
      {
        if k != k0 {
          assert k in names <==> k in rest;
        }
      }
    }
  }

  /** The tail of a list of distinct names is distinct and lacks the head. */
  lemma DistinctTail(names: seq<string>)
    requires Distinct(names) && names != []
    ensures Distinct(names[1..]) && names[0] !in names[1..]
  {
    var rest := names[1..];
    forall i, j | 0 <= i < j < |rest|
      ensures rest[i] != rest[j]
    {
      assert rest[i] == names[i + 1] && rest[j] == names[j + 1];
    }
    forall i | 0 <= i < |rest|
      ensures rest[i] != names[0]
    {
      assert rest[i] == names[i + 1];
    }
  }

  /** A present stream the decimator refuses stops the loop with its
      ValueError. */
  lemma {:induction false} DownsampleStreamsRefused(streams: map<string, Datastream>, names: seq<string>, q: nat, decimate: DecimateFn, k: string)
    requires q > 0 && Distinct(names)
    requires forall n :: n in names ==> n in streams
    requires k in names && decimate(streams[k].data, q).Failure?
    ensures DownsampleStreams(streams, names, q, decimate).1.Some?
    ensures DownsampleStreams(streams, names, q, decimate).1.value.ValueError?
    decreases |names|
  {
    var k0 := names[0];
    var d := decimate(streams[k0].data, q);
    if d.Success? {
      DistinctTail(names);
      var next := streams[k0 := streams[k0].(data := d.value)];
      assert k != k0;
      DownsampleStreamsRefused(next, names[1..], q, decimate, k);
    }
  }

  /** A consistent dataset whose header has a numeric sampling rate
      downsamples without error exactly when the decimator accepts every
      active stream; a refused stream raises ValueError. */
  lemma DownsampleSucceeds(st: DatasetState, q: nat, decimate: DecimateFn, resample: CounterResampleFn)
    requires q > 0 && Consistent(st)
    requires "sampling_rate_hz" in st.info.fields
    requires st.info.fields["sampling_rate_hz"].Int? || st.info.fields["sampling_rate_hz"].Real?
    ensures var err := DownsampleSpec(st, q, decimate, resample).1;
      && (err.None? <==>
            && (forall k :: k in ActiveSensors(st.info).value ==> decimate(st.streams[k].data, q).Success?)
            && q <= |st.counter|)
      && (err.Some? ==> err.value.ValueError?)
  {
    var active := ActiveSensors(st.info).value;
    if forall k :: k in active ==> decimate(st.streams[k].data, q).Success? {
      DownsampleDistinctStreams(st.streams, active, q, decimate);
      QuotientPositive(|st.counter|, q);
    } else {
      var k :| k in active && decimate(st.streams[k].data, q).Failure?;
      DownsampleStreamsRefused(st.streams, active, q, decimate, k);
    }
  }

  /** A floor quotient by a positive `q` is positive exactly when the
      dividend reaches `q`. */
  lemma QuotientPositive(n: nat, q: nat)
    requires q > 0
    ensures n / q > 0 <==> q <= n
  {
    if n < q {
      DivBy(n, q, 0, n);
    } else {
      var d := n / q;
      assert n == d * q + n % q;
      if d == 0 {
        assert d * q == 0;
      }
    }
  }

  /** A decimation loop that raised nothing over distinct present streams
      shortened each named stream to `(rows + q - 1) / q` rows and left the
      other streams as they were. */
  lemma DecimatedStreams(streams: map<string, Datastream>, names: seq<string>, q: nat, decimate: DecimateFn)
    requires q > 0 && Distinct(names)
    requires forall k :: k in names ==> k in streams
    requires DownsampleStreams(streams, names, q, decimate).1.None?
    ensures var out := DownsampleStreams(streams, names, q, decimate).0;
      && (forall k :: k in names ==> k in out && |out[k].data| == (|streams[k].data| + q - 1) / q)
      && (forall k :: k in streams && k !in names ==> out[k] == streams[k])
  {
    if !forall k :: k in names ==> decimate(streams[k].data, q).Success? {
      var k :| k in names && decimate(streams[k].data, q).Failure?;
      DownsampleStreamsRefused(streams, names, q, decimate, k);
    }
    DownsampleDistinctStreams(streams, names, q, decimate);
  }

  /** What a successful downsampling does to a consistent dataset, whatever
      length the counter is resampled to: every active stream is decimated
      to `(|counter| + q - 1) / q` rows, the inactive streams and the list of
      active sensors are untouched. */
  lemma DownsampleShape(st: DatasetState, q: nat, decimate: DecimateFn, resample: CounterResampleFn, counterRows: nat)
    requires q > 0 && Consistent(st)
    requires DownsampleTo(st, q, decimate, resample, counterRows).1.None?
    ensures var st' := DownsampleTo(st, q, decimate, resample, counterRows).0;
      var active := ActiveSensors(st.info).value;
      && ActiveSensors(st'.info) == ActiveSensors(st.info)
      && |st'.counter| == counterRows
      && st'.streams.Keys == st.streams.Keys
      && (forall k :: k in active ==> k in st'.streams && |st'.streams[k].data| == (|st.counter| + q - 1) / q)
      && (forall k :: k in st.streams && k !in active ==> st'.streams[k] == st.streams[k])
  {
    DecimatedStreams(st.streams, ActiveSensors(st.info).value, q, decimate);
    var st' := DownsampleTo(st, q, decimate, resample, counterRows).0;
    assert Get(st'.info, "enabled_sensors") == Get(st.info, "enabled_sensors");
  }

  /** Rounding `n / q` up gives `n / q` when `q` divides `n`, and one more
      otherwise. */
  lemma CeilDivision(n: nat, q: nat)
    requires q > 0
    ensures n % q == 0 ==> (n + q - 1) / q == n / q
    ensures n % q != 0 ==> (n + q - 1) / q == n / q + 1
  {
    var a, b := n / q, n % q;
    assert n == a * q + b && 0 <= b < q;
    if b == 0 {
      DivBy(n + q - 1, q, a, q - 1);
    } else {
      assert n + q - 1 == (a + 1) * q + (b - 1);
      DivBy(n + q - 1, q, a + 1, b - 1);
    }
  }

  /** Division by `q` is unique: `m * q + r` with `0 <= r < q` divides to `m`. */
  lemma DivBy(x: int, q: int, m: int, r: int)
    requires q > 0 && 0 <= r < q && x == m * q + r
    ensures x / q == m
  {
    var d, e := x / q, x % q;
    assert d * q + e == m * q + r;
    if d > m {
      MulAtLeast(d - m, q);
    } else if d < m {
      MulAtLeast(m - d, q);
    }
  }

  lemma MulAtLeast(a: int, q: int)
    requires a >= 1 && q > 0
    ensures a * q >= q
  {
  }

  /** Downsampling by a factor that divides the number of samples keeps a
      consistent dataset consistent: the counter and every active stream end
      with `|counter| / q` rows. */
  lemma DownsampleKeepsConsistent(st: DatasetState, q: nat, decimate: DecimateFn, resample: CounterResampleFn)
    requires q > 0 && Consistent(st) && |st.counter| % q == 0
    requires DownsampleSpec(st, q, decimate, resample).1.None?
    ensures var st' := DownsampleSpec(st, q, decimate, resample).0;
      && Consistent(st')
      && |st'.counter| == |st.counter| / q
      && (forall k :: k in ActiveSensors(st.info).value ==> |st'.streams[k].data| == |st.counter| / q)
  {
    DownsampleShape(st, q, decimate, resample, |st.counter| / q);
    CeilDivision(|st.counter|, q);
  }

  /** As written, downsampling by a factor that does not divide the number
      of samples leaves every active stream one row longer than the counter,
      so the dataset is no longer consistent. */
  lemma DownsampleCounterMismatch(st: DatasetState, q: nat, decimate: DecimateFn, resample: CounterResampleFn)
    requires q > 0 && Consistent(st) && |st.counter| % q != 0
    requires ActiveSensors(st.info).value != []
    requires DownsampleSpec(st, q, decimate, resample).1.None?
    ensures var st' := DownsampleSpec(st, q, decimate, resample).0;
      && !Consistent(st')
      && forall k :: k in ActiveSensors(st.info).value ==> |st'.streams[k].data| == |st'.counter| + 1
  {
    DownsampleShape(st, q, decimate, resample, |st.counter| / q);
    CeilDivision(|st.counter|, q);
    var k := ActiveSensors(st.info).value[0];
    assert k in ActiveSensors(st.info).value;
  }

  /** Corrected: when the counter is decimated like the streams, a
      successful downsampling keeps every consistent dataset consistent,
      whatever the factor. */
  lemma DownsampleCorrectedKeepsConsistent(st: DatasetState, q: nat, decimate: DecimateFn, resample: CounterResampleFn)
    requires q > 0 && Consistent(st)
    requires DownsampleCorrected(st, q, decimate, resample).1.None?
    ensures var st' := DownsampleCorrected(st, q, decimate, resample).0;
      && Consistent(st')
      && |st'.counter| == (|st.counter| + q - 1) / q
  {
    DownsampleShape(st, q, decimate, resample, (|st.counter| + q - 1) / q);
  }

  /** Downsampling shortens the counter by the factor. */
  lemma DownsampleCounter(st: DatasetState, q: nat, decimate: DecimateFn, resample: CounterResampleFn)
    requires q > 0
    requires DownsampleSpec(st, q, decimate, resample).1.None?
    ensures |DownsampleSpec(st, q, decimate, resample).0.counter| == |st.counter| / q
  {
  }

  /** Downsampling divides the sampling rate by the factor and touches no
      other header field. */
  lemma DownsampleRate(st: DatasetState, q: nat, decimate: DecimateFn, resample: CounterResampleFn)
    requires q > 0
    requires DownsampleSpec(st, q, decimate, resample).1.None?
    ensures var info' := DownsampleSpec(st, q, decimate, resample).0.info;
      && (forall x: real :: Get(st.info, "sampling_rate_hz") == Success(Real(x)) ==>
            Get(info', "sampling_rate_hz") == Success(Real(x / q as real)))
      && (forall x: int :: Get(st.info, "sampling_rate_hz") == Success(Int(x)) ==>
            Get(info', "sampling_rate_hz") == Success(Real(x as real / q as real)))
      && (forall f :: f != "sampling_rate_hz" ==> Get(info', f) == Get(st.info, f))
  {
  }

  // ---------------------------------------------------------------------
  // Table export

  /** The index is refused with the message naming the allowed values
      exactly when it is a non-empty string other than "counter" and
      "time", whatever the selection and the dataset. */
  lemma DataAsDfRejectsIndex(st: DatasetState, selection: Option<seq<string>>, index: Option<string>)
    ensures (index.Some? && DataAsDf(st, selection, index) == Failure(ValueError(IndexNotAllowed(index.value))))
      <==> index.Some? && index.value != "" && index.value != "counter" && index.value != "time"
  {
    if index.Some? && IndexKindOf(index).Success? {
      AcceptedIndexNotRefused(st, selection, index.value);
    }
  }

  /** An accepted index never yields the refusal of an index. */
  lemma AcceptedIndexNotRefused(st: DatasetState, selection: Option<seq<string>>, name: string)
    requires IndexKindOf(Some(name)).Success?
    ensures DataAsDf(st, selection, Some(name)) != Failure(ValueError(IndexNotAllowed(name)))
  {
    var r := DataAsDf(st, selection, Some(name));
    if r.Failure? && r.error.ValueError? {
      assert "No objects to concatenate"[0] != IndexNotAllowed(name)[0];
    }
  }

  /** Without an index the rows are renumbered and the index is named
      "n_samples": the counter plays no part, so the export is the same
      whatever counter the dataset holds. */
  lemma DataAsDfDefaultIndex(st: DatasetState, selection: Option<seq<string>>, counter: seq<real>)
    ensures DataAsDf(st, selection, None).Success? ==>
      DataAsDf(st, selection, None).value.index == RowNumbers
      && DataAsDf(st, selection, None).value.indexName == "n_samples"
    ensures DataAsDf(st.(counter := counter), selection, None) == DataAsDf(st, selection, None)
  {
    assert Datastreams(st.(counter := counter)) == Datastreams(st);
  }

  /** The columns the comprehension keeps are the wanted names in the
      order of `names`, each with its stream's rows. */
  lemma {:induction false} SelectedColumns(streams: map<string, Datastream>, names: seq<string>, wanted: seq<string>)
    requires StreamPairs(streams, names).Success?
    requires SelectColumns(StreamPairs(streams, names).value, wanted).Success?
    ensures var columns := SelectColumns(StreamPairs(streams, names).value, wanted).value;
      var keep := KeepWanted(names, wanted);
      && |columns| == |keep|
      && forall i :: 0 <= i < |columns| ==>
           columns[i].0 == keep[i] && keep[i] in streams && columns[i].1 == streams[keep[i]].data
  {
    if names != [] {
      var pairs := StreamPairs(streams, names).value;
      var restPairs := StreamPairs(streams, names[1..]).value;
      assert pairs[0] == (names[0], Lookup(streams, names[0])) && pairs[1..] == restPairs;
      SelectColumnsHead(pairs, wanted);
      SelectedColumns(streams, names[1..], wanted);
      var columns := SelectColumns(pairs, wanted).value;
      var restColumns := SelectColumns(restPairs, wanted).value;
      var head := if names[0] in wanted then [names[0]] else [];
      assert KeepWanted(names, wanted) == head + KeepWanted(names[1..], wanted);
      assert columns == (if names[0] in wanted then [(names[0], streams[names[0]].data)] else []) + restColumns;
    }
  }

  /** The comprehension keeps the head pair when it is wanted, then goes on
      with the rest. */
  lemma SelectColumnsHead(pairs: seq<(string, Option<Datastream>)>, wanted: seq<string>)
    requires pairs != [] && SelectColumns(pairs, wanted).Success?
    ensures SelectColumns(pairs[1..], wanted).Success?
    ensures pairs[0].0 in wanted ==> pairs[0].1.Some?
    ensures SelectColumns(pairs, wanted).value
      == (if pairs[0].0 in wanted then [(pairs[0].0, pairs[0].1.value.data)] else []) + SelectColumns(pairs[1..], wanted).value
  {
  }

  /** The exported columns come from the active sensors that are wanted
      (all of them when no selection is given), in active-sensor order,
      and there is at least one. */
  lemma DataAsDfColumns(st: DatasetState, selection: Option<seq<string>>, index: Option<string>)
    requires DataAsDf(st, selection, index).Success?
    ensures ActiveSensors(st.info).Success?
    ensures var active := ActiveSensors(st.info).value;
      var wanted := if selection.None? || selection.value == [] then active else selection.value;
      var keep := KeepWanted(active, wanted);
      var columns := DataAsDf(st, selection, index).value.columns;
      && |columns| == |keep| > 0
      && forall i :: 0 <= i < |columns| ==>
           columns[i].0 == keep[i] && keep[i] in st.streams && columns[i].1 == st.streams[keep[i]].data
  {
    var active := ActiveSensors(st.info).value;
    var wanted := if selection.None? || selection.value == [] then active else selection.value;
    SelectedColumns(st.streams, active, wanted);
  }

  /** On a consistent dataset the export succeeds exactly when the index is
      accepted, some wanted sensor is active, and, for the seconds index,
      the counter is non-empty and the rate a number. */
  lemma DataAsDfSucceeds(st: DatasetState, selection: Option<seq<string>>, index: Option<string>)
    requires Consistent(st)
    ensures var active := ActiveSensors(st.info).value;
      var wanted := if selection.None? || selection.value == [] then active else selection.value;
      DataAsDf(st, selection, index).Success? <==>
        && IndexKindOf(index).Success?
        && KeepWanted(active, wanted) != []
        && (index == Some("time") ==> |st.counter| > 0 && NumericRate(st.info))
  {
    var active := ActiveSensors(st.info).value;
    var wanted := if selection.None? || selection.value == [] then active else selection.value;
    ConsistentColumns(st, wanted);
  }

  /** On a consistent dataset the comprehension over `datastreams` cannot
      fail, it keeps one column per wanted active sensor, and a non-empty
      table has one row per counter value. */
  lemma ConsistentColumns(st: DatasetState, wanted: seq<string>)
    requires Consistent(st)
    ensures Datastreams(st).Success?
    ensures var columns := SelectColumns(Datastreams(st).value, wanted);
      && columns.Success?
      && (columns.value == [] <==> KeepWanted(ActiveSensors(st.info).value, wanted) == [])
      && (columns.value != [] ==> Height(columns.value) == |st.counter|)
  {
    UniformColumns(st, wanted, |st.counter|);
  }

  /** When every active sensor has a stream of `rows` rows, the
      comprehension cannot fail, it keeps one column per wanted active
      sensor, and a non-empty table has `rows` rows. */
  lemma UniformColumns(st: DatasetState, wanted: seq<string>, rows: nat)
    requires ActiveSensors(st.info).Success?
    requires forall k :: k in ActiveSensors(st.info).value ==> k in st.streams && |st.streams[k].data| == rows
    ensures Datastreams(st).Success?
    ensures var columns := SelectColumns(Datastreams(st).value, wanted);
      && columns.Success?
      && (columns.value == [] <==> KeepWanted(ActiveSensors(st.info).value, wanted) == [])
      && (columns.value != [] ==> Height(columns.value) == rows)
  {
    var active := ActiveSensors(st.info).value;
    assert forall i :: 0 <= i < |active| ==> active[i] in active;
    var pairs := StreamPairs(st.streams, active).value;
    assert !WantedButMissing(pairs, wanted);
    SelectedColumns(st.streams, active, wanted);
    var columns := SelectColumns(pairs, wanted).value;
    if columns != [] {
      var i :| 0 <= i < |columns| && |columns[i].1| == Height(columns);
      assert columns[i].0 in active;
    }
  }

  /** The mismatch left by `downsample` as written surfaces in the export:
      asking for the counter as the index fails with pandas' length
      mismatch, although the dataset was consistent before. */
  lemma DownsampledCounterIndexRefused(st: DatasetState, q: nat, decimate: DecimateFn, resample: CounterResampleFn)
    requires q > 0 && Consistent(st) && |st.counter| % q != 0
    requires ActiveSensors(st.info).value != []
    requires DownsampleSpec(st, q, decimate, resample).1.None?
    ensures DataAsDf(DownsampleSpec(st, q, decimate, resample).0, None, Some("counter"))
      == Failure(ValueError(LENGTH_MISMATCH))
  {
    var st' := DownsampleSpec(st, q, decimate, resample).0;
    var active := ActiveSensors(st.info).value;
    DownsampleShape(st, q, decimate, resample, |st.counter| / q);
    DownsampleCounterMismatch(st, q, decimate, resample);
    assert active[0] in KeepWanted(active, active);
    UniformColumns(st', active, |st'.counter| + 1);
  }
}

=== FILE: header.dfy ===
/** The header of one recording (signialib/header.py): the declared field
    names, the header record built from keyword arguments, the parser that
    turns the recorder's metadata dictionary into those keyword arguments, and
    the read-only proxy a session uses to query all its headers at once. */
module Headers {
  import opened Common

  /** The values a header attribute can hold. */
  datatype Value =
    | Int(i: int)
    | Real(r: real)
    | Text(s: string)
    | Names(names: seq<string>)
    | Bool(b: bool)

  /** A header instance, given by the attributes that have been set on it.
      An annotated field that was never set is absent from `fields`, and
      reading it fails as a Python attribute lookup would. */
  datatype Header = Header(fields: map<string, Value>)

  /** The type-annotated fields of `_HeaderFields`, in declaration order. */
  const HEADER_FIELDS: seq<string> := [
    "enabled_sensors", "sensor_position", "sampling_rate_hz", "acc_range_g",
    "gyro_range_dps", "utc_start", "utc_stop", "version_firmware", "sensor_id",
    "custom_meta_data", "n_samples"
  ]

  /** The derived names appended by `_all_header_fields`; `sensor_id`
      appears here a second time. */
  const ADDITIONAL_FIELDS: seq<string> := [
    "duration_s", "utc_datetime_start", "utc_datetime_stop",
    "has_position_info", "sensor_id", "strict_version_firmware"
  ]

  /** Short sensor name and the word that identifies it in `activeSensors`,
      in the order the parser visits them. */
  const SENSOR_FLAGS: seq<(string, string)> := [("gyro", "gyroscope"), ("acc", "accelerometer")]

  const SHORT_NAMES: seq<string> := ["gyro", "acc"]

  function AllHeaderFields(): seq<string> {
    HEADER_FIELDS + ADDITIONAL_FIELDS
  }

  /** `_all_header_fields` lists the 11 declared fields, then 6 derived
      names, with `sensor_id` appearing twice (positions 8 and 15). */
  lemma AllHeaderFieldsShape()
    ensures |HEADER_FIELDS| == 11 && Distinct(HEADER_FIELDS)
    ensures |AllHeaderFields()| == 17
    ensures AllHeaderFields()[..11] == HEADER_FIELDS
    ensures forall i :: 0 <= i < 17 ==> (AllHeaderFields()[i] == "sensor_id" <==> i == 8 || i == 15)
  {
    var all := AllHeaderFields();
    assert all[..11] == HEADER_FIELDS;
    assert all[11..] == ADDITIONAL_FIELDS;
    forall i | 0 <= i < 17
      ensures all[i] == "sensor_id" <==> i == 8 || i == 15
    {
      if i < 11 {
        assert all[i] == HEADER_FIELDS[i];
      } else {
        assert all[i] == ADDITIONAL_FIELDS[i - 11];
      }
    }
  }

  // ---------------------------------------------------------------------
  // Reading attributes of one header

  function Get(h: Header, name: string): (r: Result<Value>)
    ensures r.Success? <==> name in h.fields
    ensures r.Success? ==> r.value == h.fields[name]
    ensures r.Failure? ==> r.error == AttributeError(name)
  {
    if name in h.fields then Success(h.fields[name]) else Failure(AttributeError(name))
  }

  /** A numeric header value as a real number. */
  function Numeric(v: Value): real
    requires v.Int? || v.Real?
  {
    if v.Int? then v.i as real else v.r
  }

  /** Python subtraction on the two numeric kinds: integers stay integers,
      a float on either side makes the difference a float, and any other
      operand raises TypeError. */
  function Subtract(a: Value, b: Value): (r: Result<Value>)
    ensures r.Success? <==> (a.Int? || a.Real?) && (b.Int? || b.Real?)
    ensures r.Failure? ==> r.error == TypeError
    ensures r.Success? ==> (r.value.Int? <==> a.Int? && b.Int?) && (r.value.Int? || r.value.Real?)
    ensures r.Success? ==> Numeric(r.value) == Numeric(a) - Numeric(b)
  {
    match (a, b)
    case (Int(x), Int(y)) => Success(Int(x - y))
    case (Real(x), Real(y)) => Success(Real(x - y))
    case (Int(x), Real(y)) => Success(Real(x as real - y))
    case (Real(x), Int(y)) => Success(Real(x - y as real))
    case _ => Failure(TypeError)
  }

  /** `duration_s`: the stop time minus the start time. */
  function DurationS(h: Header): (r: Result<Value>)
    ensures "utc_stop" !in h.fields ==> r == Failure(AttributeError("utc_stop"))
    ensures "utc_stop" in h.fields && "utc_start" !in h.fields ==> r == Failure(AttributeError("utc_start"))
    ensures (forall start: int, stop: int ::
               Get(h, "utc_start") == Success(Int(start)) && Get(h, "utc_stop") == Success(Int(stop))
               ==> r == Success(Int(stop - start)))
  {
    var stop :- Get(h, "utc_stop");
    var start :- Get(h, "utc_start");
    Subtract(stop, start)
  }

  /** `has_position_info`: the position is anything but the sentinel
      "undefined". */
  function HasPositionInfo(h: Header): (r: Result<Value>)
    ensures r.Success? <==> "sensor_position" in h.fields
    ensures r.Success? ==> r.value == Bool(h.fields["sensor_position"] != Text("undefined"))
  {
    var position :- Get(h, "sensor_position");
    Success(Bool(position != Text("undefined")))
  }

  /** What an attribute lookup on a header finds: a value, a method, or the
      class's ordered table of sensor flags. */
  datatype Attr = Data(value: Value) | Method(name: string) | FlagTable(pairs: seq<(string, string)>)

  /** The callable attributes of a header: its class methods and the
      callables every Python object inherits from `object` (the class
      itself among them). */
  const HEADER_METHODS: set<string> := {
    "from_dict", "parse_header_dict",
    "__class__", "__delattr__", "__dir__", "__eq__", "__format__", "__ge__",
    "__getattribute__", "__gt__", "__hash__", "__init__", "__init_subclass__",
    "__le__", "__lt__", "__ne__", "__new__", "__reduce__", "__reduce_ex__",
    "__repr__", "__setattr__", "__sizeof__", "__str__", "__subclasshook__"
  }

  /** No declared field shares its name with a method or a class-level
      attribute of the header. */
  lemma FieldsAreData()
    ensures forall f :: f in HEADER_FIELDS ==>
      && f !in HEADER_METHODS && f != "duration_s" && f != "has_position_info"
      && f != "_header_fields" && f != "_all_header_fields" && f != "_SENSOR_FLAGS"
  {
  }

  /** `getattr(header, name)`. The datetime views `utc_datetime_start` and
      `utc_datetime_stop` and `strict_version_firmware` are not part of this
      model and resolve like any other unset name. */
  function HeaderAttr(h: Header, name: string): (r: Result<Attr>)
    ensures name in HEADER_METHODS ==> r == Success(Method(name))
    ensures name !in HEADER_METHODS && r.Success? ==> !r.value.Method?
    ensures name in HEADER_FIELDS && name in h.fields ==> r == Success(Data(h.fields[name]))
    ensures name in HEADER_FIELDS && name !in h.fields ==> r == Failure(AttributeError(name))
    ensures name == "_SENSOR_FLAGS" ==> r == Success(FlagTable(SENSOR_FLAGS))
  {
    FieldsAreData();
    if name in HEADER_METHODS then Success(Method(name))
    else if name == "duration_s" then
      var d :- DurationS(h); Success(Data(d))
    else if name == "has_position_info" then
      var p :- HasPositionInfo(h); Success(Data(p))
    else if name == "_header_fields" then Success(Data(Names(HEADER_FIELDS)))
    else if name == "_all_header_fields" then Success(Data(Names(AllHeaderFields())))
    else if name == "_SENSOR_FLAGS" then Success(FlagTable(SENSOR_FLAGS))
    else
      var v :- Get(h, name); Success(Data(v))
  }

  // ---------------------------------------------------------------------
  // Header.__init__

  /** The keyword arguments whose names are not declared header fields, as
      the warnings the constructor emits for them, in argument order. */
  function Unexpected(kwargs: seq<(string, Value)>): seq<Diagnostic> {
    if kwargs == [] then []
    else
      var last := kwargs[|kwargs| - 1];
      Unexpected(kwargs[..|kwargs| - 1])
        + (if last.0 in HEADER_FIELDS then [] else [UnexpectedHeaderArgument(last.0)])
  }

  predicate DistinctKeys(kwargs: seq<(string, Value)>) {
    forall i, j :: 0 <= i < j < |kwargs| ==> kwargs[i].0 != kwargs[j].0
  }

  /** The fields `Header(**kwargs)` sets: each argument whose name is a
      declared field, in argument order. */
  function FieldsOf(kwargs: seq<(string, Value)>): (fields: map<string, Value>)
    ensures forall name :: name in fields ==> name in HEADER_FIELDS
  {
    if kwargs == [] then map[]
    else
      var last := kwargs[|kwargs| - 1];
      var before := FieldsOf(kwargs[..|kwargs| - 1]);
      if last.0 in HEADER_FIELDS then before[last.0 := last.1] else before
  }

  /** The header sets exactly the declared names among the arguments. */
  lemma {:induction false} FieldsOfDomain(kwargs: seq<(string, Value)>)
    ensures forall name :: name in FieldsOf(kwargs) <==>
      name in HEADER_FIELDS && exists i :: 0 <= i < |kwargs| && kwargs[i].0 == name
  {
    if kwargs != [] {
      var init := kwargs[..|kwargs| - 1];
      FieldsOfDomain(init);
      forall name
        ensures name in FieldsOf(kwargs) <==>
          name in HEADER_FIELDS && exists i :: 0 <= i < |kwargs| && kwargs[i].0 == name
      {
        if name in FieldsOf(init) {
          var i :| 0 <= i < |init| && init[i].0 == name;
          assert kwargs[i].0 == name;
        }
        if name in HEADER_FIELDS && exists i :: 0 <= i < |kwargs| && kwargs[i].0 == name {
          var i :| 0 <= i < |kwargs| && kwargs[i].0 == name;
          if i < |init| {
            assert init[i].0 == name;
          }
        }
      }
    }
  }

  /** Each declared argument is set to its own value: keyword names are
      distinct, so no later argument overwrites it. */
  lemma {:induction false} FieldsOfValues(kwargs: seq<(string, Value)>)
    requires DistinctKeys(kwargs)
    ensures forall i :: 0 <= i < |kwargs| && kwargs[i].0 in HEADER_FIELDS ==>
      kwargs[i].0 in FieldsOf(kwargs) && FieldsOf(kwargs)[kwargs[i].0] == kwargs[i].1
  {
    if kwargs != [] {
      var init := kwargs[..|kwargs| - 1];
      assert DistinctKeys(init) by {
        forall i, j | 0 <= i < j < |init|
          ensures init[i].0 != init[j].0
        {
          assert init[i] == kwargs[i] && init[j] == kwargs[j];
        }
      }
      FieldsOfValues(init);
      forall i | 0 <= i < |kwargs| - 1
        ensures kwargs[i] == init[i]
      {
      }
    }
  }

  /** `Header(**kwargs)`: every argument whose name is a declared field is
      set; every other one is ignored with a warning. */
  method NewHeader(kwargs: seq<(string, Value)>) returns (h: Header, warnings: seq<Diagnostic>)
    ensures h.fields == FieldsOf(kwargs)
    ensures warnings == Unexpected(kwargs)
  {
    var fields: map<string, Value> := map[];
    warnings := [];
    var i := 0;
    while i < |kwargs|
      invariant 0 <= i <= |kwargs|
      invariant fields == FieldsOf(kwargs[..i])
      invariant warnings == Unexpected(kwargs[..i])
    {
      var (k, v) := kwargs[i];
      if k in HEADER_FIELDS {
        fields := fields[k := v];
      } else {
        warnings := warnings + [UnexpectedHeaderArgument(k)];
      }
      assert kwargs[..i + 1][..i] == kwargs[..i];
      i := i + 1;
    }
    assert kwargs[..i] == kwargs;
    h := Header(fields);
  }

  // ---------------------------------------------------------------------
  // Header.parse_header_dict

  /** The entries of the recorder's metadata dictionary that the parser
      reads. The recording's stop time is given as epoch seconds: the
      conversion of the `date` and `time` strings is not part of this
      model. */
  datatype MetaInfo = MetaInfo(
    activeSensors: string,
    fs: real,
    deviceSide: string,
    description: string,
    utcStop: int,
    length: int,
    deviceFwVersion: string,
    deviceSerialNumber: string)

  /** The enabled-sensor list read from the `activeSensors` entries for the
      given flags: each flag's word must occur in exactly one entry, and the
      short name is kept when that entry says "enabled". */
  function EnabledFrom(entries: seq<string>, flags: seq<(string, string)>): (r: Result<seq<string>>)
    ensures r.Failure? ==> r.error == AssertionError
    ensures r.Success? ==> |r.value| <= |flags|
  {
    if flags == [] then Success([])
    else
      var found := Matching(entries, flags[0].1);
      if |found| != 1 then Failure(AssertionError)
      else
        var rest :- EnabledFrom(entries, flags[1..]);
        Success((if Contains(found[0], "enabled") then [flags[0].0] else []) + rest)
  }

  /** The enabled-sensor list is read exactly when every flag's word occurs
      in exactly one entry, and it holds only the flags' short names. */
  lemma {:induction false} EnabledFromAccepts(entries: seq<string>, flags: seq<(string, string)>)
    ensures var r := EnabledFrom(entries, flags);
      && (r.Success? <==> forall i :: 0 <= i < |flags| ==> |Matching(entries, flags[i].1)| == 1)
      && (r.Success? ==> forall n :: n in r.value ==> exists i :: 0 <= i < |flags| && flags[i].0 == n)
  {
    if flags != [] {
      EnabledFromAccepts(entries, flags[1..]);
      var r := EnabledFrom(entries, flags);
      var rest := EnabledFrom(entries, flags[1..]);
      assert (forall i :: 0 <= i < |flags| ==> |Matching(entries, flags[i].1)| == 1)
        <==> |Matching(entries, flags[0].1)| == 1 && forall i :: 0 <= i < |flags| - 1 ==> |Matching(entries, flags[1..][i].1)| == 1;
      if r.Success? {
        forall n | n in r.value
          ensures exists i :: 0 <= i < |flags| && flags[i].0 == n
        {
          if n in rest.value {
            var i :| 0 <= i < |flags[1..]| && flags[1..][i].0 == n;
            assert flags[i + 1].0 == n;
          } else {
            assert flags[0].0 == n;
          }
        }
      }
    }
  }

  /** `prefix` followed by the list in `rest`, or the failure of `rest`. */
  function Prepend(prefix: seq<string>, rest: Result<seq<string>>): Result<seq<string>> {
    if rest.Failure? then rest else Success(prefix + rest.value)
  }

  lemma PrependNothing(rest: Result<seq<string>>)
    ensures Prepend([], rest) == rest
  {
    if rest.Success? {
      assert [] + rest.value == rest.value;
    }
  }

  lemma PrependTwice(a: seq<string>, b: seq<string>, rest: Result<seq<string>>)
    ensures Prepend(a, Prepend(b, rest)) == Prepend(a + b, rest)
  {
    if rest.Success? {
      assert a + (b + rest.value) == (a + b) + rest.value;
    }
  }

  /** Whether the single entry naming `word` says "enabled". */
  predicate EntryEnabled(entries: seq<string>, word: string)
    requires |Matching(entries, word)| == 1
  {
    Contains(Matching(entries, word)[0], "enabled")
  }

  /** The loop over `_SENSOR_FLAGS` that fills `enabled_sensors`. */
  method ParseEnabledSensors(activeSensors: string) returns (r: Result<seq<string>>)
    ensures r == EnabledFrom(Split(activeSensors, ','), SENSOR_FLAGS)
    ensures var entries := Split(activeSensors, ',');
      r.Success? <==> |Matching(entries, "gyroscope")| == 1 && |Matching(entries, "accelerometer")| == 1
    ensures r.Failure? ==> r.error == AssertionError
    ensures r.Success? ==>
      var entries := Split(activeSensors, ',');
      r.value == (if EntryEnabled(entries, "gyroscope") then ["gyro"] else [])
               + (if EntryEnabled(entries, "accelerometer") then ["acc"] else [])
  {
    var sensors := Split(activeSensors, ',');
    var enabled: seq<string> := [];
    var i := 0;
    assert SENSOR_FLAGS[0..] == SENSOR_FLAGS;
    PrependNothing(EnabledFrom(sensors, SENSOR_FLAGS));
    while i < |SENSOR_FLAGS|
      invariant 0 <= i <= |SENSOR_FLAGS|
      invariant EnabledFrom(sensors, SENSOR_FLAGS) == Prepend(enabled, EnabledFrom(sensors, SENSOR_FLAGS[i..]))
    {
      var (para, val) := SENSOR_FLAGS[i];
      var sensInfo := Matching(sensors, val);
      ghost var flags := SENSOR_FLAGS[i..];
      assert flags[0] == (para, val) && flags[1..] == SENSOR_FLAGS[i + 1..];
      if |sensInfo| != 1 {
        assert EnabledFrom(sensors, flags) == Failure(AssertionError);
        return Failure(AssertionError);
      }
      ghost var kept := if Contains(sensInfo[0], "enabled") then [para] else [];
      ghost var before := enabled;
      assert EnabledFrom(sensors, flags) == Prepend(kept, EnabledFrom(sensors, SENSOR_FLAGS[i + 1..]));
      if Contains(sensInfo[0], "enabled") {
        enabled := enabled + [para];
      }
      assert enabled == before + kept;
      PrependTwice(before, kept, EnabledFrom(sensors, SENSOR_FLAGS[i + 1..]));
      i := i + 1;
    }
    assert SENSOR_FLAGS[i..] == [];
    assert enabled + [] == enabled;
    r := Success(enabled);
  }

  /** The names of a keyword-argument list, in order. */
  function KeysOf(kwargs: seq<(string, Value)>): seq<string> {
    seq(|kwargs|, i requires 0 <= i < |kwargs| => kwargs[i].0)
  }

  /** The ten entries of the header dictionary, in the order the parser
      inserts them; `n_samples` is not among them. */
  const PARSED_FIELDS: seq<string> := [
    "enabled_sensors", "sampling_rate_hz", "acc_range_g", "gyro_range_dps",
    "sensor_position", "custom_meta_data", "utc_stop", "utc_start",
    "version_firmware", "sensor_id"
  ]

  /** `parse_header_dict`: the keyword arguments for a header. Entry `i` of
      the result sets the field named `PARSED_FIELDS[i]`. */
  method ParseHeaderDict(meta: MetaInfo) returns (r: Result<seq<(string, Value)>>)
    ensures var enabled := EnabledFrom(Split(meta.activeSensors, ','), SENSOR_FLAGS);
      r.Success? <==> enabled.Success?
    ensures r.Failure? ==> r.error == AssertionError
    ensures r.Success? ==> ParsedFrom(r.value, meta, EnabledFrom(Split(meta.activeSensors, ','), SENSOR_FLAGS).value)
  {
    var enabled := ParseEnabledSensors(meta.activeSensors);
    if enabled.Failure? {
      return Failure(enabled.error);
    }
    var headerDict := FillHeaderDict(meta, enabled.value);
    r := Success(headerDict);
  }

  /** The entries `parse_header_dict` writes, in insertion order: the
      enabled sensors, the rate `fs`, the fixed ranges 2 g and 1000 dps,
      the position `"ha_" + deviceSide`, the description, the stop time, the
      start time `length` seconds earlier, the firmware and the serial
      number. */
  predicate ParsedFrom(kwargs: seq<(string, Value)>, meta: MetaInfo, enabled: seq<string>) {
    && KeysOf(kwargs) == PARSED_FIELDS
    && kwargs[0].1 == Names(enabled)
    && kwargs[1].1 == Real(meta.fs)
    && kwargs[2].1 == Real(2.0)
    && kwargs[3].1 == Real(1000.0)
    && kwargs[4].1 == Text("ha_" + meta.deviceSide)
    && kwargs[5].1 == Text(meta.description)
    && kwargs[6].1 == Int(meta.utcStop)
    && kwargs[7].1 == Int(meta.utcStop - meta.length)
    && kwargs[8].1 == Text(meta.deviceFwVersion)
    && kwargs[9].1 == Text(meta.deviceSerialNumber)
  }

  /** The assignments of `parse_header_dict` after the sensor loop, one
      entry at a time. */
  method FillHeaderDict(meta: MetaInfo, enabled: seq<string>) returns (headerDict: seq<(string, Value)>)
    ensures ParsedFrom(headerDict, meta, enabled)
  {
    headerDict := [("enabled_sensors", Names(enabled))];
    headerDict := headerDict + [("sampling_rate_hz", Real(meta.fs))];
    headerDict := headerDict + [("acc_range_g", Real(2.0))];
    headerDict := headerDict + [("gyro_range_dps", Real(1000.0))];
    headerDict := headerDict + [("sensor_position", Text("ha_" + meta.deviceSide))];
    headerDict := headerDict + [("custom_meta_data", Text(meta.description))];
    var utcStop := meta.utcStop;
    headerDict := headerDict + [("utc_stop", Int(utcStop))];
    headerDict := headerDict + [("utc_start", Int(utcStop - meta.length))];
    headerDict := headerDict + [("version_firmware", Text(meta.deviceFwVersion))];
    headerDict := headerDict + [("sensor_id", Text(meta.deviceSerialNumber))];
  }

  /** Every parsed entry names a declared field, and none names `n_samples`. */
  lemma ParsedFieldsDeclared()
    ensures forall f :: f in PARSED_FIELDS ==> f in HEADER_FIELDS
    ensures "n_samples" !in PARSED_FIELDS
  {
    assert PARSED_FIELDS == [HEADER_FIELDS[0], HEADER_FIELDS[2], HEADER_FIELDS[3], HEADER_FIELDS[4],
      HEADER_FIELDS[1], HEADER_FIELDS[9], HEADER_FIELDS[6], HEADER_FIELDS[5],
      HEADER_FIELDS[7], HEADER_FIELDS[8]];
  }

  lemma ParsedFieldsDistinct()
    ensures Distinct(PARSED_FIELDS)
  {
  }

  /** `Header.from_dict`: parse the metadata, then construct the header. */
  method FromDict(meta: MetaInfo) returns (r: Result<Header>, warnings: seq<Diagnostic>)
    ensures r.Success? <==> EnabledFrom(Split(meta.activeSensors, ','), SENSOR_FLAGS).Success?
    ensures r.Success? ==>
      var h := r.value;
      && warnings == []
      && (forall name :: name in h.fields ==> name in PARSED_FIELDS)
      && (forall i :: 0 <= i < |PARSED_FIELDS| ==> PARSED_FIELDS[i] in h.fields)
      && Get(h, "n_samples") == Failure(AttributeError("n_samples"))
      && DurationS(h) == Success(Int(meta.length))
      && HasPositionInfo(h) == Success(Bool(true))
      && Get(h, "enabled_sensors") == Success(Names(EnabledFrom(Split(meta.activeSensors, ','), SENSOR_FLAGS).value))
      && Get(h, "sampling_rate_hz") == Success(Real(meta.fs))
      && Get(h, "sensor_id") == Success(Text(meta.deviceSerialNumber))
  {
    warnings := [];
    var parsed := ParseHeaderDict(meta);
    if parsed.Failure? {
      return Failure(parsed.error), warnings;
    }
    var kwargs := parsed.value;
    ParsedNoWarnings(kwargs);
    var h;
    h, warnings := NewHeader(kwargs);
    ParsedHeaderNames(kwargs, h);
    ParsedHeaderValues(kwargs, h, Names(EnabledFrom(Split(meta.activeSensors, ','), SENSOR_FLAGS).value), Real(meta.fs),
      meta.deviceSide, meta.utcStop, meta.length, meta.deviceSerialNumber);
    r := Success(h);
  }

  /** The header built from the parsed arguments sets exactly the parsed
      fields. */
  lemma ParsedHeaderNames(kwargs: seq<(string, Value)>, h: Header)
    requires KeysOf(kwargs) == PARSED_FIELDS && h.fields == FieldsOf(kwargs)
    ensures forall name :: name in h.fields ==> name in PARSED_FIELDS
    ensures forall i :: 0 <= i < |PARSED_FIELDS| ==> PARSED_FIELDS[i] in h.fields
    ensures Get(h, "n_samples") == Failure(AttributeError("n_samples"))
  {
    HeaderFromParsed(kwargs);
  }

  /** The fields of that header read back as the metadata they came from. */
  lemma ParsedHeaderValues(kwargs: seq<(string, Value)>, h: Header, sensors: Value, rate: Value, side: string, stop: int, length: int, serial: string)
    requires KeysOf(kwargs) == PARSED_FIELDS && h.fields == FieldsOf(kwargs)
    requires kwargs[0].1 == sensors && kwargs[1].1 == rate
    requires kwargs[4].1 == Text("ha_" + side)
    requires kwargs[6].1 == Int(stop) && kwargs[7].1 == Int(stop - length)
    requires kwargs[9].1 == Text(serial)
    ensures DurationS(h) == Success(Int(length))
    ensures HasPositionInfo(h) == Success(Bool(true))
    ensures Get(h, "enabled_sensors") == Success(sensors)
    ensures Get(h, "sampling_rate_hz") == Success(rate)
    ensures Get(h, "sensor_id") == Success(Text(serial))
  {
    HeaderFromParsed(kwargs);
    ParsedGets(kwargs, h);
    ParsedDuration(h, stop, length);
    PrefixNotUndefined(side);
  }

  /** The parsed fields read back by name. */
  lemma ParsedGets(kwargs: seq<(string, Value)>, h: Header)
    requires |kwargs| == |PARSED_FIELDS|
    requires forall i :: 0 <= i < |PARSED_FIELDS| ==>
      PARSED_FIELDS[i] in h.fields && h.fields[PARSED_FIELDS[i]] == kwargs[i].1
    requires "n_samples" !in h.fields
    ensures Get(h, "enabled_sensors") == Success(kwargs[0].1)
    ensures Get(h, "sampling_rate_hz") == Success(kwargs[1].1)
    ensures Get(h, "sensor_position") == Success(kwargs[4].1)
    ensures Get(h, "utc_stop") == Success(kwargs[6].1)
    ensures Get(h, "utc_start") == Success(kwargs[7].1)
    ensures Get(h, "sensor_id") == Success(kwargs[9].1)
    ensures Get(h, "n_samples") == Failure(AttributeError("n_samples"))
  {
    assert PARSED_FIELDS[0] == "enabled_sensors" && PARSED_FIELDS[1] == "sampling_rate_hz";
    assert PARSED_FIELDS[4] == "sensor_position" && PARSED_FIELDS[9] == "sensor_id";
    assert PARSED_FIELDS[6] == "utc_stop" && PARSED_FIELDS[7] == "utc_start";
  }

  /** A header whose start is `length` seconds before its stop lasts `length`. */
  lemma ParsedDuration(h: Header, stop: int, length: int)
    requires Get(h, "utc_stop") == Success(Int(stop)) && Get(h, "utc_start") == Success(Int(stop - length))
    ensures DurationS(h) == Success(Int(length))
  {
  }

  /** The header built from the parsed arguments sets exactly the parsed
      fields, each to its argument. */
  lemma HeaderFromParsed(kwargs: seq<(string, Value)>)
    requires KeysOf(kwargs) == PARSED_FIELDS
    ensures var fields := FieldsOf(kwargs);
      && (forall name :: name in fields ==> name in PARSED_FIELDS)
      && (forall i :: 0 <= i < |PARSED_FIELDS| ==> PARSED_FIELDS[i] in fields && fields[PARSED_FIELDS[i]] == kwargs[i].1)
      && "n_samples" !in fields
  {
    ParsedKeysAt(kwargs);
    ParsedKeysDeclared(kwargs);
    ParsedKeysDistinct(kwargs);
    FieldsOfDomain(kwargs);
    FieldsOfValues(kwargs);
    ParsedFieldsDeclared();
    forall name | name in FieldsOf(kwargs)
      ensures name in PARSED_FIELDS
    {
      var i :| 0 <= i < |kwargs| && kwargs[i].0 == name;
      assert PARSED_FIELDS[i] == name;
    }
  }

  /** The parsed arguments all name declared fields, so `Header` warns about none. */
  lemma ParsedNoWarnings(kwargs: seq<(string, Value)>)
    requires KeysOf(kwargs) == PARSED_FIELDS
    ensures Unexpected(kwargs) == []
  {
    ParsedKeysAt(kwargs);
    ParsedKeysDeclared(kwargs);
    NoneUnexpected(kwargs);
  }

  lemma ParsedKeysAt(kwargs: seq<(string, Value)>)
    requires KeysOf(kwargs) == PARSED_FIELDS
    ensures |kwargs| == |PARSED_FIELDS|
    ensures forall i :: 0 <= i < |kwargs| ==> kwargs[i].0 == PARSED_FIELDS[i]
  {
    forall i | 0 <= i < |kwargs|
      ensures kwargs[i].0 == PARSED_FIELDS[i]
    {
      assert KeysOf(kwargs)[i] == kwargs[i].0;
    }
  }

  lemma ParsedKeysDeclared(kwargs: seq<(string, Value)>)
    requires |kwargs| == |PARSED_FIELDS|
    requires forall i :: 0 <= i < |kwargs| ==> kwargs[i].0 == PARSED_FIELDS[i]
    ensures forall i :: 0 <= i < |kwargs| ==> kwargs[i].0 in HEADER_FIELDS
  {
    ParsedFieldsDeclared();
    forall i | 0 <= i < |kwargs|
      ensures kwargs[i].0 in HEADER_FIELDS
    {
      assert PARSED_FIELDS[i] in PARSED_FIELDS;
    }
  }

  lemma ParsedKeysDistinct(kwargs: seq<(string, Value)>)
    requires |kwargs| == |PARSED_FIELDS|
    requires forall i :: 0 <= i < |kwargs| ==> kwargs[i].0 == PARSED_FIELDS[i]
    ensures DistinctKeys(kwargs)
  {
    ParsedFieldsDistinct();
  }

  lemma {:induction false} NoneUnexpected(kwargs: seq<(string, Value)>)
    requires forall i :: 0 <= i < |kwargs| ==> kwargs[i].0 in HEADER_FIELDS
    ensures Unexpected(kwargs) == []
  {
    if kwargs != [] {
      NoneUnexpected(kwargs[..|kwargs| - 1]);
    }
  }

  lemma PrefixNotUndefined(side: string)
    ensures Text("ha_" + side) != Text("undefined")
  {
    assert ("ha_" + side)[0] == 'h';
  }

  // ---------------------------------------------------------------------
  // _ProxyHeader

  /** Names the proxy resolves on itself instead of forwarding. */
  const PROXY_OWN: set<string> := {"_headers", "_all_header_fields", "_header_fields", "_ipython_display_"}

  /** What reading an attribute through the proxy yields: one of the
      proxy's own attributes, or a tuple with one entry per header. */
  datatype ProxyAttr = Own(name: string) | PerHeader(values: seq<Attr>)

  /** `tuple(getattr(d, name) for d in headers)`: the first failing lookup
      aborts. */
  function Collect(hs: seq<Header>, name: string): (r: Result<seq<Attr>>)
    ensures r.Success? <==> forall i :: 0 <= i < |hs| ==> HeaderAttr(hs[i], name).Success?
    ensures r.Success? ==>
      && |r.value| == |hs|
      && forall i :: 0 <= i < |hs| ==> r.value[i] == HeaderAttr(hs[i], name).value
  {
    if hs == [] then Success([])
    else
      var first :- HeaderAttr(hs[0], name);
      var rest :- Collect(hs[1..], name);
      Success([first] + rest)
  }

  /** The message of the error raised for a method read through the proxy. */
  function CallableRefused(name: string): string {
    "_ProxyHeader only allows access to attributes of the info objects. " + name + " is a callable method."
  }

  /** `_ProxyHeader.__getattribute__`. */
  function ProxyGet(hs: seq<Header>, name: string): (r: Result<ProxyAttr>)
    ensures name in PROXY_OWN ==> r == Success(Own(name))
    ensures name !in PROXY_OWN && hs == [] ==> r == Failure(IndexError)
    ensures name !in PROXY_OWN && hs != [] && name in HEADER_METHODS ==>
      r == if "__" <= name then Success(Own(name)) else Failure(ValueError(CallableRefused(name)))
    ensures name !in PROXY_OWN && name !in HEADER_METHODS && r.Success? ==>
      r.value.PerHeader? && |r.value.values| == |hs| &&
      forall i :: 0 <= i < |hs| ==> HeaderAttr(hs[i], name) == Success(r.value.values[i])
  {
    if name in PROXY_OWN then Success(Own(name))
    else if hs == [] then Failure(IndexError)
    else
      var first :- HeaderAttr(hs[0], name);
      if first.Method? then
        if "__" <= name then Success(Own(name)) else Failure(ValueError(CallableRefused(name)))
      else
        var values :- Collect(hs, name);
        Success(PerHeader(values))
  }

  /** `_ProxyHeader.__setattr__`: only the proxy's own header tuple may be
      assigned. */
  function ProxySet(name: string): (r: Result<()>)
    ensures r.Success? <==> name == "_headers"
    ensures r.Failure? ==> r.error == NotImplemented
  {
    if name == "_headers" then Success(()) else Failure(NotImplemented)
  }
}

=== FILE: session.dfy ===
/** A group of datasets recorded together (signialib/session.py): lookups
    through the combined header view, alignment of the two hearing aids to
    the left device's length, resampling to a lower rate, calibration of
    every dataset, and the pipeline that chains the three. */
module Sessions {
  import opened Common
  import opened Headers
  import opened Datasets

  /** The observable state of a session: its datasets in order and whether
      it has been aligned. */
  datatype SessionState = SessionState(datasets: seq<DatasetState>, synced: bool)

  function Infos(ds: seq<DatasetState>): (hs: seq<Header>)
    ensures |hs| == |ds|
    ensures forall i :: 0 <= i < |ds| ==> hs[i] == ds[i].info
  {
    seq(|ds|, i requires 0 <= i < |ds| => ds[i].info)
  }

  // ---------------------------------------------------------------------
  // Lookups

  /** The message Python's `tuple.index` raises with. */
  const NOT_IN_TUPLE: string := "tuple.index(x): x not in tuple"

  const POSITION_UNDEFINED: string := "Sensor position is not definded"

  /** `self.info.<name>` for a header field: one value per dataset. */
  function FieldValues(ds: seq<DatasetState>, name: string): (r: Result<seq<Attr>>)
    requires name !in PROXY_OWN && name !in HEADER_METHODS
    ensures ds == [] ==> r == Failure(IndexError)
    ensures r.Success? ==> |r.value| == |ds|
    ensures r.Success? ==> forall i :: 0 <= i < |ds| ==> HeaderAttr(ds[i].info, name) == Success(r.value[i])
  {
    var attr :- ProxyGet(Infos(ds), name);
    Success(attr.values)
  }

  /** The position of the first dataset whose header field `name` holds the
      text `key`, as `tuple.index` finds it. */
  function FirstWith(ds: seq<DatasetState>, name: string, key: string, missing: string): (r: Result<nat>)
    requires name in HEADER_FIELDS && name !in PROXY_OWN && name !in HEADER_METHODS
    ensures r.Success? ==> r.value < |ds| && Get(ds[r.value].info, name) == Success(Text(key))
    ensures r.Success? ==> forall j :: 0 <= j < r.value ==> Get(ds[j].info, name) != Success(Text(key))
    ensures r.Failure? && FieldValues(ds, name).Success? ==>
      r.error == ValueError(missing) && forall j :: 0 <= j < |ds| ==> Get(ds[j].info, name) != Success(Text(key))
    ensures FieldValues(ds, name).Failure? ==> r == Failure(FieldValues(ds, name).error)
  {
    var values := FieldValues(ds, name);
    if values.Failure? then Result<nat>.Failure(values.error)
    else if Data(Text(key)) in values.value then Result<nat>.Success(FirstIndex(values.value, Data(Text(key))))
    else Result<nat>.Failure(ValueError(missing))
  }

  /** `get_dataset_by_id`: the index of the first dataset with this id. */
  function IndexById(ds: seq<DatasetState>, id: string): (r: Result<nat>)
    ensures r.Success? ==> r.value < |ds| && Get(ds[r.value].info, "sensor_id") == Success(Text(id))
    ensures r.Success? ==> forall j :: 0 <= j < r.value ==> Get(ds[j].info, "sensor_id") != Success(Text(id))
    ensures r.Failure? && FieldValues(ds, "sensor_id").Success? ==>
      r.error == ValueError(NOT_IN_TUPLE) && forall j :: 0 <= j < |ds| ==> Get(ds[j].info, "sensor_id") != Success(Text(id))
    ensures ds == [] ==> r == Failure(IndexError)
  {
    assert "sensor_id" in HEADER_FIELDS by { assert HEADER_FIELDS[8] == "sensor_id"; }
    FirstWith(ds, "sensor_id", id, NOT_IN_TUPLE)
  }

  /** `get_dataset_by_position`: the index of the first dataset placed at
      this position; an unknown position is refused before the lookup. */
  function IndexOfPosition(ds: seq<DatasetState>, position: string): (r: Result<nat>)
    ensures r.Success? ==> r.value < |ds| && Get(ds[r.value].info, "sensor_position") == Success(Text(position))
    ensures r.Success? ==> forall j :: 0 <= j < r.value ==> Get(ds[j].info, "sensor_position") != Success(Text(position))
    ensures r.Failure? && FieldValues(ds, "sensor_position").Success? ==>
      r.error == ValueError(POSITION_UNDEFINED)
      && forall j :: 0 <= j < |ds| ==> Get(ds[j].info, "sensor_position") != Success(Text(position))
    ensures ds == [] ==> r == Failure(IndexError)
  {
    assert "sensor_position" in HEADER_FIELDS by { assert HEADER_FIELDS[1] == "sensor_position"; }
    FirstWith(ds, "sensor_position", position, POSITION_UNDEFINED)
  }

  // ---------------------------------------------------------------------
  // Alignment

  /** The stream `name` of `d` exists and can be resampled to `n` rows:
      `scipy.signal.resample` refuses an empty stream and a target of zero
      rows. */
  predicate Resamplable(d: DatasetState, name: string, n: nat) {
    name in d.streams && |d.streams[name].data| > 0 && n > 0
  }

  /** One dataset with the stream `name` resampled to `n` rows. */
  function Resampled(d: DatasetState, name: string, n: nat, resample: RowsResampleFn): DatasetState
    requires Resamplable(d, name, n)
  {
    d.(streams := d.streams[name := d.streams[name].(data := resample(d.streams[name].data, n).value)])
  }

  /** One dataset aligned as the documentation of `align_to_syncregion`
      describes it ("all datasets are cut to the same length"): acc, gyro
      and the counter are all resampled to `n` rows. Resampling the counter
      fails only on an empty counter. */
  function AlignedCorrected(d: DatasetState, n: nat, resample: RowsResampleFn, counterResample: CounterResampleFn)
    : (r: Result<DatasetState>)
    requires Resamplable(d, "acc", n) && Resamplable(d, "gyro", n)
    ensures r.Success? <==> |d.counter| > 0
    ensures r.Success? ==> |r.value.counter| == n && r.value.info == d.info
  {
    var aligned := Resampled(d, "acc", n, resample);
    assert Resamplable(aligned, "gyro", n);
    var counter :- counterResample(d.counter, n);
    Success(Resampled(aligned, "gyro", n, resample).(counter := counter))
  }

  /** The error one step of the alignment loop raises: reading the data of
      a missing stream raises AttributeError, resampling an empty stream or
      to zero rows raises ValueError. */
  function StepError(d: DatasetState, name: string, n: nat, resample: RowsResampleFn): (e: Error)
    requires !Resamplable(d, name, n)
    ensures e == AttributeError("data") <==> name !in d.streams
    ensures name in d.streams ==> e.ValueError?
  {
    if name !in d.streams then AttributeError("data")
    else resample(d.streams[name].data, n).error
  }

  /** The loop over the session's `acc` (or `gyro`) view: the datasets
      resampled before the first one whose stream is missing or cannot be
      resampled, and the error that step raises. */
  function AlignEach(ds: seq<DatasetState>, name: string, n: nat, resample: RowsResampleFn)
    : (r: (seq<DatasetState>, Option<Error>))
    ensures |r.0| <= |ds|
    ensures r.1.None? <==> |r.0| == |ds|
    ensures r.1.Some? ==> r.1.value == AttributeError("data") || r.1.value.ValueError?
    ensures forall j :: 0 <= j < |r.0| ==> Resamplable(ds[j], name, n) && r.0[j] == Resampled(ds[j], name, n, resample)
    ensures r.1.Some? ==> !Resamplable(ds[|r.0|], name, n) && r.1.value == StepError(ds[|r.0|], name, n, resample)
  {
    if ds == [] then ([], None)
    else if !Resamplable(ds[0], name, n) then ([], Some(StepError(ds[0], name, n, resample)))
    else
      var rest := AlignEach(ds[1..], name, n, resample);
      ([Resampled(ds[0], name, n, resample)] + rest.0, rest.1)
  }

  /** The processed datasets followed by the untouched rest. */
  function Overlay(done: seq<DatasetState>, ds: seq<DatasetState>): (r: seq<DatasetState>)
    requires |done| <= |ds|
    ensures |r| == |ds|
  {
    done + ds[|done|..]
  }

  /** The alignment pass stops at the first dataset whose stream cannot be
      resampled. */
  lemma {:induction false} AlignEachStops(ds: seq<DatasetState>, name: string, n: nat, resample: RowsResampleFn, k: nat)
    requires k <= |ds|
    requires forall j :: 0 <= j < k ==> Resamplable(ds[j], name, n)
    requires k < |ds| ==> !Resamplable(ds[k], name, n)
    ensures |AlignEach(ds, name, n, resample).0| == k
  {
    if ds != [] && k > 0 {
      AlignEachStops(ds[1..], name, n, resample, k - 1);
    }
  }

  /** The downsampling stops after the first dataset that raises. */
  lemma {:induction false} DownsampleEachStops(ds: seq<DatasetState>, q: nat, decimate: DecimateFn, resample: CounterResampleFn, k: nat)
    requires q > 0 && k <= |ds|
    requires forall j :: 0 <= j < k ==> DownsampleSpec(ds[j], q, decimate, resample).1.None?
    requires k < |ds| ==> DownsampleSpec(ds[k], q, decimate, resample).1.Some?
    ensures var r := DownsampleEach(ds, q, decimate, resample);
      && |r.0| == (if k == |ds| then k else k + 1)
      && (forall j :: 0 <= j < |r.0| ==> r.0[j] == DownsampleSpec(ds[j], q, decimate, resample).0)
      && r.1 == (if k == |ds| then None else DownsampleSpec(ds[k], q, decimate, resample).1)
  {
    if ds != [] && k > 0 {
      var tail := ds[1..];
      DownsampleEachStops(tail, q, decimate, resample, k - 1);
      var first := DownsampleSpec(ds[0], q, decimate, resample);
      var rest := DownsampleEach(tail, q, decimate, resample);
      assert DownsampleEach(ds, q, decimate, resample) == ([first.0] + rest.0, rest.1);
      forall j | 0 <= j < 1 + |rest.0|
        ensures ([first.0] + rest.0)[j] == DownsampleSpec(ds[j], q, decimate, resample).0
      {
        if j > 0 {
          assert ds[j] == tail[j - 1];
        }
      }
    }
  }

  lemma ConcatAssoc<T>(a: seq<T>, b: seq<T>, c: seq<T>)
    ensures a + b + c == a + (b + c)
  {
  }

  /** A sequence that agrees with `done` on its prefix and with `ds` after
      it is their overlay. */
  lemma OverlayAt(done: seq<DatasetState>, ds: seq<DatasetState>, cur: seq<DatasetState>)
    requires |done| <= |ds| == |cur|
    requires forall j :: 0 <= j < |done| ==> cur[j] == done[j]
    requires forall j :: |done| <= j < |ds| ==> cur[j] == ds[j]
    ensures cur == Overlay(done, ds)
  {
  }

  /** `cur` is `ds` with stream `name` of its first `i` datasets resampled
      to `n` rows, all of which could be resampled. */
  ghost predicate ResampledUpTo(ds: seq<DatasetState>, cur: seq<DatasetState>, name: string, n: nat, resample: RowsResampleFn, i: nat) {
    && i <= |ds| && |cur| == |ds|
    && (forall j :: 0 <= j < i ==> Resamplable(ds[j], name, n) && cur[j] == Resampled(ds[j], name, n, resample))
    && (forall j :: i <= j < |ds| ==> cur[j] == ds[j])
  }

  lemma ResampledUpToStep(ds: seq<DatasetState>, cur: seq<DatasetState>, name: string, n: nat, resample: RowsResampleFn, i: nat)
    requires ResampledUpTo(ds, cur, name, n, resample, i) && i < |ds| && Resamplable(ds[i], name, n)
    ensures ResampledUpTo(ds, cur[i := Resampled(ds[i], name, n, resample)], name, n, resample, i + 1)
  {
  }

  /** Where the loop stops, its datasets are those of the alignment pass. */
  lemma ResampledUpToEnd(ds: seq<DatasetState>, cur: seq<DatasetState>, name: string, n: nat, resample: RowsResampleFn, i: nat)
    requires ResampledUpTo(ds, cur, name, n, resample, i)
    requires i < |ds| ==> !Resamplable(ds[i], name, n)
    ensures var done := AlignEach(ds, name, n, resample);
      && done.1 == (if i == |ds| then None else Some(StepError(ds[i], name, n, resample)))
      && cur == Overlay(done.0, ds)
  {
    AlignEachStops(ds, name, n, resample, i);
    OverlayAt(AlignEach(ds, name, n, resample).0, ds, cur);
  }

  /** `cur` is `ds` with its first `i` datasets downsampled, none of which
      raised. */
  ghost predicate DownsampledUpTo(ds: seq<DatasetState>, cur: seq<DatasetState>, q: nat, decimate: DecimateFn, resample: CounterResampleFn, i: nat)
    requires q > 0
  {
    && i <= |ds| && |cur| == |ds|
    && (forall j :: 0 <= j < i ==>
          DownsampleSpec(ds[j], q, decimate, resample).1.None? && cur[j] == DownsampleSpec(ds[j], q, decimate, resample).0)
    && (forall j :: i <= j < |ds| ==> cur[j] == ds[j])
  }

  lemma DownsampledUpToStep(ds: seq<DatasetState>, cur: seq<DatasetState>, q: nat, decimate: DecimateFn, resample: CounterResampleFn, i: nat)
    requires q > 0 && DownsampledUpTo(ds, cur, q, decimate, resample, i) && i < |ds|
    requires DownsampleSpec(ds[i], q, decimate, resample).1.None?
    ensures DownsampledUpTo(ds, cur[i := DownsampleSpec(ds[i], q, decimate, resample).0], q, decimate, resample, i + 1)
  {
  }

  /** All datasets downsampled: the comprehension's result. */
  lemma DownsampledAll(ds: seq<DatasetState>, cur: seq<DatasetState>, q: nat, decimate: DecimateFn, resample: CounterResampleFn)
    requires q > 0 && DownsampledUpTo(ds, cur, q, decimate, resample, |ds|)
    ensures var done := DownsampleEach(ds, q, decimate, resample);
      done.1 == None && cur == Overlay(done.0, ds)
  {
    DownsampleEachStops(ds, q, decimate, resample, |ds|);
    OverlayAt(DownsampleEach(ds, q, decimate, resample).0, ds, cur);
  }

  /** The dataset at `i` raised: the comprehension stops with it, partly
      updated. */
  lemma DownsampledFails(ds: seq<DatasetState>, cur: seq<DatasetState>, q: nat, decimate: DecimateFn, resample: CounterResampleFn, i: nat)
    requires q > 0 && DownsampledUpTo(ds, cur, q, decimate, resample, i) && i < |ds|
    requires DownsampleSpec(ds[i], q, decimate, resample).1.Some?
    ensures var done := DownsampleEach(ds, q, decimate, resample);
      var step := DownsampleSpec(ds[i], q, decimate, resample);
      done.1 == step.1 && cur[i := step.0] == Overlay(done.0, ds)
  {
    DownsampleEachStops(ds, q, decimate, resample, i);
    OverlayAt(DownsampleEach(ds, q, decimate, resample).0, ds, cur[i := DownsampleSpec(ds[i], q, decimate, resample).0]);
  }

  /** `align_to_syncregion` on the state of the (possibly copied) session:
      the state reached, partly updated when an error is raised part way,
      and the error if any. */
  function AlignSpec(st: SessionState, resample: RowsResampleFn): (r: (SessionState, Option<Error>))
    ensures st.synced ==> r == (st, Some(Synchronisation))
    ensures |r.0.datasets| == |st.datasets|
    ensures r.0.synced <==> st.synced || r.1.None?
  {
    if st.synced then (st, Some(Synchronisation))
    else
      var n := ReferenceRows(st.datasets);
      if n.Failure? then (st, Some(n.error))
      else
        var passes := AlignPasses(st.datasets, n.value, resample);
        if passes.1.Some? then (st.(datasets := passes.0), passes.1)
        else (SessionState(passes.0, true), None)
  }

  /** The length alignment cuts to: the row count of the `acc` stream of
      the first dataset at `ha_left`. Reading the data of a missing stream
      raises AttributeError. */
  function ReferenceRows(ds: seq<DatasetState>): (r: Result<nat>)
    ensures r.Success? ==> IndexOfPosition(ds, "ha_left").Success?
    ensures r.Success? ==> var i := IndexOfPosition(ds, "ha_left").value;
      Get(ds[i].info, "sensor_position") == Success(Text("ha_left"))
      && "acc" in ds[i].streams && r.value == |ds[i].streams["acc"].data|
    ensures ds == [] ==> r == Failure(IndexError)
  {
    var left := IndexOfPosition(ds, "ha_left");
    if left.Failure? then Result<nat>.Failure(left.error)
    else if "acc" !in ds[left.value].streams then Result<nat>.Failure(AttributeError("data"))
    else Result<nat>.Success(|ds[left.value].streams["acc"].data|)
  }

  /** The two loops of `align_to_syncregion`: every `acc` stream, then
      every `gyro` stream, resampled to `n` rows; the datasets reached and
      the error that stopped a loop, if any. */
  function AlignPasses(ds: seq<DatasetState>, n: nat, resample: RowsResampleFn): (r: (seq<DatasetState>, Option<Error>))
    ensures |r.0| == |ds|
    ensures r.1.Some? ==> r.1.value == AttributeError("data") || r.1.value.ValueError?
  {
    var accs := AlignEach(ds, "acc", n, resample);
    var afterAcc := Overlay(accs.0, ds);
    if accs.1.Some? then (afterAcc, accs.1)
    else
      var gyros := AlignEach(afterAcc, "gyro", n, resample);
      (Overlay(gyros.0, afterAcc), gyros.1)
  }

  // ---------------------------------------------------------------------
  // Resampling

  const LARGER_RATE: string := "Can not resample to a larger frequency."
  const NOT_MULTIPLE: string := "Sample rate must be multiple of resample frequency."

  /** The checks of `resample` on the first dataset's rate and the factor
      it derives: the rate must not be below the target and must be a whole
      multiple of it. A float rate modulo 0 is NaN (refused as not a
      multiple); an integer rate modulo 0 is 0, and the floor division that
      follows divides by zero. */
  function DownsampleFactor(rate: Value, target: nat): (r: Result<nat>)
    ensures r.Success? ==> r.value >= 1
  {
    match rate
    case Int(x) =>
      if x < target then Result<nat>.Failure(ValueError(LARGER_RATE))
      else if target == 0 then Result<nat>.Failure(ZeroDivision)
      else if x % target != 0 then Result<nat>.Failure(ValueError(NOT_MULTIPLE))
      else
        assert x / target >= 1 by { DivisionAtLeastOne(x, target); }
        Result<nat>.Success(x / target)
    case Real(x) =>
      if x < target as real then Result<nat>.Failure(ValueError(LARGER_RATE))
      else if target == 0 then Result<nat>.Failure(ValueError(NOT_MULTIPLE))
      else
        var q := x / target as real;
        if q.Floor as real != q then Result<nat>.Failure(ValueError(NOT_MULTIPLE))
        else
          assert q >= 1.0;
          Result<nat>.Success(q.Floor)
    case _ => Result<nat>.Failure(TypeError)
  }

  lemma DivisionAtLeastOne(x: int, t: int)
    requires t > 0 && x >= t
    ensures x / t >= 1
  {
    var q := x / t;
    assert x == q * t + x % t && x % t < t;
    assert q * t > 0;
  }

  /** The downsampling of each dataset in turn: the states reached, ending
      with the partly updated dataset on which an error was raised. */
  function DownsampleEach(ds: seq<DatasetState>, q: nat, decimate: DecimateFn, resample: CounterResampleFn)
    : (r: (seq<DatasetState>, Option<Error>))
    requires q > 0
    ensures |r.0| <= |ds|
    ensures r.1.None? ==> |r.0| == |ds|
  {
    if ds == [] then ([], None)
    else
      var first := DownsampleSpec(ds[0], q, decimate, resample);
      if first.1.Some? then ([first.0], first.1)
      else
        var rest := DownsampleEach(ds[1..], q, decimate, resample);
        ([first.0] + rest.0, rest.1)
  }

  /** A comprehension that raised nothing downsampled every dataset, each
      without error. */
  lemma {:induction false} DownsampleEachSucceeds(ds: seq<DatasetState>, q: nat, decimate: DecimateFn, resample: CounterResampleFn)
    requires q > 0 && DownsampleEach(ds, q, decimate, resample).1.None?
    ensures var r := DownsampleEach(ds, q, decimate, resample);
      && |r.0| == |ds|
      && forall j :: 0 <= j < |ds| ==>
           DownsampleSpec(ds[j], q, decimate, resample).1.None? && r.0[j] == DownsampleSpec(ds[j], q, decimate, resample).0
  {
    if ds != [] {
      var tail := ds[1..];
      DownsampleEachSucceeds(tail, q, decimate, resample);
      forall j | 1 <= j < |ds|
        ensures ds[j] == tail[j - 1]
      {
      }
    }
  }


  /** `resample` on the state of the (possibly copied) session. The checks
      read the first dataset's rate, and every dataset is then downsampled
      by the same factor. */
  function ResampleSpec(st: SessionState, target: nat, decimate: DecimateFn, resample: CounterResampleFn)
    : (r: (SessionState, Option<Error>))
    ensures |r.0.datasets| == |st.datasets| && r.0.synced == st.synced
    ensures st.datasets == [] ==> r == (st, Some(IndexError))
  {
    assert "sampling_rate_hz" !in HEADER_METHODS;
    var rates := FieldValues(st.datasets, "sampling_rate_hz");
    if rates.Failure? then (st, Some(rates.error))
    else
      var factor := DownsampleFactor(rates.value[0].value, target);
      if factor.Failure? then (st, Some(factor.error))
      else
        var done := DownsampleEach(st.datasets, factor.value, decimate, resample);
        (st.(datasets := Overlay(done.0, st.datasets)), done.1)
  }

  // ---------------------------------------------------------------------
  // Calibration

  /** One step of the comprehension of the session's `calibrate_imu`: a dataset with no calibration is kept. */
  function Calibrated(d: DatasetState, cal: Option<Calibration>): (r: Result<(DatasetState, seq<Diagnostic>)>)
    ensures r.Success? ==> r.value.0.info == d.info && r.value.0.counter == d.counter
    ensures r.Success? ==> r.value.0.streams.Keys == d.streams.Keys
  {
    if cal.None? then Success((d, [])) else CalibrateImuSpec(d, cal.value)
  }

  /** The warnings one step of that comprehension emits, whether or not it
      raises. */
  function StepWarnings(d: DatasetState, cal: Option<Calibration>): (w: seq<Diagnostic>)
    ensures Calibrated(d, cal).Success? ==> Calibrated(d, cal).value.1 == w
    ensures cal.None? ==> w == []
  {
    if cal.None? then [] else CalibrationWarnings(d)
  }

  /** The comprehension of the session's `calibrate_imu` over
      `zip(datasets, calibrations)`: the states of the datasets before the
      first refused one, the warnings emitted up to and including the
      refused step, and the error. A dataset paired with no calibration is
      kept as it is. */
  function CalibrateEach(ds: seq<DatasetState>, cals: seq<Option<Calibration>>)
    : (r: (seq<DatasetState>, seq<Diagnostic>, Option<Error>))
    ensures |r.0| <= |ds| && |r.0| <= |cals|
    ensures r.2.None? ==> |r.0| == if |ds| < |cals| then |ds| else |cals|
    ensures forall j :: 0 <= j < |r.0| ==> Calibrated(ds[j], cals[j]).Success? && r.0[j] == Calibrated(ds[j], cals[j]).value.0
    ensures r.2.Some? ==> |r.0| < |ds| && |r.0| < |cals|
    ensures r.2.Some? ==> Calibrated(ds[|r.0|], cals[|r.0|]).Failure?
    ensures r.2.Some? ==> r.2.value == Calibrated(ds[|r.0|], cals[|r.0|]).error
  {
    if ds == [] || cals == [] then ([], [], None)
    else
      var first := Calibrated(ds[0], cals[0]);
      if first.Failure? then ([], StepWarnings(ds[0], cals[0]), Some(first.error))
      else
        var rest := CalibrateEach(ds[1..], cals[1..]);
        ([first.value.0] + rest.0, first.value.1 + rest.1, rest.2)
  }

  lemma CalibrateEachStep(ds: seq<DatasetState>, cals: seq<Option<Calibration>>, i: nat)
    requires i < |ds| && i < |cals| && Calibrated(ds[i], cals[i]).Success?
    ensures var here := CalibrateEach(ds[i..], cals[i..]);
      var rest := CalibrateEach(ds[i + 1..], cals[i + 1..]);
      && here.1 == Calibrated(ds[i], cals[i]).value.1 + rest.1
      && here.2 == rest.2
      && |here.0| == 1 + |rest.0|
  {
    assert ds[i..][1..] == ds[i + 1..] && cals[i..][1..] == cals[i + 1..];
  }

  /** The warnings of the first `i` steps, all of which succeed. */
  ghost function WarningsUpTo(ds: seq<DatasetState>, cals: seq<Option<Calibration>>, i: nat): seq<Diagnostic>
    requires i <= |ds| && i <= |cals|
  {
    if i == 0 then []
    else
      var step := Calibrated(ds[i - 1], cals[i - 1]);
      WarningsUpTo(ds, cals, i - 1) + if step.Success? then step.value.1 else []
  }

  lemma WarningsStep(ds: seq<DatasetState>, cals: seq<Option<Calibration>>, i: nat, w: seq<Diagnostic>)
    requires i < |ds| && i < |cals|
    requires Calibrated(ds[i], cals[i]).Success? && Calibrated(ds[i], cals[i]).value.1 == w
    ensures WarningsUpTo(ds, cals, i + 1) == WarningsUpTo(ds, cals, i) + w
  {
  }

  /** The warnings of several steps, in order. */
  function Flatten(ws: seq<seq<Diagnostic>>): seq<Diagnostic> {
    if ws == [] then [] else Flatten(ws[..|ws| - 1]) + ws[|ws| - 1]
  }

  /** Warnings collected step by step are those of the first `i` steps. */
  lemma {:induction false} FlattenWarnings(ds: seq<DatasetState>, cals: seq<Option<Calibration>>, ws: seq<seq<Diagnostic>>, i: nat)
    requires i <= |ds| && i <= |cals| && |ws| == i
    requires forall j :: 0 <= j < i ==> Calibrated(ds[j], cals[j]).Success? && ws[j] == Calibrated(ds[j], cals[j]).value.1
    ensures Flatten(ws) == WarningsUpTo(ds, cals, i)
  {
    if i > 0 {
      FlattenWarnings(ds, cals, ws[..i - 1], i - 1);
    }
  }

  /** `cur` is `ds` with its first `i` datasets calibrated, each of those
      steps having succeeded with the warnings in `ws`. */
  ghost predicate CalibratedUpTo(ds: seq<DatasetState>, cals: seq<Option<Calibration>>, cur: seq<DatasetState>, ws: seq<seq<Diagnostic>>, i: nat) {
    && i <= |ds| && i <= |cals| && |cur| == |ds| && |ws| == i
    && (forall j :: 0 <= j < i ==>
          && Calibrated(ds[j], cals[j]).Success?
          && cur[j] == Calibrated(ds[j], cals[j]).value.0
          && ws[j] == Calibrated(ds[j], cals[j]).value.1)
    && (forall j :: i <= j < |ds| ==> cur[j] == ds[j])
  }

  lemma CalibratedUpToStep(ds: seq<DatasetState>, cals: seq<Option<Calibration>>, cur: seq<DatasetState>, ws: seq<seq<Diagnostic>>, i: nat)
    requires CalibratedUpTo(ds, cals, cur, ws, i) && i < |ds| && i < |cals| && Calibrated(ds[i], cals[i]).Success?
    ensures var step := Calibrated(ds[i], cals[i]).value;
      CalibratedUpTo(ds, cals, cur[i := step.0], ws + [step.1], i + 1)
  {
  }

  /** The comprehension split after `i` successful steps. */
  lemma {:induction false} CalibrateEachSplit(ds: seq<DatasetState>, cals: seq<Option<Calibration>>, i: nat)
    requires i <= |ds| && i <= |cals|
    requires forall j :: 0 <= j < i ==> Calibrated(ds[j], cals[j]).Success?
    ensures var whole := CalibrateEach(ds, cals);
      var rest := CalibrateEach(ds[i..], cals[i..]);
      && whole.1 == WarningsUpTo(ds, cals, i) + rest.1
      && whole.2 == rest.2
      && |whole.0| == i + |rest.0|
  {
    if i == 0 {
      assert ds[0..] == ds && cals[0..] == cals;
    } else {
      var w := Calibrated(ds[i - 1], cals[i - 1]).value.1;
      CalibrateEachSplit(ds, cals, i - 1);
      CalibrateEachStep(ds, cals, i - 1);
      WarningsStep(ds, cals, i - 1, w);
      ConcatAssoc(WarningsUpTo(ds, cals, i - 1), w, CalibrateEach(ds[i..], cals[i..]).1);
    }
  }

  lemma CalibrateEachFails(ds: seq<DatasetState>, cals: seq<Option<Calibration>>, i: nat)
    requires i < |ds| && i < |cals| && Calibrated(ds[i], cals[i]).Failure?
    ensures CalibrateEach(ds[i..], cals[i..]) == ([], StepWarnings(ds[i], cals[i]), Some(Calibrated(ds[i], cals[i]).error))
  {
  }

  lemma CalibrateEachEnds(ds: seq<DatasetState>, cals: seq<Option<Calibration>>, i: nat)
    requires i <= |ds| && i <= |cals| && (i == |ds| || i == |cals|)
    ensures CalibrateEach(ds[i..], cals[i..]) == ([], [], None)
  {
  }

  /** `calibrate_imu` on the state of the (possibly copied) session. On
      success the datasets are replaced by the comprehension's list, which
      `zip` cuts to the shorter of the two inputs. */
  function CalibrateSpec(st: SessionState, cals: seq<Option<Calibration>>): (r: (SessionState, seq<Diagnostic>, Option<Error>))
    ensures r.0.synced == st.synced
    ensures r.2.Some? ==> |r.0.datasets| == |st.datasets|
    ensures r.2.None? ==> |r.0.datasets| == if |st.datasets| < |cals| then |st.datasets| else |cals|
  {
    var done := CalibrateEach(st.datasets, cals);
    if done.2.Some? then (st.(datasets := Overlay(done.0, st.datasets)), done.1, done.2)
    else (st.(datasets := done.0), done.1, None)
  }

  // ---------------------------------------------------------------------
  // The preprocessing pipeline

  const CALIBRATION_REQUIRED: string := "Please provide a calibration path or set 'skip_calibration=True'"

  /** The stages of `align_calib_resample`: alignment (only for a pair of
      datasets), calibration (unless skipped) and resampling (only when a
      rate is given), each on the result of the previous stage. `closest`
      holds the calibration found for each dataset; finding and loading it
      is not part of this model. */
  function StagesSpec(
    st: SessionState, closest: seq<Option<Calibration>>, rate: Option<nat>,
    skipCalibration: bool, align: RowsResampleFn, decimate: DecimateFn, resample: CounterResampleFn)
    : (r: (SessionState, seq<Diagnostic>, Option<Error>))
    ensures |st.datasets| != 2 ==> |r.1| >= 1 && r.1[0] == AlignmentSkipped
    ensures |st.datasets| == 2 && st.synced ==> r == (st, [], Some(Synchronisation))
    ensures |st.datasets| == 2 && r.2.None? ==> r.0.synced
  {
    var aligned := if |st.datasets| == 2 then AlignSpec(st, align) else (st, None);
    var w1 := if |st.datasets| == 2 then [] else [AlignmentSkipped];
    if aligned.1.Some? then (aligned.0, w1, aligned.1)
    else
      var calibrated := if !skipCalibration then CalibrateSpec(aligned.0, closest) else (aligned.0, [], None);
      if calibrated.2.Some? then (calibrated.0, w1 + calibrated.1, calibrated.2)
      else if rate.None? then (calibrated.0, w1 + calibrated.1, None)
      else
        var resampled := ResampleSpec(calibrated.0, rate.value, decimate, resample);
        (resampled.0, w1 + calibrated.1, resampled.1)
  }

  /** `align_calib_resample` on the state of the session it starts from:
      without a calibration path calibration must be skipped explicitly,
      which is checked before anything else. */
  function PipelineSpec(
    st: SessionState, calibPath: Option<string>, closest: seq<Option<Calibration>>, rate: Option<nat>,
    skipCalibration: bool, align: RowsResampleFn, decimate: DecimateFn, resample: CounterResampleFn)
    : (r: (SessionState, seq<Diagnostic>, Option<Error>))
    ensures calibPath.None? && !skipCalibration ==> r == (st, [], Some(ValueError(CALIBRATION_REQUIRED)))
    ensures |st.datasets| == 2 && r.2.None? ==> r.0.synced
  {
    if calibPath.None? && !skipCalibration then (st, [], Some(ValueError(CALIBRATION_REQUIRED)))
    else StagesSpec(st, closest, rate, skipCalibration, align, decimate, resample)
  }

  // ---------------------------------------------------------------------
  // The session object

  /** The states of the given dataset objects, in order. */
  function StatesOf(ds: seq<Dataset>): (r: seq<DatasetState>)
    reads ds
    ensures |r| == |ds|
    ensures forall i :: 0 <= i < |ds| ==> r[i] == ds[i].State()
  {
    seq(|ds|, i requires 0 <= i < |ds| reads ds => ds[i].State())
  }

  class Session {
    var datasets: seq<Dataset>
    var synced: bool

    /** The datasets are distinct objects, so updating one in place leaves
        the others as they are. */
    ghost predicate Valid()
      reads this
    {
      forall i, j :: 0 <= i < j < |datasets| ==> datasets[i] != datasets[j]
    }

    function States(): (r: seq<DatasetState>)
      reads this, datasets
      ensures |r| == |datasets|
      ensures forall i :: 0 <= i < |datasets| ==> r[i] == datasets[i].State()
    {
      StatesOf(datasets)
    }

    function State(): SessionState
      reads this, datasets
    {
      SessionState(States(), synced)
    }

    /** `Session.__init__`: the datasets in the given order, not aligned. */
    constructor (ds: seq<Dataset>)
      requires forall i, j :: 0 <= i < j < |ds| ==> ds[i] != ds[j]
      ensures datasets == ds && !synced && Valid()
    {
      datasets := ds;
      synced := false;
    }

    /** The deep copy `inplace_or_copy` makes: new dataset objects with the
        same states. */
    method Copy() returns (c: Session)
      requires Valid()
      ensures fresh(c) && c.Valid() && c.State() == State()
      ensures forall d :: d in c.datasets ==> fresh(d)
    {
      var copies: seq<Dataset> := [];
      var i := 0;
      while i < |datasets|
        invariant 0 <= i <= |datasets|
        invariant |copies| == i
        invariant forall j :: 0 <= j < i ==> fresh(copies[j]) && copies[j].State() == datasets[j].State()
        invariant forall j, k :: 0 <= j < k < i ==> copies[j] != copies[k]
      {
        var d := datasets[i].Copy();
        copies := copies + [d];
        i := i + 1;
      }
      c := new Session(copies);
      c.synced := synced;
    }

    /** The dataset with the given id. */
    function GetDatasetById(id: string): (r: Result<Dataset>)
      reads this, datasets
      ensures r.Success? <==> IndexById(States(), id).Success?
      ensures r.Failure? ==> r.error == IndexById(States(), id).error
      ensures r.Success? ==> r.value == datasets[IndexById(States(), id).value]
    {
      var i :- IndexById(States(), id);
      Success(datasets[i])
    }

    /** The dataset placed at the given position. */
    function GetDatasetByPosition(position: string): (r: Result<Dataset>)
      reads this, datasets
      ensures r.Success? <==> IndexOfPosition(States(), position).Success?
      ensures r.Failure? ==> r.error == IndexOfPosition(States(), position).error
      ensures r.Success? ==> r.value == datasets[IndexOfPosition(States(), position).value]
    {
      var i :- IndexOfPosition(States(), position);
      Success(datasets[i])
    }

    /** Stream `name` of the dataset at `i` replaced by its resampled
        `rows`. */
    method ResampleAt(i: nat, name: string, n: nat, resample: RowsResampleFn, rows: Rows)
      requires Valid() && i < |datasets| && name in datasets[i].streams
      requires resample(datasets[i].streams[name].data, n) == Success(rows)
      modifies datasets[i]
      ensures States() == old(States())[i := Resampled(old(States())[i], name, n, resample)]
    {
      var d := datasets[i];
      d.streams := d.streams[name := d.streams[name].(data := rows)];
    }

    /** One pass of the alignment loop: stream `name` of every dataset in
        turn is resampled to `n` rows, up to the first dataset where reading
        or resampling it raises. */
    method ResampleStreams(name: string, n: nat, resample: RowsResampleFn) returns (err: Option<Error>)
      requires Valid()
      modifies set d: Dataset | d in datasets
      ensures var done := AlignEach(old(States()), name, n, resample);
        && err == done.1
        && States() == Overlay(done.0, old(States()))
    {
      ghost var ds0 := States();
      var i := 0;
      while i < |datasets|
        invariant ResampledUpTo(ds0, States(), name, n, resample, i)
      {
        if name !in datasets[i].streams {
          ResampledUpToEnd(ds0, States(), name, n, resample, i);
          return Some(AttributeError("data"));
        }
        var rows := resample(datasets[i].streams[name].data, n);
        if rows.Failure? {
          ResampledUpToEnd(ds0, States(), name, n, resample, i);
          return Some(rows.error);
        }
        ghost var cur := States();
        ResampleAt(i, name, n, resample, rows.value);
        ResampledUpToStep(ds0, cur, name, n, resample, i);
        i := i + 1;
      }
      ResampledUpToEnd(ds0, States(), name, n, resample, i);
      err := None;
    }

    /** `align_to_syncregion` applied to this session itself. */
    method AlignInPlace(resample: RowsResampleFn) returns (err: Option<Error>)
      requires Valid()
      modifies this, set d: Dataset | d in datasets
      ensures var spec := AlignSpec(old(State()), resample);
        err == spec.1 && State() == spec.0
      ensures datasets == old(datasets) && Valid()
    {
      if synced {
        return Some(Synchronisation);
      }
      var n := ReferenceRows(States());
      if n.Failure? {
        return Some(n.error);
      }
      err := ResamplePasses(n.value, resample);
      if err.Some? {
        return;
      }
      synced := true;
    }

    /** Both loops of the alignment, on this session's datasets. */
    method ResamplePasses(n: nat, resample: RowsResampleFn) returns (err: Option<Error>)
      requires Valid()
      modifies set d: Dataset | d in datasets
      ensures var passes := AlignPasses(old(States()), n, resample);
        err == passes.1 && States() == passes.0
    {
      err := ResampleStreams("acc", n, resample);
      if err.Some? {
        return;
      }
      err := ResampleStreams("gyro", n, resample);
    }

    /** `align_to_syncregion`: both the synchronisation check and the
        reference length are established before any stream is written, so
        an already aligned session is refused unchanged. */
    method AlignToSyncregion(inplace: bool, resample: RowsResampleFn) returns (r: Result<Session>)
      requires Valid()
      modifies if inplace then {this} + set d: Dataset | d in datasets else {}
      ensures var spec := AlignSpec(old(State()), resample);
        && (r.Success? <==> spec.1.None?)
        && (r.Failure? ==> r.error == spec.1.value)
        && (r.Success? ==> r.value.State() == spec.0 && r.value.Valid())
        && (inplace ==> State() == spec.0)
      ensures inplace ==> datasets == old(datasets) && Valid()
      ensures r.Success? && inplace ==> r.value == this
      ensures r.Success? && !inplace ==> fresh(r.value) && forall d :: d in r.value.datasets ==> fresh(d)
      ensures !inplace ==> State() == old(State())
    {
      var s := this;
      if !inplace {
        s := Copy();
      }
      var err := s.AlignInPlace(resample);
      if err.Some? {
        return Failure(err.value);
      }
      r := Success(s);
    }

    /** `Dataset.downsample(inplace=True)` on the dataset at `i`. */
    method DownsampleAt(i: nat, factor: nat, decimate: DecimateFn, resample: CounterResampleFn) returns (err: Option<Error>)
      requires Valid() && i < |datasets| && factor > 0
      modifies datasets[i]
      ensures var spec := DownsampleSpec(old(States())[i], factor, decimate, resample);
        States() == old(States())[i := spec.0] && err == spec.1
    {
      var r := datasets[i].Downsample(factor, true, decimate, resample);
      err := if r.Failure? then Some(r.error) else None;
    }

    /** The comprehension of `resample`: every dataset downsampled in place
        by `factor`, up to the first one that raises. */
    method DownsampleAll(factor: nat, decimate: DecimateFn, resample: CounterResampleFn) returns (err: Option<Error>)
      requires Valid() && factor > 0
      modifies set d: Dataset | d in datasets
      ensures var done := DownsampleEach(old(States()), factor, decimate, resample);
        && err == done.1
        && States() == Overlay(done.0, old(States()))
    {
      ghost var ds0 := States();
      var i := 0;
      while i < |datasets|
        invariant DownsampledUpTo(ds0, States(), factor, decimate, resample, i)
      {
        ghost var cur := States();
        var step := DownsampleAt(i, factor, decimate, resample);
        if step.Some? {
          DownsampledFails(ds0, cur, factor, decimate, resample, i);
          return step;
        }
        DownsampledUpToStep(ds0, cur, factor, decimate, resample, i);
        i := i + 1;
      }
      DownsampledAll(ds0, States(), factor, decimate, resample);
      err := None;
    }

    /** `resample` applied to this session itself. */
    method ResampleInPlace(target: nat, decimate: DecimateFn, resample: CounterResampleFn) returns (err: Option<Error>)
      requires Valid()
      modifies set d: Dataset | d in datasets
      ensures var spec := ResampleSpec(old(State()), target, decimate, resample);
        err == spec.1 && State() == spec.0
    {
      assert "sampling_rate_hz" !in HEADER_METHODS;
      var rates := FieldValues(States(), "sampling_rate_hz");
      if rates.Failure? {
        return Some(rates.error);
      }
      var factor := DownsampleFactor(rates.value[0].value, target);
      if factor.Failure? {
        return Some(factor.error);
      }
      err := DownsampleAll(factor.value, decimate, resample);
    }

    /** `resample`: the rate checks run before any dataset is touched. */
    method Resample(target: nat, inplace: bool, decimate: DecimateFn, resample: CounterResampleFn) returns (r: Result<Session>)
      requires Valid()
      modifies if inplace then {this} + set d: Dataset | d in datasets else {}
      ensures var spec := ResampleSpec(old(State()), target, decimate, resample);
        && (r.Success? <==> spec.1.None?)
        && (r.Failure? ==> r.error == spec.1.value)
        && (r.Success? ==> r.value.State() == spec.0 && r.value.Valid())
        && (inplace ==> State() == spec.0)
      ensures inplace ==> datasets == old(datasets) && Valid()
      ensures r.Success? && inplace ==> r.value == this
      ensures r.Success? && !inplace ==> fresh(r.value) && forall d :: d in r.value.datasets ==> fresh(d)
      ensures !inplace ==> State() == old(State())
    {
      var s := this;
      if !inplace {
        s := Copy();
      }
      var err := s.ResampleInPlace(target, decimate, resample);
      if err.Some? {
        return Failure(err.value);
      }
      r := Success(s);
    }

    /** `Dataset.calibrate_imu(inplace=True)` on the dataset at `i` when it
        is paired with a calibration: a refused calibration leaves it as it
        was. */
    method CalibrateAt(i: nat, cal: Option<Calibration>) returns (err: Option<Error>, warnings: seq<Diagnostic>)
      requires Valid() && i < |datasets|
      modifies datasets[i]
      ensures var spec := Calibrated(old(States())[i], cal);
        && (err.None? <==> spec.Success?)
        && (err.Some? ==> err.value == spec.error && States() == old(States()))
        && (err.None? ==> States() == old(States())[i := spec.value.0])
      ensures warnings == StepWarnings(old(States())[i], cal)
    {
      if cal.None? {
        return None, [];
      }
      var step;
      step, warnings := datasets[i].CalibrateImu(cal.value, true);
      err := if step.Failure? then Some(step.error) else None;
    }

    /** The loop of that comprehension: the datasets before position
        `calibrated` are calibrated, the rest are untouched; `steps` holds
        the warnings of each calibrated dataset and `last` those of the
        refused one. */
    method CalibrateLoop(cals: seq<Option<Calibration>>)
      returns (calibrated: nat, steps: seq<seq<Diagnostic>>, err: Option<Error>, last: seq<Diagnostic>)
      requires Valid()
      modifies set d: Dataset | d in datasets
      ensures var ds0 := old(States());
        && CalibratedUpTo(ds0, cals, States(), steps, calibrated)
        && (err.Some? ==> calibrated < |ds0| && calibrated < |cals| && Calibrated(ds0[calibrated], cals[calibrated]) == Failure(err.value))
        && (err.Some? ==> last == StepWarnings(ds0[calibrated], cals[calibrated]))
      ensures err.None? ==> last == []
      ensures err.None? ==> calibrated == |datasets| || calibrated == |cals|
    {
      ghost var ds0 := States();
      steps := [];
      var i := 0;
      while i < |datasets| && i < |cals|
        invariant CalibratedUpTo(ds0, cals, States(), steps, i)
      {
        ghost var cur := States();
        var stepErr, warnings := CalibrateAt(i, cals[i]);
        if stepErr.Some? {
          return i, steps, stepErr, warnings;
        }
        CalibratedUpToStep(ds0, cals, cur, steps, i);
        steps := steps + [warnings];
        i := i + 1;
      }
      return i, steps, None, [];
    }

    /** The comprehension of `calibrate_imu`: each dataset paired with a
        calibration is calibrated in place, up to the first refusal. */
    method CalibrateAll(cals: seq<Option<Calibration>>) returns (calibrated: nat, warnings: seq<Diagnostic>, err: Option<Error>)
      requires Valid()
      modifies set d: Dataset | d in datasets
      ensures var done := CalibrateEach(old(States()), cals);
        && calibrated == |done.0| && warnings == done.1 && err == done.2
        && States() == Overlay(done.0, old(States()))
    {
      ghost var ds0 := States();
      var steps, last;
      calibrated, steps, err, last := CalibrateLoop(cals);
      warnings := Flatten(steps) + last;
      FlattenWarnings(ds0, cals, steps, calibrated);
      CalibrateEachSplit(ds0, cals, calibrated);
      if err.Some? {
        CalibrateEachFails(ds0, cals, calibrated);
      } else {
        CalibrateEachEnds(ds0, cals, calibrated);
      }
      OverlayAt(CalibrateEach(ds0, cals).0, ds0, States());
    }

    /** `calibrate_imu` applied to this session itself. */
    method CalibrateInPlace(cals: seq<Option<Calibration>>) returns (warnings: seq<Diagnostic>, err: Option<Error>)
      requires Valid()
      modifies this, set d: Dataset | d in datasets
      ensures var spec := CalibrateSpec(old(State()), cals);
        warnings == spec.1 && err == spec.2 && State() == spec.0
      ensures (forall d :: d in datasets ==> d in old(datasets)) && Valid()
    {
      var calibrated;
      calibrated, warnings, err := CalibrateAll(cals);
      if err.Some? {
        return;
      }
      ghost var reached := States();
      datasets := datasets[..calibrated];
      assert States() == reached[..calibrated];
    }

    /** `calibrate_imu` of the session: on success the session keeps the
        datasets that `zip` paired with a calibration entry. */
    method CalibrateImu(cals: seq<Option<Calibration>>, inplace: bool) returns (r: Result<Session>, warnings: seq<Diagnostic>)
      requires Valid()
      modifies if inplace then {this} + set d: Dataset | d in datasets else {}
      ensures var spec := CalibrateSpec(old(State()), cals);
        && (r.Success? <==> spec.2.None?)
        && (r.Failure? ==> r.error == spec.2.value)
        && warnings == spec.1
        && (r.Success? ==> r.value.State() == spec.0 && r.value.Valid())
        && (inplace ==> State() == spec.0)
      ensures inplace ==> (forall d :: d in datasets ==> d in old(datasets)) && Valid()
      ensures r.Success? && inplace ==> r.value == this
      ensures r.Success? && !inplace ==> fresh(r.value) && forall d :: d in r.value.datasets ==> fresh(d)
      ensures !inplace ==> State() == old(State())
    {
      var s := this;
      if !inplace {
        s := Copy();
      }
      var err;
      warnings, err := s.CalibrateInPlace(cals);
      if err.Some? {
        return Failure(err.value), warnings;
      }
      r := Success(s);
    }

    /** The three stages of `align_calib_resample` as written, each called
        with its default `inplace=False` on the result of the previous
        one. */
    static method CopyingStages(
      s: Session, closest: seq<Option<Calibration>>, rate: Option<nat>,
      skipCalibration: bool, align: RowsResampleFn, decimate: DecimateFn, resample: CounterResampleFn)
      returns (r: Result<Session>, warnings: seq<Diagnostic>)
      requires s.Valid()
      ensures var spec := StagesSpec(old(s.State()), closest, rate, skipCalibration, align, decimate, resample);
        && (r.Success? <==> spec.2.None?)
        && (r.Failure? ==> r.error == spec.2.value)
        && warnings == spec.1
        && (r.Success? ==> r.value.State() == spec.0 && r.value.Valid())
    {
      var cur := s;
      warnings := [];
      if |cur.datasets| == 2 {
        var aligned := cur.AlignToSyncregion(false, align);
        if aligned.Failure? {
          return Failure(aligned.error), warnings;
        }
        cur := aligned.value;
      } else {
        warnings := [AlignmentSkipped];
      }
      if !skipCalibration {
        var calibrated, w := cur.CalibrateImu(closest, false);
        warnings := warnings + w;
        if calibrated.Failure? {
          return Failure(calibrated.error), warnings;
        }
        cur := calibrated.value;
      }
      if rate.Some? {
        var resampled := cur.Resample(rate.value, false, decimate, resample);
        if resampled.Failure? {
          return Failure(resampled.error), warnings;
        }
        cur := resampled.value;
      }
      r := Success(cur);
    }

    /** `align_calib_resample` as written: the argument check comes first;
        then every stage returns a new session, so this one is never
        changed, whatever `inplace` says. `closest` is the calibration found
        for each of this session's datasets. */
    method AlignCalibResample(
      calibPath: Option<string>, closest: seq<Option<Calibration>>, rate: Option<nat>, inplace: bool,
      skipCalibration: bool, align: RowsResampleFn, decimate: DecimateFn, resample: CounterResampleFn)
      returns (r: Result<Session>, warnings: seq<Diagnostic>)
      requires Valid()
      ensures var spec := PipelineSpec(old(State()), calibPath, closest, rate, skipCalibration, align, decimate, resample);
        && (r.Success? <==> spec.2.None?)
        && (r.Failure? ==> r.error == spec.2.value)
        && warnings == spec.1
        && (r.Success? ==> r.value.State() == spec.0 && r.value.Valid())
      ensures State() == old(State())
    {
      if calibPath.None? && !skipCalibration {
        return Failure(ValueError(CALIBRATION_REQUIRED)), [];
      }
      var s := this;
      if !inplace {
        s := Copy();
      }
      r, warnings := CopyingStages(s, closest, rate, skipCalibration, align, decimate, resample);
    }

    /** The three stages applied to this session itself. */
    method StagesInPlace(
      closest: seq<Option<Calibration>>, rate: Option<nat>,
      skipCalibration: bool, align: RowsResampleFn, decimate: DecimateFn, resample: CounterResampleFn)
      returns (warnings: seq<Diagnostic>, err: Option<Error>)
      requires Valid()
      modifies this, set d: Dataset | d in datasets
      ensures var spec := StagesSpec(old(State()), closest, rate, skipCalibration, align, decimate, resample);
        warnings == spec.1 && err == spec.2 && State() == spec.0
      ensures Valid()
    {
      warnings := [];
      if |datasets| == 2 {
        err := AlignInPlace(align);
        if err.Some? {
          return;
        }
      } else {
        warnings := [AlignmentSkipped];
      }
      if !skipCalibration {
        var w;
        w, err := CalibrateInPlace(closest);
        warnings := warnings + w;
        if err.Some? {
          return;
        }
      }
      if rate.Some? {
        err := ResampleInPlace(rate.value, decimate, resample);
        return;
      }
      err := None;
    }

    /** `align_calib_resample` as its documentation describes it: with
        `inplace` the stages work on this session itself, otherwise on one
        copy of it. */
    method AlignCalibResampleInPlace(
      calibPath: Option<string>, closest: seq<Option<Calibration>>, rate: Option<nat>, inplace: bool,
      skipCalibration: bool, align: RowsResampleFn, decimate: DecimateFn, resample: CounterResampleFn)
      returns (r: Result<Session>, warnings: seq<Diagnostic>)
      requires Valid()
      modifies if inplace then {this} + set d: Dataset | d in datasets else {}
      ensures var spec := PipelineSpec(old(State()), calibPath, closest, rate, skipCalibration, align, decimate, resample);
        && (r.Success? <==> spec.2.None?)
        && (r.Failure? ==> r.error == spec.2.value)
        && warnings == spec.1
        && (r.Success? ==> r.value.State() == spec.0 && r.value.Valid())
        && (inplace ==> State() == spec.0)
      ensures r.Success? && inplace ==> r.value == this
      ensures !inplace ==> State() == old(State())
    {
      if calibPath.None? && !skipCalibration {
        return Failure(ValueError(CALIBRATION_REQUIRED)), [];
      }
      var s := this;
      if !inplace {
        s := Copy();
      }
      var err;
      warnings, err := s.StagesInPlace(closest, rate, skipCalibration, align, decimate, resample);
      if err.Some? {
        return Failure(err.value), warnings;
      }
      r := Success(s);
    }
  }
}

=== FILE: session_properties.dfy ===
/** Properties of the session operations: what alignment, resampling,
    calibration and the preprocessing pipeline guarantee about the datasets
    they produce, and which refusals happen before anything is changed. */
module SessionProperties {
  import opened Common
  import opened Headers
  import opened Datasets
  import opened Sessions
  import DatasetProperties

  // ---------------------------------------------------------------------
  // Reading a header field through the session

  /** When every dataset has the field set, the session's view of it is the
      tuple of those values in dataset order. */
  lemma FieldValuesWhenSet(ds: seq<DatasetState>, name: string)
    requires name in HEADER_FIELDS && name !in PROXY_OWN && name !in HEADER_METHODS
    requires ds != []
    requires forall i :: 0 <= i < |ds| ==> name in ds[i].info.fields
    ensures FieldValues(ds, name).Success?
    ensures forall i :: 0 <= i < |ds| ==> FieldValues(ds, name).value[i] == Data(ds[i].info.fields[name])
  {
    var hs := Infos(ds);
    assert forall i :: 0 <= i < |hs| ==> HeaderAttr(hs[i], name) == Success(Data(ds[i].info.fields[name]));
    assert Collect(hs, name).Success?;
  }

  /** A session whose datasets all lack the field fails on the first. */
  lemma FieldValuesWhenUnset(ds: seq<DatasetState>, name: string)
    requires name in HEADER_FIELDS && name !in PROXY_OWN && name !in HEADER_METHODS
    requires ds != [] && name !in ds[0].info.fields
    ensures FieldValues(ds, name) == Failure(AttributeError(name))
  {
    assert Infos(ds)[0] == ds[0].info;
  }

  // ---------------------------------------------------------------------
  // Alignment

  /** One dataset after both passes of the alignment loop. */
  lemma AlignedDataset(d: DatasetState, n: nat, resample: RowsResampleFn)
    requires Resamplable(d, "acc", n) && Resamplable(d, "gyro", n)
    ensures Resamplable(Resampled(d, "acc", n, resample), "gyro", n)
    ensures var d' := Resampled(Resampled(d, "acc", n, resample), "gyro", n, resample);
      && d'.counter == d.counter
      && d'.info == d.info
      && d'.streams.Keys == d.streams.Keys
      && |d'.streams["acc"].data| == n
      && |d'.streams["gyro"].data| == n
      && forall k :: k in d.streams && k != "acc" && k != "gyro" ==> d'.streams[k] == d.streams[k]
  {
  }

  /** An aligned dataset stays consistent exactly when its counter already
      had `n` values or neither stream is active: alignment resamples the
      streams but leaves the counter as it was. */
  lemma AlignedKeepsConsistent(d: DatasetState, n: nat, resample: RowsResampleFn)
    requires Consistent(d)
    requires Resamplable(d, "acc", n) && Resamplable(d, "gyro", n)
    ensures Resamplable(Resampled(d, "acc", n, resample), "gyro", n)
    ensures var d' := Resampled(Resampled(d, "acc", n, resample), "gyro", n, resample);
      var active := ActiveSensors(d.info).value;
      Consistent(d') <==> |d.counter| == n || ("acc" !in active && "gyro" !in active)
  {
    AlignedDataset(d, n, resample);
  }

  /** Corrected alignment, with the counter resampled like the streams,
      keeps a consistent dataset consistent whenever its active sensors are
      among the two a Signia header can enable, `acc` and `gyro`: every
      stream and the counter end with `n` rows. */
  lemma CorrectedAlignKeepsConsistent(d: DatasetState, n: nat, resample: RowsResampleFn, counterResample: CounterResampleFn)
    requires Consistent(d)
    requires Resamplable(d, "acc", n) && Resamplable(d, "gyro", n)
    requires forall k :: k in ActiveSensors(d.info).value ==> k == "acc" || k == "gyro"
    requires |d.counter| > 0
    ensures AlignedCorrected(d, n, resample, counterResample).Success?
    ensures var d' := AlignedCorrected(d, n, resample, counterResample).value;
      && Consistent(d')
      && |d'.counter| == n && |d'.streams["acc"].data| == n && |d'.streams["gyro"].data| == n
  {
    AlignedDataset(d, n, resample);
  }

  /** A pass of the alignment loop that reaches the end rewrites every
      dataset. */
  lemma AlignPassComplete(ds: seq<DatasetState>, name: string, n: nat, resample: RowsResampleFn)
    requires AlignEach(ds, name, n, resample).1.None?
    ensures Overlay(AlignEach(ds, name, n, resample).0, ds) == AlignEach(ds, name, n, resample).0
  {
    assert ds[|ds|..] == [];
  }

  /** Both alignment loops run to the end exactly when every dataset has
      a non-empty `acc` and a non-empty `gyro` stream and the target is at
      least one row. */
  lemma AlignPassesSucceed(ds: seq<DatasetState>, n: nat, resample: RowsResampleFn)
    ensures AlignPasses(ds, n, resample).1.None?
      <==> forall j :: 0 <= j < |ds| ==> Resamplable(ds[j], "acc", n) && Resamplable(ds[j], "gyro", n)
  {
    var accs := AlignEach(ds, "acc", n, resample);
    if accs.1.None? {
      AlignPassComplete(ds, "acc", n, resample);
      assert forall j :: 0 <= j < |ds| ==> Resamplable(accs.0[j], "gyro", n) == Resamplable(ds[j], "gyro", n);
    }
  }

  /** A successful alignment started on an unaligned session with a
      `ha_left` dataset holding `acc`; afterwards every dataset has both
      streams, each cut or stretched to the row count of that `acc`, and the
      session is marked aligned. Counters, headers and every other stream
      are kept. */
  lemma AlignLengths(st: SessionState, resample: RowsResampleFn)
    requires AlignSpec(st, resample).1.None?
    ensures !st.synced
    ensures IndexOfPosition(st.datasets, "ha_left").Success?
    ensures "acc" in st.datasets[IndexOfPosition(st.datasets, "ha_left").value].streams
    ensures var n := |st.datasets[IndexOfPosition(st.datasets, "ha_left").value].streams["acc"].data|;
      var st' := AlignSpec(st, resample).0;
      && n > 0
      && st'.synced
      && |st'.datasets| == |st.datasets|
      && forall j :: 0 <= j < |st.datasets| ==>
           Resamplable(st.datasets[j], "acc", n) && Resamplable(st.datasets[j], "gyro", n)
           && st'.datasets[j] == Resampled(Resampled(st.datasets[j], "acc", n, resample), "gyro", n, resample)
  {
    var left := IndexOfPosition(st.datasets, "ha_left").value;
    var n := |st.datasets[left].streams["acc"].data|;
    var accs := AlignEach(st.datasets, "acc", n, resample);
    AlignPassComplete(st.datasets, "acc", n, resample);
    var afterAcc := accs.0;
    var gyros := AlignEach(afterAcc, "gyro", n, resample);
    AlignPassComplete(afterAcc, "gyro", n, resample);
    assert AlignSpec(st, resample).0 == SessionState(gyros.0, true);
  }

  /** What alignment does to each dataset: both streams get the row count
      of the `ha_left` dataset's `acc`; counters, headers and every other
      stream are kept. */
  lemma AlignStreamLengths(st: SessionState, resample: RowsResampleFn, j: nat)
    requires AlignSpec(st, resample).1.None?
    requires j < |st.datasets|
    ensures IndexOfPosition(st.datasets, "ha_left").Success?
    ensures "acc" in st.datasets[IndexOfPosition(st.datasets, "ha_left").value].streams
    ensures var n := |st.datasets[IndexOfPosition(st.datasets, "ha_left").value].streams["acc"].data|;
      var d, d' := st.datasets[j], AlignSpec(st, resample).0.datasets[j];
      && d'.counter == d.counter
      && d'.info == d.info
      && d'.streams.Keys == d.streams.Keys
      && "acc" in d'.streams && |d'.streams["acc"].data| == n
      && "gyro" in d'.streams && |d'.streams["gyro"].data| == n
      && forall k :: k in d.streams && k != "acc" && k != "gyro" ==> d'.streams[k] == d.streams[k]
  {
    AlignLengths(st, resample);
    var n := |st.datasets[IndexOfPosition(st.datasets, "ha_left").value].streams["acc"].data|;
    AlignedDataset(st.datasets[j], n, resample);
  }

  /** Alignment is one-shot: once it has succeeded, a second call raises
      the synchronisation error and changes nothing. */
  lemma AlignTwiceRefused(st: SessionState, resample: RowsResampleFn, again: RowsResampleFn)
    requires AlignSpec(st, resample).1.None?
    ensures var st' := AlignSpec(st, resample).0;
      AlignSpec(st', again) == (st', Some(Synchronisation))
  {
    AlignLengths(st, resample);
  }

  /** The refusals of alignment come before any stream is written: an
      aligned session, one without a `ha_left` dataset and one whose
      `ha_left` dataset has no `acc` are returned unchanged. */
  lemma AlignRefusalsKeepState(st: SessionState, resample: RowsResampleFn)
    requires st.synced
      || IndexOfPosition(st.datasets, "ha_left").Failure?
      || "acc" !in st.datasets[IndexOfPosition(st.datasets, "ha_left").value].streams
    ensures AlignSpec(st, resample).0 == st
    ensures AlignSpec(st, resample).1.Some?
    ensures st.synced ==> AlignSpec(st, resample).1 == Some(Synchronisation)
  {
  }

  /** When the `ha_left` dataset's `acc` is empty, every stream would be
      resampled to zero rows: the first dataset already raises (the
      ValueError of the resampling, or AttributeError when it has no
      `acc`), and nothing is changed. */
  lemma AlignToEmptyLeftRefused(st: SessionState, resample: RowsResampleFn)
    requires !st.synced
    requires ReferenceRows(st.datasets) == Success(0)
    ensures st.datasets != []
    ensures AlignSpec(st, resample) == (st, Some(StepError(st.datasets[0], "acc", 0, resample)))
    ensures "acc" in st.datasets[0].streams ==> AlignSpec(st, resample).1.value.ValueError?
  {
    var accs := AlignEach(st.datasets, "acc", 0, resample);
    assert accs == ([], Some(StepError(st.datasets[0], "acc", 0, resample)));
    assert Overlay(accs.0, st.datasets) == st.datasets;
    assert AlignPasses(st.datasets, 0, resample) == (st.datasets, accs.1);
  }

  /** Alignment is refused when no dataset sits at `ha_left`, provided every
      dataset has a position. */
  lemma AlignNeedsLeftDevice(st: SessionState, resample: RowsResampleFn)
    requires !st.synced && st.datasets != []
    requires forall i :: 0 <= i < |st.datasets| ==> "sensor_position" in st.datasets[i].info.fields
    requires forall i :: 0 <= i < |st.datasets| ==> st.datasets[i].info.fields["sensor_position"] != Text("ha_left")
    ensures AlignSpec(st, resample) == (st, Some(ValueError(POSITION_UNDEFINED)))
  {
    assert "sensor_position" in HEADER_FIELDS by { assert HEADER_FIELDS[1] == "sensor_position"; }
    FieldValuesWhenSet(st.datasets, "sensor_position");
  }

  // ---------------------------------------------------------------------
  // Resampling

  /** The factor `resample` derives from an integer rate: accepted exactly
      when the rate is at least the (positive) target and a whole multiple
      of it, and then rate == factor * target. */
  lemma IntegerFactor(x: int, target: nat)
    requires target > 0
    ensures DownsampleFactor(Int(x), target).Success? <==> x >= target && x % target == 0
    ensures x < target ==> DownsampleFactor(Int(x), target) == Failure(ValueError(LARGER_RATE))
    ensures x >= target && x % target != 0 ==> DownsampleFactor(Int(x), target) == Failure(ValueError(NOT_MULTIPLE))
    ensures DownsampleFactor(Int(x), target).Success? ==> DownsampleFactor(Int(x), target).value * target == x
  {
    if x >= target && x % target == 0 {
      assert x == (x / target) * target + x % target;
    }
  }

  /** The same for a floating-point rate: accepted exactly when it is at
      least the target and the quotient is a whole number. */
  lemma RealFactor(x: real, target: nat)
    requires target > 0
    ensures DownsampleFactor(Real(x), target).Success? <==>
      x >= target as real && (x / target as real).Floor as real == x / target as real
    ensures x < target as real ==> DownsampleFactor(Real(x), target) == Failure(ValueError(LARGER_RATE))
    ensures DownsampleFactor(Real(x), target).Success? ==> DownsampleFactor(Real(x), target).value as real * target as real == x
  {
  }

  /** A target of zero is always refused: an integer rate divides by zero,
      a floating-point one is not a multiple (or is a larger rate). */
  lemma ZeroTargetRefused(rate: Value)
    ensures DownsampleFactor(rate, 0).Failure?
  {
  }

  /** Dividing an integer rate by the factor derived from it gives back the
      target. */
  lemma IntegerRateOverFactor(x: int, target: nat)
    requires DownsampleFactor(Int(x), target).Success?
    ensures target > 0
    ensures x as real / DownsampleFactor(Int(x), target).value as real == target as real
  {
    var q := DownsampleFactor(Int(x), target).value;
    IntegerFactor(x, target);
    assert x as real == q as real * target as real;
  }

  /** The same for a floating-point rate. */
  lemma RealRateOverFactor(x: real, target: nat)
    requires DownsampleFactor(Real(x), target).Success?
    ensures target > 0
    ensures x / DownsampleFactor(Real(x), target).value as real == target as real
  {
    RealFactor(x, target);
  }

  /** The rate checks of `resample` come before any dataset is touched: a
      refused rate leaves the session as it was. */
  lemma ResampleRefusalsKeepState(st: SessionState, target: nat, decimate: DecimateFn, resample: CounterResampleFn)
    requires st.datasets != []
    requires forall i :: 0 <= i < |st.datasets| ==> "sampling_rate_hz" in st.datasets[i].info.fields
    requires DownsampleFactor(st.datasets[0].info.fields["sampling_rate_hz"], target).Failure?
    ensures ResampleSpec(st, target, decimate, resample) ==
      (st, Some(DownsampleFactor(st.datasets[0].info.fields["sampling_rate_hz"], target).error))
  {
    ResampleOnFirstRate(st, target, decimate, resample);
  }

  /** When every dataset has a rate, `resample` decides on the first
      dataset's rate alone and then downsamples the datasets in turn. */
  lemma ResampleOnFirstRate(st: SessionState, target: nat, decimate: DecimateFn, resample: CounterResampleFn)
    requires st.datasets != []
    requires forall i :: 0 <= i < |st.datasets| ==> "sampling_rate_hz" in st.datasets[i].info.fields
    ensures var factor := DownsampleFactor(st.datasets[0].info.fields["sampling_rate_hz"], target);
      ResampleSpec(st, target, decimate, resample) ==
        if factor.Failure? then (st, Some(factor.error))
        else
          var done := DownsampleEach(st.datasets, factor.value, decimate, resample);
          (st.(datasets := Overlay(done.0, st.datasets)), done.1)
  {
    assert "sampling_rate_hz" in HEADER_FIELDS by { assert HEADER_FIELDS[2] == "sampling_rate_hz"; }
    FieldValuesWhenSet(st.datasets, "sampling_rate_hz");
  }

  /** A successful `resample` downsamples every dataset by the factor
      derived from the first dataset's rate. */
  lemma ResampleEveryDataset(st: SessionState, target: nat, decimate: DecimateFn, resample: CounterResampleFn)
    requires st.datasets != []
    requires forall i :: 0 <= i < |st.datasets| ==> "sampling_rate_hz" in st.datasets[i].info.fields
    requires ResampleSpec(st, target, decimate, resample).1.None?
    ensures DownsampleFactor(st.datasets[0].info.fields["sampling_rate_hz"], target).Success?
    ensures var q := DownsampleFactor(st.datasets[0].info.fields["sampling_rate_hz"], target).value;
      var st' := ResampleSpec(st, target, decimate, resample).0;
      && |st'.datasets| == |st.datasets|
      && st'.synced == st.synced
      && forall j :: 0 <= j < |st.datasets| ==>
           DownsampleSpec(st.datasets[j], q, decimate, resample).1.None?
           && st'.datasets[j] == DownsampleSpec(st.datasets[j], q, decimate, resample).0
  {
    ResampleOnFirstRate(st, target, decimate, resample);
    var q := DownsampleFactor(st.datasets[0].info.fields["sampling_rate_hz"], target).value;
    var done := DownsampleEach(st.datasets, q, decimate, resample);
    DownsampleEachSucceeds(st.datasets, q, decimate, resample);
    assert st.datasets[|done.0|..] == [];
  }

  /** ... and every counter is shortened by that factor. */
  lemma ResampleCounter(st: SessionState, target: nat, decimate: DecimateFn, resample: CounterResampleFn, j: nat)
    requires st.datasets != [] && j < |st.datasets|
    requires forall i :: 0 <= i < |st.datasets| ==> "sampling_rate_hz" in st.datasets[i].info.fields
    requires ResampleSpec(st, target, decimate, resample).1.None?
    ensures DownsampleFactor(st.datasets[0].info.fields["sampling_rate_hz"], target).Success?
    ensures |ResampleSpec(st, target, decimate, resample).0.datasets[j].counter|
      == |st.datasets[j].counter| / DownsampleFactor(st.datasets[0].info.fields["sampling_rate_hz"], target).value
  {
    ResampleEveryDataset(st, target, decimate, resample);
    var q := DownsampleFactor(st.datasets[0].info.fields["sampling_rate_hz"], target).value;
    DatasetProperties.DownsampleCounter(st.datasets[j], q, decimate, resample);
  }

  /** After a successful `resample` the first dataset runs at the target
      rate. */
  lemma ResampleReachesTarget(st: SessionState, target: nat, decimate: DecimateFn, resample: CounterResampleFn)
    requires st.datasets != []
    requires forall i :: 0 <= i < |st.datasets| ==> "sampling_rate_hz" in st.datasets[i].info.fields
    requires ResampleSpec(st, target, decimate, resample).1.None?
    ensures Get(ResampleSpec(st, target, decimate, resample).0.datasets[0].info, "sampling_rate_hz")
      == Success(Real(target as real))
  {
    ResampleEveryDataset(st, target, decimate, resample);
    var rate := st.datasets[0].info.fields["sampling_rate_hz"];
    var q := DownsampleFactor(rate, target).value;
    DatasetProperties.DownsampleRate(st.datasets[0], q, decimate, resample);
    if rate.Int? {
      IntegerRateOverFactor(rate.i, target);
    } else {
      RealRateOverFactor(rate.r, target);
    }
  }

  // ---------------------------------------------------------------------
  // Calibration

  /** A session paired with no calibration at all (and with at least one
      entry per dataset) is kept as it is. */
  lemma {:induction false} CalibrateEachNothing(ds: seq<DatasetState>, cals: seq<Option<Calibration>>)
    requires |cals| >= |ds|
    requires forall i :: 0 <= i < |cals| ==> cals[i].None?
    ensures CalibrateEach(ds, cals) == (ds, [], None)
  {
    if ds != [] {
      CalibrateEachNothing(ds[1..], cals[1..]);
      assert Calibrated(ds[0], cals[0]) == Success((ds[0], []));
      assert [ds[0]] + ds[1..] == ds;
      var r := CalibrateEach(ds, cals);
      assert r.0 == ds;
      assert r.1 == [];
      assert r.2 == None;
    }
  }

  lemma CalibrateNothing(st: SessionState, cals: seq<Option<Calibration>>)
    requires |cals| >= |st.datasets|
    requires forall i :: 0 <= i < |cals| ==> cals[i].None?
    ensures CalibrateSpec(st, cals) == (st, [], None)
  {
    CalibrateEachNothing(st.datasets, cals);
  }

  /** A successful session calibration keeps one dataset per pair that
      `zip` formed: those paired with no calibration unchanged, the others
      calibrated; datasets beyond the end of `cals` are dropped. */
  lemma CalibrateKeepsPairs(st: SessionState, cals: seq<Option<Calibration>>)
    requires CalibrateSpec(st, cals).2.None?
    ensures var st' := CalibrateSpec(st, cals).0;
      && |st'.datasets| == (if |st.datasets| < |cals| then |st.datasets| else |cals|)
      && st'.synced == st.synced
      && forall j :: 0 <= j < |st'.datasets| ==>
           && (cals[j].None? ==> st'.datasets[j] == st.datasets[j])
           && (cals[j].Some? ==>
                 CalibrateImuSpec(st.datasets[j], cals[j].value).Success?
                 && st'.datasets[j] == CalibrateImuSpec(st.datasets[j], cals[j].value).value.0)
  {
  }

  /** When the first dataset's calibration is refused, the session is
      returned unchanged with the error and with the warnings that dataset
      emitted before its check raised. */
  lemma CalibrateFirstRefused(st: SessionState, cals: seq<Option<Calibration>>)
    requires |st.datasets| > 0 && |cals| > 0
    requires Calibrated(st.datasets[0], cals[0]).Failure?
    ensures CalibrateSpec(st, cals)
      == (st, StepWarnings(st.datasets[0], cals[0]), Some(Calibrated(st.datasets[0], cals[0]).error))
  {
    assert Overlay([], st.datasets) == st.datasets;
  }

  /** Calibrating a session twice with a calibration for a dataset that has
      both streams raises the repeated-calibration error. */
  lemma CalibrateSessionTwice(st: SessionState, first: seq<Option<Calibration>>, second: seq<Option<Calibration>>)
    requires CalibrateSpec(st, first).2.None?
    requires |st.datasets| > 0 && |first| > 0 && first[0].Some?
    requires "acc" in st.datasets[0].streams && "gyro" in st.datasets[0].streams
    requires |second| > 0 && second[0].Some?
    ensures CalibrateSpec(CalibrateSpec(st, first).0, second).2 == Some(RepeatedCalibration("acc", false))
  {
    var st' := CalibrateSpec(st, first).0;
    CalibrateKeepsPairs(st, first);
    DatasetProperties.CalibrateTwice(st.datasets[0], first[0].value, second[0].value);
    assert CalibrateEach(st'.datasets, second).2 == Some(RepeatedCalibration("acc", false));
  }

  // ---------------------------------------------------------------------
  // The preprocessing pipeline

  /** Without a calibration path, calibration must be skipped explicitly;
      the check comes before any stage, so nothing is changed. */
  lemma PipelineNeedsCalibrationPath(
    st: SessionState, closest: seq<Option<Calibration>>, rate: Option<nat>,
    align: RowsResampleFn, decimate: DecimateFn, resample: CounterResampleFn)
    ensures PipelineSpec(st, None, closest, rate, false, align, decimate, resample)
      == (st, [], Some(ValueError(CALIBRATION_REQUIRED)))
  {
  }

  /** A session that is not a pair is not aligned (a warning says so); with
      calibration skipped and no rate, nothing else happens. */
  lemma PipelineSkipsAll(
    st: SessionState, calibPath: Option<string>, closest: seq<Option<Calibration>>,
    align: RowsResampleFn, decimate: DecimateFn, resample: CounterResampleFn)
    requires |st.datasets| != 2
    ensures PipelineSpec(st, calibPath, closest, None, true, align, decimate, resample) == (st, [AlignmentSkipped], None)
  {
    assert [AlignmentSkipped] + [] == [AlignmentSkipped];
  }

  /** The stages run in the order align, calibrate, resample, each on the
      result of the previous one, and a pair of datasets that succeeds is
      aligned: its result is marked aligned although the session started
      unaligned. */
  lemma PipelineAlignsPair(
    st: SessionState, calibPath: Option<string>, closest: seq<Option<Calibration>>, rate: Option<nat>,
    skipCalibration: bool, align: RowsResampleFn, decimate: DecimateFn, resample: CounterResampleFn)
    requires |st.datasets| == 2 && !st.synced
    requires PipelineSpec(st, calibPath, closest, rate, skipCalibration, align, decimate, resample).2.None?
    ensures var aligned := AlignSpec(st, align);
      var calibrated := if skipCalibration then (aligned.0, [], None) else CalibrateSpec(aligned.0, closest);
      var result := PipelineSpec(st, calibPath, closest, rate, skipCalibration, align, decimate, resample);
      && aligned.1.None? && calibrated.2.None?
      && result.0 == (if rate.None? then calibrated.0 else ResampleSpec(calibrated.0, rate.value, decimate, resample).0)
      && result.0.synced
      && result.0 != st
  {
    AlignLengths(st, align);
  }

  /** `align_calib_resample` as written, asked to work in place on an
      unaligned pair: when it succeeds, the session it returns is aligned
      but the session it was called on is still unaligned. */
  method AsWrittenIgnoresInPlace(
    s: Session, calibPath: Option<string>, closest: seq<Option<Calibration>>, rate: Option<nat>,
    skipCalibration: bool, align: RowsResampleFn, decimate: DecimateFn, resample: CounterResampleFn)
    returns (r: Result<Session>)
    requires s.Valid() && |s.datasets| == 2 && !s.synced
    ensures r.Success? ==> r.value.synced && !s.synced
  {
    ghost var st := s.State();
    var warnings;
    r, warnings := s.AlignCalibResample(calibPath, closest, rate, true, skipCalibration, align, decimate, resample);
    if r.Success? {
      PipelineAlignsPair(st, calibPath, closest, rate, skipCalibration, align, decimate, resample);
    }
  }

  /** The corrected pipeline on the same input: when it succeeds, the
      session it was called on is the one returned, and it is aligned. */
  method CorrectedAlignsInPlace(
    s: Session, calibPath: Option<string>, closest: seq<Option<Calibration>>, rate: Option<nat>,
    skipCalibration: bool, align: RowsResampleFn, decimate: DecimateFn, resample: CounterResampleFn)
    returns (r: Result<Session>)
    requires s.Valid() && |s.datasets| == 2 && !s.synced
    modifies s, set d: Dataset | d in s.datasets
    ensures r.Success? ==> r.value == s && s.synced
  {
    ghost var st := s.State();
    var warnings;
    r, warnings := s.AlignCalibResampleInPlace(calibPath, closest, rate, true, skipCalibration, align, decimate, resample);
    if r.Success? {
      PipelineAlignsPair(st, calibPath, closest, rate, skipCalibration, align, decimate, resample);
    }
  }
}
